=== FILE: README.md ===
# VCT provider core in Dafny

A model of the core of the QGIS VCT vector data provider. VCT is the
Chinese national exchange format for vector geodata. It is a line-oriented
text file made of tagged sections: `HeadBegin`…`HeadEnd`,
`FeatureCodeBegin`…, `TableStructureBegin`…, `PointBegin`…,
`LineBegin`…, `PolygonBegin`…, `AnnotationBegin`… and
`AttributeBegin`…. The provider works in three steps:

- `readData` decodes a file into an in-memory feature store.
- The editing operations change that store.
- `writeData` re-encodes the whole store after every edit.

The model covers the three steps and proves how they relate.

The file is a sequence of lines (`seq<string>`). Every reader takes the
lines still unread and returns `Res<Read<T>>`: the value read plus the rest
of the lines, or a failure when the input runs out or a line lacks the
items it must hold. Every writer puts its own lines in front of the lines
that follow. The feature map (`QMap<QgsFeatureId, QgsFeature>`) is a list of
entries in ascending key order.

Modules, in dependency order:

| module | file | contents |
|---|---|---|
| `Wrappers` | wrappers.dfy | `Option`, `Result` |
| `Text` | text.dfy | `QString::contains`, `split`, `trimmed`, `toInt` and integer printing |
| `Geometry` | geometry.dfy | points, multi-points, multi-lines, multi-polygons, geometry types |
| `Features` | feature.dfy | attribute values, features, the default feature |
| `OrderedMap` | orderedmap.dfy | the ordered feature map (`QMap`) |
| `Store` | store.dfy | the provider's state: head, CRS, extent, feature code, fields, features, id counter |
| `Lines` | lines.dfy | the line cursor and read failures |
| `HeaderReader` | headreader.dfy | `readComment`, `readHead`, `readFeatureCode`, `readTableStructure`, skipped sections |
| `GeometryReader` | geomreader.dfy | `readPoint`, `readLine`, `readPolygon` |
| `AttributeReader` | attrreader.dfy | `readAttribute` |
| `Reader` | reader.dfy | `readData` and the constructor's load |
| `Writer` | writer.dfy | `writeData` |
| `RecordRoundTrip` | recordtrip.dfy | one record written, then read |
| `SectionRoundTrip` | sectiontrip.dfy | a geometry section and the attribute section written, then read |
| `DocumentRoundTrip` | doctrip.dfy | the whole document written, then read |
| `Edits` | edits.dfy | `addFeatures`, `deleteFeatures`, `changeAttributeValues`, `changeGeometryValues`, `addAttributes`, `renameAttributes`, `deleteAttributes`, `updateExtents` |
| `Validity` | validity.dfy | `isValid` and what the reader makes of it |
| `Persistence` | persist.dfy | edits followed by a write and a reload |
| `Decoding` | decoding.dfy | single header lines and records, as the decoders read them |

The whole-document round trip (`DocumentRoundTrip.WriteThenRead`) holds
for the stores `DocumentRoundTrip.Reloadable` describes. Several constructs
the provider can hold fall outside it, and the model states what becomes of
them:

- A multi-point (`RecordRoundTrip.MultiPointLost`).
- A point-layer feature with a single point, an empty multi-point or no
  geometry. It is written with no coordinate line, and the record cannot be
  read back (`RecordRoundTrip.NoPointsUnreadable`).
- A `Double` field (`DocumentRoundTrip.DoubleFieldChanges`).
- Any other field whose type name is not kept (`DocumentRoundTrip.FieldLineRead`):
  - a type name containing `Int` comes back as `Int`, the provider's own
    `Int1`, `Int2`, `Int4` and `Int8` included;
  - every type but `Int` comes back stored as a string, `Float`, `Date`,
    `Time` and `Datetime` included;
  - lengths and precisions come back as 0.
- A multi-line with no parts (`RecordRoundTrip.EmptyLineGainsPart`).
- A layer of none of the three geometry types (`DocumentRoundTrip.NoKindNoDocument`).
- Features without values, whose attribute rows are glued together (`SectionRoundTrip.GluedRows`).
- Two fields of one name. `QgsFields::append` refuses the second, so only
  the first comes back (`DocumentRoundTrip.RepeatedFieldDropped`).

What else `Reloadable` excludes has no lemma of its own:

- text that holds a separator or an end marker of its section;
- header lines the reader rejects;
- a polygon with no ring, or with an empty ring after its first;
- keys outside the 32-bit range;
- features whose number of values differs from the number of fields.

Values always come back as text. A null value comes back as the text
`QVariant::toString` gives it: `0` for a numeric type, `false` for `Bool`,
and the empty string for most other types (`Features.ValueText`).

## Model

| member | source | states |
|---|---|---|
| Text.ContainsIffOccurs | qgsvctprovider.cpp:148-173 | A line holds a section marker exactly when the marker occurs at some position of the line. |
| Text.Split | qgsvctprovider.cpp:196-198 | A split gives at least one part. It gives exactly one part when the separator is absent. No part holds the separator. |
| Text.SplitJoin | qgsvctprovider.cpp:887-895 | Separator-free items joined by the separator split back into the same items. |
| Text.JoinSplit | qgsvctprovider.cpp:517 | Joining the parts of a split line gives the line back. |
| Text.ToInt | qgsvctprovider.cpp:291 | A conversion always yields a 32-bit `int`. Text holding a comma is not a number and converts to 0. |
| Text.IntRoundTrip | qgsvctprovider.cpp:887 | An `int` printed in decimal converts back to the same `int`. |
| Text.NumeralHasNoComma | qgsvctprovider.cpp:887 | A printed integer never contains the field separator. |
| OrderedMap.Get | qgsvctprovider.h:12 | A lookup succeeds exactly for the keys present, and gives the value stored under that key. |
| OrderedMap.Insert | qgsvctprovider.cpp:581-582 | Insertion adds the key and maps it to the new value. Every other key keeps its value. The map grows by one exactly when the key was new. |
| OrderedMap.InsertAbove | qgsvctprovider.cpp:581-582 | Inserting a key above every present key appends one entry at the end. |
| OrderedMap.InsertReplaces | qgsvctprovider.cpp:320 | Inserting a present key replaces that key's entry in place. Everything before and after it is untouched. |
| OrderedMap.RemoveKeys | qgsvctprovider.cpp:597-604 | The remaining keys are the old keys minus the removed ones. Every key not removed keeps its value. |
| OrderedMap.RemoveKeysKeeps | qgsvctprovider.cpp:597-604 | Every entry left after a removal was an entry before it. |
| OrderedMap.UpdatePresent | qgsvctprovider.cpp:697-706 | The map keeps its length and keys. An entry changes only when the change map has its key. |
| HeaderReader.ReadHeadLine | qgsvctprovider.cpp:196-222 | A header line is kept verbatim. A header line changes nothing besides the header lines, the CRS and the extent. |
| HeaderReader.ReadFields | qgsvctprovider.cpp:266-283 | Reading the field lines reads exactly as many lines as the count says (none for a negative count). A field is appended unless a field already has its name, so at most that many fields are added. The fields already present are kept, and distinct names stay distinct. |
| HeaderReader.ReadHead | qgsvctprovider.cpp:191-225 | Reading the head consumes at least one line and never touches the fields or features. Line by line behaviour is stated by `ReadHeadLine` and `DocumentRoundTrip.HeadRead`. |
| HeaderReader.ReadFeatureCode | qgsvctprovider.cpp:227-261 | Reading the feature code consumes at least one line and never touches the fields or features. Its result is stated by `DocumentRoundTrip.FeatureCodeRead`, `FeatureCodeFails` and `Validity.FeatureCodeValidity`. |
| HeaderReader.ReadTableStructure | qgsvctprovider.cpp:263-284 | Reading the table structure consumes at least one line, never touches the features, and keeps distinct field names distinct. The fields read are stated by `DocumentRoundTrip.TableStructureRead` and `RepeatedFieldDropped`. |
| HeaderReader.SkipSection | qgsvctprovider.cpp:472-539 | A skipped section (Solid, Aggregation, Annotation, Topology, Style) consumes at least one line. That the section ends after the first line holding its end marker is stated by `DocumentRoundTrip.AnnotationBlockRead`. |
| GeometryReader.ReadCoordinate | qgsvctprovider.cpp:299-301 | A coordinate line reads exactly when it holds a comma. |
| GeometryReader.ReadPoints | qgsvctprovider.cpp:310-316 | Reading `count` points takes exactly `max(count, 0)` lines and yields that many points. |
| GeometryReader.ReadPointRecord | qgsvctprovider.cpp:286-327 | A point record consumes at least one line. Behaviour stated by `RecordRoundTrip.PointRecordRoundTrip`, `NoPointsUnreadable`, `MultiPointLost` and `Decoding.PointClusterRead`. |
| GeometryReader.ReadLineRecord | qgsvctprovider.cpp:329-372 | A line record consumes at least one line. Behaviour stated by `RecordRoundTrip.LineRecordRoundTrip`, `Decoding.LineOtherFeatureType` and `Decoding.MixedLinePartsRead`. |
| GeometryReader.ScanPolygon | qgsvctprovider.cpp:393-460 | The border loop never reads past its input. Each round is stated by `RecordRoundTrip.MainRingStep`, `SubordinateRingStep` and `EndStep`. |
| GeometryReader.ReadPolygonRecord | qgsvctprovider.cpp:374-470 | A polygon record consumes at least one line. Behaviour stated by `RecordRoundTrip.PolygonRecordRoundTrip`. |
| GeometryReader.ReadRecords | qgsvctprovider.cpp:286-470 | The record loop of a geometry section never reads past its input. Behaviour stated by `SectionRoundTrip.RecordStep`, `GeometrySectionRoundTrip` and `Decoding.IncompleteRunKeepsLast`. |
| AttributeReader.MergeRow | qgsvctprovider.cpp:517-525 | Definition; behaviour stated by `Decoding.MergeRowSets` and `SectionRoundTrip.MergeAt`. |
| AttributeReader.ReadRows | qgsvctprovider.cpp:515-526 | The row loop of one table never reads past its input. Behaviour stated by `SectionRoundTrip.AttributeRowsRoundTrip` and `GluedRows`. |
| AttributeReader.ReadTables | qgsvctprovider.cpp:511-528 | The table loop never reads past its input. Behaviour stated by `SectionRoundTrip.AttributeSectionRoundTrip`. |
| AttributeReader.ReadAttribute | qgsvctprovider.cpp:508-530 | Reading the attribute section consumes at least one line. Behaviour stated by `SectionRoundTrip.AttributeSectionRoundTrip` and `DocumentRoundTrip.AttributeBlockRead`. |
| Reader.Dispatch | qgsvctprovider.cpp:148-173 | Every section reader consumes at least one line, so the scanner always advances. What each leaves of the kind is stated by `Validity.DispatchKeepsKind` and `FeatureCodeValidity`. |
| Reader.ReadSections | qgsvctprovider.cpp:145-175 | Definition; behaviour stated by `DocumentRoundTrip.WriteThenRead` and `Validity.NoSectionsRead`. |
| Reader.ReadData | qgsvctprovider.cpp:138-177 | Definition; behaviour stated by `DocumentRoundTrip.WriteThenRead`, `CanonicalRoundTrip`, `NoKindNoDocument` and `Validity.NoSectionsRead`. |
| Store.IsValid | qgsvctprovider.cpp:122-126 | Definition; behaviour stated by `Validity.FeatureCodeValidity` and `Persistence.ReloadKeepsValidity`. |
| Features.ValueText | qgsvctprovider.cpp:887-895 | Definition; the text each value is written and read back as is stated by `SectionRoundTrip.AttributeRowsRoundTrip` and `DocumentRoundTrip.WriteThenRead`. |
| Writer.WriteData | qgsvctprovider.cpp:728-901 | Definition; behaviour stated by `DocumentRoundTrip.WriteThenRead` and `Validity.NoKindWritesNoRecords`. |
| Reader.Load | qgsvctprovider.cpp:39-42 | After a successful load, the id counter is one past the number of features. |
| RecordRoundTrip.ReadPointsRoundTrip | qgsvctprovider.cpp:789-790 | Written coordinate lines read back as the same points, and the lines after them are left unread. |
| RecordRoundTrip.PointRecordRoundTrip | qgsvctprovider.cpp:770-794 | A one-point record reads back as the same point. The record is complete, and the blank separator line comes next. |
| RecordRoundTrip.NoPointsUnreadable | qgsvctprovider.cpp:296-301 | A point-layer feature whose geometry holds no multi-point points is written with feature type 1 and no coordinate line. Its record fails to read, because the flag line `0` has no comma. |
| RecordRoundTrip.MultiPointLost | qgsvctprovider.cpp:779-786 | A record of two or more points is written with type 4 but with no count line. It reads back as an empty, incomplete record, because the first point line is taken for the count and the second for the flag. |
| RecordRoundTrip.ReadLinePartsRoundTrip | qgsvctprovider.cpp:340-362 | Written polyline parts read back as the same parts. |
| RecordRoundTrip.LineRecordRoundTrip | qgsvctprovider.cpp:796-832 | A line record reads back as the parts written, complete. A single line comes back as the one part of a multi-line. |
| RecordRoundTrip.EmptyLineGainsPart | qgsvctprovider.cpp:796-832 | A multi-line with no parts goes through the single-line path. It reads back as one part with no points. |
| RecordRoundTrip.MainRingStep | qgsvctprovider.cpp:410-430 | Shape 11 followed by a comma-free count line opens a new ring of that many points. The polygon that was open is flushed first. |
| RecordRoundTrip.SubordinateRingStep | qgsvctprovider.cpp:431-452 | A coordinate line where a count is expected starts a subordinate ring of `n` points. The ring joins the open polygon, and the border bound grows by one. |
| RecordRoundTrip.EndStep | qgsvctprovider.cpp:399-406 | Shape 0 ends the record as complete, flushing the open polygon. |
| RecordRoundTrip.PolygonRecordRoundTrip | qgsvctprovider.cpp:834-877 | A polygon record reads back as the polygons written, complete. The placeholder mark point is read and dropped. |
| SectionRoundTrip.RecordStep | qgsvctprovider.cpp:319-325 | A complete record is stored under its id. The section loop then goes on after the separator line. |
| SectionRoundTrip.GeometrySectionRoundTrip | qgsvctprovider.cpp:770-877 | A written geometry block reads back as its features, in key order after those already stored, with geometries as the decoder rebuilds them. Reading stops after the end marker. |
| SectionRoundTrip.MergeAt | qgsvctprovider.cpp:517-525 | An attribute row replaces the values of the feature stored under its id, in place. |
| SectionRoundTrip.AttributeRowsRoundTrip | qgsvctprovider.cpp:884-897 | When every feature carries values, the written rows give every feature its values back, in place, each as the text `toString` writes for it. A typed null comes back as `0` or `false`. |
| SectionRoundTrip.GluedRows | qgsvctprovider.cpp:887 | When no feature carries values, every row is `id,` with no line break. All of them run into the one line that ends in `TableEnd`. |
| SectionRoundTrip.AttributeSectionRoundTrip | qgsvctprovider.cpp:508-530 | Read over the decoded features, the attribute block gives every feature its values back as their written text, typed nulls as `0` or `false`. This holds when either every feature carries values or none does. |
| DocumentRoundTrip.HeadRead | qgsvctprovider.cpp:191-225 | Header lines without `HeadEnd` are read one by one, and reading stops after the end marker. |
| DocumentRoundTrip.KindRoundTrip | qgsvctprovider.cpp:234-253 | The kind name written for a point, line or polygon layer selects that layer type again. |
| DocumentRoundTrip.CustomItemsRead | qgsvctprovider.cpp:254-260 | Custom items come back verbatim, in order, after those already held. |
| DocumentRoundTrip.FeatureCodeRead | qgsvctprovider.cpp:742-756 | The feature-code line and custom items read back as the code, name, kind, table name and items written. |
| DocumentRoundTrip.NoKindNoFeatureCode | qgsvctprovider.cpp:742-756 | A layer of none of the three types writes no feature-code line, so reading its FeatureCode block fails. |
| DocumentRoundTrip.FeatureCodeFails | qgsvctprovider.cpp:229-233 | A feature-code line without a comma cannot be read. |
| DocumentRoundTrip.FieldRoundTrip | qgsvctprovider.cpp:758-768 | A field line of a non-`Double` field whose type name is stable reads back as the same field. |
| DocumentRoundTrip.FieldLineRead | qgsvctprovider.cpp:264-281 | A comma-free field other than `Double` reads back with length and precision 0. A type name containing `Int` comes back as `Int` and is stored as Int. Every other type name is kept and stored as String. |
| DocumentRoundTrip.DoubleFieldChanges | qgsvctprovider.cpp:763-764 | A `Double` field reads back changed. Its length is glued to the type name, the precision becomes the length, and the type becomes string. |
| DocumentRoundTrip.FieldsRoundTrip | qgsvctprovider.cpp:266-283 | Written field lines whose names differ from each other and from the fields held read back as the same fields, in order. |
| DocumentRoundTrip.RepeatedFieldDropped | qgsvctprovider.cpp:266-282 | A second field line with a name already read is dropped: two fields of one name read back as the first alone. |
| DocumentRoundTrip.TableStructureRead | qgsvctprovider.cpp:263-284 | The table line and the field lines read back. When no two names clash, the fields are appended to those already held. |
| DocumentRoundTrip.GeometryBlockRead | qgsvctprovider.cpp:156-161 | The layer's own geometry block fills the feature map with its decoded records. The other two blocks are passed over. |
| DocumentRoundTrip.GeometryBlocksRead | qgsvctprovider.cpp:770-877 | The three geometry blocks together read back as the layer's decoded features. |
| DocumentRoundTrip.AnnotationBlockRead | qgsvctprovider.cpp:879-880 | The empty annotation block is skipped and leaves the store unchanged. |
| DocumentRoundTrip.AttributeBlockRead | qgsvctprovider.cpp:882-898 | The attribute block, read last, restores every feature's values as their written text and ends the document. |
| DocumentRoundTrip.WriteThenRead | qgsvctprovider.cpp:728-901 | Reading what `writeData` emits for a reloadable store gives back the head, CRS, extent, feature code, items and fields. It also gives back the features in key order, with geometries as decoded and values as the text `toString` writes, typed nulls included. |
| DocumentRoundTrip.CanonicalRoundTrip | qgsvctprovider.cpp:39-42 | A store already in the form the reader produces is loaded back unchanged from what is written for it. |
| DocumentRoundTrip.NoKindNoDocument | qgsvctprovider.cpp:742-756 | The document written for a layer of none of the three types cannot be read back. |
| Edits.FitAttributes | qgsvctprovider.cpp:551-566 | An incoming feature's values are fitted to the field count. Short lists are padded with nulls of each missing field's type, and long ones are cut. |
| Edits.AddFeatures | qgsvctprovider.cpp:541-593 | The result is true exactly when every feature's geometry suits the layer. The counter grows by the number accepted. Nothing besides the features and the counter changes. |
| Edits.AddFeaturesAppends | qgsvctprovider.cpp:581-582 | With a fresh counter, the accepted features are appended at the end of the map, after the existing ones. |
| Edits.NewEntriesShape | qgsvctprovider.cpp:549-582 | The added entries take consecutive ids starting at the counter, in order. Each carries its own id and one value per field. |
| Edits.NoGeometryLayerStrips | qgsvctprovider.cpp:568-571 | A layer without geometry accepts every feature and stores it without geometry. |
| Edits.AddFeaturesKeepsInvariants | qgsvctprovider.cpp:541-593 | Adding keeps three store invariants: the counter above every key, one value per field, and ids equal to keys. The feature count grows by the number accepted. |
| Edits.LoadedCounter | qgsvctprovider.cpp:39-42 | With positive ids, the counter after a load is fresh exactly when the keys are 1, 2, …, n. |
| Edits.AddAtTakenCounter | qgsvctprovider.cpp:581 | When the counter already names a stored feature, adding one feature replaces that feature instead of adding one. |
| Edits.DeleteFeatures | qgsvctprovider.cpp:595-611 | The keys lose exactly the ids given, and ids that are not stored are ignored. Every other feature is unchanged, and the extent is reset. |
| Edits.UpdateExtents | qgsvctprovider.cpp:903-906 | Definition; its effect, the extent reset to the empty rectangle, is stated by `Edits.DeleteFeatures` and `ChangeGeometryValues`. |
| Edits.DeleteFeaturesKeepsInvariants | qgsvctprovider.cpp:595-611 | Deleting keeps the store invariants. |
| Edits.DeleteThenAdd | qgsvctprovider.cpp:595-611 | Deleted ids below the counter are never reused: a feature added later goes in at the counter. |
| Edits.SetValues | qgsvctprovider.cpp:704-705 | Each listed index within the list gets its new value. Every other value is kept, and the length does not change. |
| Edits.ChangeAttributeValues | qgsvctprovider.cpp:695-710 | Every stored feature named in the change map gets its values changed. Features not named, and ids not stored, are passed over. Nothing else changes. |
| Edits.ChangeAttributeValuesKeepsInvariants | qgsvctprovider.cpp:695-710 | Changing values keeps the store invariants. |
| Edits.ChangeGeometryValues | qgsvctprovider.cpp:712-726 | Every stored feature named in the map gets the new geometry, of whatever type. The rest are unchanged, and the extent is reset. |
| Edits.ChangeGeometryValuesKeepsInvariants | qgsvctprovider.cpp:712-726 | Changing geometries keeps the store invariants. |
| Edits.AddAttributes | qgsvctprovider.cpp:613-646 | Adding fields changes only the fields and the features' values, never the set of features. |
| Edits.NewFields | qgsvctprovider.cpp:615-635 | The fields actually appended are no more than the supported ones offered. Each is supported, none takes a name already held, and distinct names stay distinct. |
| Edits.AppendsAll | qgsvctprovider.cpp:615-635 | Every supported field offered is appended exactly when each takes a name that neither a field held nor an earlier offered field has. Otherwise fewer are appended. |
| Edits.AddAttributesAppends | qgsvctprovider.cpp:615-643 | The fields appended are exactly those of a supported type whose name is new, in order. Every feature gets one invalid null value per supported field offered, appended or not. |
| Edits.AddAttributesKeepsInvariants | qgsvctprovider.cpp:613-646 | Adding fields keeps ids and the counter, and keeps distinct names distinct. One value per field survives exactly when the store has no feature or every supported name offered is new. |
| Edits.AddAttributesRepeatedName | qgsvctprovider.cpp:635-642 | Offering a supported field whose name is in use leaves the fields unchanged, yet every feature gains a value: each ends with one value more than there are fields. |
| Edits.RenameFields | qgsvctprovider.cpp:651-667 | Renaming changes names only. Distinct field names stay distinct. |
| Edits.RenameAttributes | qgsvctprovider.cpp:648-670 | Renaming changes nothing but the field names and keeps them distinct. |
| Edits.RenameOne | qgsvctprovider.cpp:653-666 | A single rename succeeds exactly when the index names a field and the new name is not in use. On success only that field's name changes, unless the new name is empty, which `QgsFields::rename` refuses while the result stays true. Otherwise nothing changes. |
| Edits.Descending | qgsvctprovider.cpp:674-675 | The indices are listed once each, from the largest down. |
| Edits.KeptRemoveLargest | qgsvctprovider.cpp:677-689 | Removing the largest index first leaves the other positions unchanged. |
| Edits.DeleteAttributesKeeps | qgsvctprovider.cpp:672-693 | Deleting in-range fields removes exactly those positions from the fields and from every feature's values. The values stay one per field. |
| Edits.DeleteAttributes | qgsvctprovider.cpp:672-693 | Definition; behaviour stated by `Edits.DeleteAttributesRemoves`, `DeleteAttributesKeeps` and `DeleteAttributesOutOfRange`. |
| Edits.DeleteAttributesRemoves | qgsvctprovider.cpp:672-693 | The deletion succeeds exactly when every feature has a value at every given position. It then removes those positions from every feature's values and from the fields where they are fields. An index that is not a field but that every feature holds is removed from the values only. |
| Edits.DeleteAttributesOutOfRange | qgsvctprovider.cpp:683-688 | A position that some feature lacks makes the deletion fail. Removing it is undefined behaviour in the code, even when there is no such field. |
| Validity.ReadHeadKeepsKind | qgsvctprovider.cpp:191-225 | The header never changes the layer type. |
| Validity.DispatchKeepsKind | qgsvctprovider.cpp:146-175 | Every section reader except FeatureCode's leaves the layer type alone. |
| Validity.FeatureCodeValidity | qgsvctprovider.cpp:122-126 | After a FeatureCode section, the provider is valid exactly when the kind item names a point, line or polygon. |
| Validity.NoSectionsRead | qgsvctprovider.cpp:146-175 | A document without markers loads as the initial store, which is valid. |
| Validity.NoKindWritesNoRecords | qgsvctprovider.cpp:742-794 | A layer of none of the three types writes no feature-code line, and its geometry blocks are empty. |
| Persistence.ReloadKeepsValidity | qgsvctprovider.cpp:122-126 | A reloadable store is valid, and so is what is read back from what is written for it. |
| Persistence.DeleteFeaturesReloads | qgsvctprovider.cpp:595-611 | A reloadable store stays reloadable after a deletion, and the rewritten document reads back as the store after the deletion. |
| Decoding.SpheroidLine | qgsvctprovider.cpp:196-210 | A spheroid line is kept verbatim and sets the CRS its value names. Nothing else changes. |
| Decoding.SpheroidFirstItem | qgsvctprovider.cpp:202-209 | Only the first item of a spheroid value counts. CGCS2000 selects EPSG:4526 and Krassowsky 1940 selects EPSG:4024. Any other name keeps the CRS. |
| Decoding.ExtentMinLine | qgsvctprovider.cpp:211-216 | An `ExtentMin` line sets the lower extent corner from its two items. |
| Decoding.ExtentMaxLine | qgsvctprovider.cpp:217-222 | An `ExtentMax` line sets the upper extent corner from its two items. |
| Decoding.PointClusterRead | qgsvctprovider.cpp:306-318 | A type-4 point record with a count line reads that many points as one multi-point. |
| Decoding.LineOtherFeatureType | qgsvctprovider.cpp:334-371 | A line record of a feature type other than 1 reads as an empty multi-line. |
| Decoding.MixedLinePartsRead | qgsvctprovider.cpp:341-360 | For any mix of line types, the parts of a direct-coordinate line read back as exactly its type-11 polylines, in order. Every part counts towards the part count. |
| Decoding.IncompleteRunKeepsLast | qgsvctprovider.cpp:319-325 | After a run of incomplete records (flag not `0`) under one id line, only the last record's geometry is stored under that id. The loop then goes on with the same id line. |
| Decoding.MergeRowSets | qgsvctprovider.cpp:517-525 | An attribute row sets the values of the feature under its id to the row's remaining items, as text. An unknown id creates a default feature. No other feature changes. |

## Where the model follows the code over its description

- A subordinate polygon ring becomes a new ring of the open polygon. It is
  not merged into the previous ring's points: the code appends a new ring
  to the polygon (`qgsvctprovider.cpp:431-452`).
- `deleteAttributes` is undefined behaviour in the code when some
  feature's values lack one of the positions (`QVector::remove`,
  `qgsvctprovider.cpp:686`). The model returns `None` for it. An index that
  is not a field is otherwise harmless: `QgsFields::remove` ignores it, and
  the position is still removed from every feature's values.
- The polygon section ends only on a line equal to `PolygonEnd`
  (`qgsvctprovider.cpp:377`). The point and line sections end on any line
  that contains their end marker. The model makes the test the code makes
  for each section.
- The last line of the file is read but never dispatched
  (`qgsvctprovider.cpp:145-175`). This does not matter for the documents
  `writeData` produces, which end in `AttributeEnd`.

## Left out

- File I/O and the UTF-8 text codec: a document is its list of lines.
- Coordinates are kept as the text of their two items. `toDouble` and
  number formatting are not modelled, so the extent holds text as well.
- Edits.AddFeatures: the extent is not grown by the added features'
  bounding boxes (`combineExtentWith`), because that is floating-point
  arithmetic on geometry.
- The CRS is the name of the selected EPSG code (`Option<string>`), not a
  CRS object.
- The feature iterator, the GUI and source-select dialog, metadata,
  capabilities, `clearMinMaxCache` and the spatial index: they are outside
  the store and the codec.
- The text of `pushError` and `QgsDebugMsg` messages: errors show only in
  the returned `ok` flag.
- Strings containing a line break: a line of the model is one line of the
  file.
- Edits.AddFeatures: the 32-bit wrap-around of `mNextFeatureId` is not
  modelled; the counter is an unbounded integer.
- `QgsFields` and `QVector` are not part of this model. The model relies
  on what the code's callers of them depend on:
  - `QgsFields::append` refuses a field whose name is already in use
    (`addAttributes`, `readTableStructure`);
  - `QgsFields::rename` refuses an empty name (`renameAttributes`);
  - `QgsFields::remove` ignores an index that is not a field
    (`deleteAttributes`);
  - `QVector::remove` is defined only for a position that exists.
- Edits.RenameFields: `indexFromName` is reduced to a test for a field of
  exactly the same name.
- GeometryReader.ScanPolygon: `borderCount` is a 32-bit `int` in the code
  (`qgsvctprovider.cpp:393-437`). A count of 2147483647 makes
  `borderCount + 1` overflow, which is undefined behaviour in C++. The model
  counts with an unbounded integer and keeps reading rings.
- Edits.AddFeatures: `setId` and `setValid` on the caller's feature list are
  not modelled. Only the stored copies are.
- The `writeData` each edit performs is not part of the edit functions. The
  rewrite is `Writer.WriteData` of the store an edit returns, as
  `Persistence.DeleteFeaturesReloads` states for deletion.
- A read past the end of the file is a failure. In the code it yields empty
  lines, and a marker that never comes makes its loop run forever.

=== FILE: attrreader.dfy ===
/** The Attribute section decoder (`readAttribute`): tables, each a name line
    followed by `id,v1,...,vk` rows up to a line containing `TableEnd`; the
    section ends at a line containing `AttributeEnd` where a table name
    would be. */
module AttributeReader {
  import opened Wrappers
  import opened Text
  import opened Lines
  import opened Features
  import opened Store
  import OrderedMap

  /** Values read from the file are kept as strings. */
  function Texts(vs: seq<string>): (r: seq<Value>)
    ensures |r| == |vs|
    ensures forall k :: 0 <= k < |vs| ==> r[k] == Text(vs[k])
  {
    seq(|vs|, k requires 0 <= k < |vs| => Text(vs[k]))
  }

  /** `mFeatures[id]`: the stored feature, or a default one that the lookup
      inserts. */
  function FeatureOrDefault(fs: FeatureMap, id: int): Feature {
    match OrderedMap.Get(fs, id)
    case Some(f) => f
    case None => DefaultFeature
  }

  /** One row: the first item is the id, the remaining items replace that
      feature's whole attribute list. */
  function MergeRow(fs: FeatureMap, line: string): FeatureMap {
    var info := Split(line, ',');
    var id := ToInt(info[0]);
    OrderedMap.Insert(fs, id, FeatureOrDefault(fs, id).(attributes := Texts(info[1..])))
  }

  /** The rows of one table, `extra` being the current line. */
  function ReadRows(extra: string, rest: seq<string>, fs: FeatureMap): (r: Res<Read<FeatureMap>>)
    ensures r.Ok? ==> |r.value.rest| <= |rest|
    decreases |rest|
  {
    if Contains(extra, "TableEnd") then Ok(Read(fs, rest))
    else
      var next :- Next(rest);
      ReadRows(next.value, next.rest, MergeRow(fs, extra))
  }

  /** The table loop, `extra` being the current table-name line. */
  function ReadTables(extra: string, rest: seq<string>, fs: FeatureMap): (r: Res<Read<FeatureMap>>)
    ensures r.Ok? ==> |r.value.rest| <= |rest|
    decreases |rest|
  {
    if Contains(extra, "AttributeEnd") then Ok(Read(fs, rest))
    else
      var row :- Next(rest);
      var table :- ReadRows(row.value, row.rest, fs);
      var next :- Next(table.rest);
      ReadTables(next.value, next.rest, table.value)
  }

  /** `readAttribute`, entered after `AttributeBegin`. */
  function ReadAttribute(rest: seq<string>, fs: FeatureMap): (r: Res<Read<FeatureMap>>)
    ensures r.Ok? ==> |r.value.rest| < |rest|
  {
    var first :- Next(rest);
    ReadTables(first.value, first.rest, fs)
  }
}

=== FILE: decoding.dfy ===
/** What the decoders make of individual header lines and records, stated
    line by line: the CRS and extent header keys, point clusters, line
    records of other feature types, line parts of mixed line types, runs of
    incomplete records and attribute rows. */
module Decoding {
  import opened Wrappers
  import opened Text
  import opened Lines
  import opened Geometry
  import opened Features
  import opened Store
  import opened HeaderReader
  import opened GeometryReader
  import opened AttributeReader
  import opened Writer
  import opened RecordRoundTrip
  import OrderedMap

  /** A `key:value` line whose key names the spheroid is kept verbatim and
      sets the CRS the value's first item selects; nothing else changes. */
  lemma SpheroidLine(st: Store, key: string, value: string)
    requires ':' !in key && ':' !in value && Contains(key, "Spheroid")
    ensures ReadHeadLine(st, key + ":" + value)
         == Ok(st.(head := st.head + [key + ":" + value], crs := SpheroidCrs(value, st.crs)))
  {
    assert key + ":" + value == key + [':'] + value;
    SplitCons(key, ':', value);
    SplitSingle(value, ':');
  }

  /** Only the first comma-separated item of a spheroid value is looked
      at: one naming the CGCS2000 spheroid selects EPSG:4526, one naming
      Krassowsky 1940 selects EPSG:4024, and any other keeps the CRS. */
  lemma SpheroidFirstItem(name: string, more: string, crs: Option<string>)
    requires ',' !in name
    ensures SpheroidCrs(name + "," + more, crs)
         == if Contains(name, Cgcs2000Spheroid) then Some("EPSG:4526")
            else if Contains(name, KrassowskySpheroid) then Some("EPSG:4024")
            else crs
  {
    assert name + "," + more == name + [','] + more;
    SplitCons(name, ',', more);
  }

  /** A header line whose key names the lower extent corner (and not the
      spheroid) sets the minimum x and y from the value's first two items. */
  lemma ExtentMinLine(st: Store, key: string, x: string, y: string)
    requires ':' !in key && ':' !in x && ':' !in y && ',' !in x && ',' !in y
    requires !Contains(key, "Spheroid") && Contains(key, "ExtentMin")
    ensures ReadHeadLine(st, key + ":" + x + "," + y)
         == Ok(st.(head := st.head + [key + ":" + x + "," + y], extent := st.extent.(xMin := x, yMin := y)))
  {
    ExtentLineSplits(key, x, y);
  }

  /** The same for the upper corner: the maximum x and y. */
  lemma ExtentMaxLine(st: Store, key: string, x: string, y: string)
    requires ':' !in key && ':' !in x && ':' !in y && ',' !in x && ',' !in y
    requires !Contains(key, "Spheroid") && !Contains(key, "ExtentMin") && Contains(key, "ExtentMax")
    ensures ReadHeadLine(st, key + ":" + x + "," + y)
         == Ok(st.(head := st.head + [key + ":" + x + "," + y], extent := st.extent.(xMax := x, yMax := y)))
  {
    ExtentLineSplits(key, x, y);
  }

  lemma ExtentLineSplits(key: string, x: string, y: string)
    requires ':' !in key && ':' !in x && ':' !in y && ',' !in x && ',' !in y
    ensures Split(key + ":" + x + "," + y, ':') == [key, x + "," + y]
    ensures Split(x + "," + y, ',') == [x, y]
  {
    var v := x + "," + y;
    assert v == x + [','] + y;
    assert ':' !in v;
    assert key + ":" + x + "," + y == key + [':'] + v;
    SplitCons(key, ':', v);
    SplitSingle(v, ':');
    SplitCons(x, ',', y);
    SplitSingle(y, ',');
  }

  /** A point record of feature type 4 with a count line reads that many
      points as one multi-point.  The writer leaves the count line out,
      which is why its multi-points do not come back. */
  lemma PointClusterRead(a: string, b: string, pts: seq<Point>, flag: string, after: seq<string>)
    requires Countable(|pts|) && WellFormedPoints(pts)
    ensures ReadPointRecord([a] + ([b] + (["4"] + ([IntToString(|pts|)] + PointLines(pts, [flag] + after)))))
         == Ok(Read(Record(MultiPoint(pts), flag == "0"), after))
  {
    var rest := [IntToString(|pts|)] + PointLines(pts, [flag] + after);
    ToIntFour();
    CountRoundTrip(|pts|);
    NextCons(IntToString(|pts|), PointLines(pts, [flag] + after));
    ReadPointsRoundTrip(pts, [flag] + after);
    assert ReadPointCoordinates(rest, 4) == Ok(Read(pts, [flag] + after));
    PointRecordSteps(a, b, "4", rest, pts, flag, after);
  }

  /** A line record whose feature type is not 1 has no geometry lines: the
      feature is kept with an empty multi-line. */
  lemma LineOtherFeatureType(a: string, b: string, ft: string, flag: string, after: seq<string>)
    requires ToInt(ft) != 1
    ensures ReadLineRecord([a] + ([b] + ([ft] + ([flag] + after))))
         == Ok(Read(Record(MultiLineString([]), flag == "0"), after))
  {
    NextCons(a, [b] + ([ft] + ([flag] + after)));
    NextCons(b, [ft] + ([flag] + after));
    NextCons(ft, [flag] + after);
    NextCons(flag, after);
  }

  /** A line part whose line type is not 11 adds no part and reads no
      further lines. */
  lemma LinePartSkipped(lt: string, rest: seq<string>, count: int)
    requires count > 0 && ToInt(lt) != 11
    ensures ReadLineParts([lt] + rest, count) == ReadLineParts(rest, count - 1)
  {
    NextCons(lt, rest);
  }

  /** One part of a direct-coordinate line as a file may hold it: a
      polyline (line type 11) with its point count and points, or a part of
      another line type, which is its line-type line alone. */
  datatype PartLine = Polyline(pts: PolylineXY) | OtherType(lineType: string)

  /** The lines of a list of parts, in front of `tail`. */
  function PartLines(parts: seq<PartLine>, tail: seq<string>): seq<string>
    decreases |parts|
  {
    if |parts| == 0 then tail
    else
      var more := PartLines(parts[1..], tail);
      match parts[0]
      case Polyline(pts) => LinePart(pts, more)
      case OtherType(lt) => [lt] + more
  }

  /** The polylines among the parts, in order. */
  function Polylines(parts: seq<PartLine>): seq<PolylineXY>
    decreases |parts|
  {
    if |parts| == 0 then []
    else (if parts[0].Polyline? then [parts[0].pts] else []) + Polylines(parts[1..])
  }

  /** A part the decoder tells apart from the others: a polyline whose
      count and points read back, or a line type other than 11. */
  predicate DistinctPart(p: PartLine) {
    match p
    case Polyline(pts) => WritablePart(pts)
    case OtherType(lt) => ToInt(lt) != 11
  }

  /** For any mix of line types, the parts of a direct-coordinate line read
      back as exactly its polylines, in order: every part counts towards the
      part count, and the parts of other line types leave nothing. */
  lemma {:induction false} MixedLinePartsRead(parts: seq<PartLine>, tail: seq<string>)
    requires forall k :: 0 <= k < |parts| ==> DistinctPart(parts[k])
    ensures ReadLineParts(PartLines(parts, tail), |parts|) == Ok(Read(Polylines(parts), tail))
    decreases |parts|
  {
    if |parts| > 0 {
      assert |parts[1..]| == |parts| - 1;
      assert forall k :: 0 <= k < |parts[1..]| ==> DistinctPart(parts[1..][k]) by {
        forall k | 0 <= k < |parts[1..]| ensures DistinctPart(parts[1..][k]) {
          assert parts[1..][k] == parts[k + 1];
        }
      }
      MixedLinePartsRead(parts[1..], tail);
      assert DistinctPart(parts[0]);
      if parts[0].Polyline? {
        PolylinePartStep(parts, tail);
      } else {
        OtherPartStep(parts, tail);
      }
    }
  }

  lemma PolylinePartStep(parts: seq<PartLine>, tail: seq<string>)
    requires |parts| > 0 && parts[0].Polyline? && WritablePart(parts[0].pts)
    requires ReadLineParts(PartLines(parts[1..], tail), |parts| - 1) == Ok(Read(Polylines(parts[1..]), tail))
    ensures ReadLineParts(PartLines(parts, tail), |parts|) == Ok(Read(Polylines(parts), tail))
  {
    var pts := parts[0].pts;
    var more := PartLines(parts[1..], tail);
    assert PartLines(parts, tail) == LinePart(pts, more);
    assert Polylines(parts) == [pts] + Polylines(parts[1..]);
    ReadPointsRoundTrip(pts, more);
    LinePartStep(|pts|, PointLines(pts, more), |parts|, pts, more, Polylines(parts[1..]), tail);
  }

  lemma OtherPartStep(parts: seq<PartLine>, tail: seq<string>)
    requires |parts| > 0 && parts[0].OtherType? && ToInt(parts[0].lineType) != 11
    requires ReadLineParts(PartLines(parts[1..], tail), |parts| - 1) == Ok(Read(Polylines(parts[1..]), tail))
    ensures ReadLineParts(PartLines(parts, tail), |parts|) == Ok(Read(Polylines(parts), tail))
  {
    var more := PartLines(parts[1..], tail);
    assert PartLines(parts, tail) == [parts[0].lineType] + more;
    assert Polylines(parts) == [] + Polylines(parts[1..]) == Polylines(parts[1..]);
    LinePartSkipped(parts[0].lineType, more, |parts|);
  }

  /** A run of incomplete records (flags other than `0`) after one id line:
      `rests[i]` is where record `i` starts and `rests[i + 1]` where it
      ends.  Each record is stored under the same id, replacing the one
      before it, so only the last record's geometry stays, and the loop goes
      on after the run with the same id line. */
  lemma {:induction false} IncompleteRunKeepsLast(kind: SectionKind, extra: string, rests: seq<seq<string>>,
                                                  gs: seq<Geometry>, fs: FeatureMap)
    requires !AtSectionEnd(kind, extra)
    requires |gs| > 0 && |rests| == |gs| + 1
    requires forall i :: 0 <= i < |gs| ==> ReadRecord(kind, rests[i]) == Ok(Read(Record(gs[i], false), rests[i + 1]))
    ensures ReadRecords(kind, extra, rests[0], fs)
         == ReadRecords(kind, extra, rests[|gs|], OrderedMap.Insert(fs, ToInt(extra), Feature(ToInt(extra), gs[|gs| - 1], [])))
    decreases |gs|
  {
    var id := ToInt(extra);
    var fs1 := OrderedMap.Insert(fs, id, Feature(id, gs[0], []));
    IncompleteRecordSameId(kind, extra, rests[0], fs, gs[0], rests[1]);
    if |gs| > 1 {
      var rs := rests[1..];
      var hs := gs[1..];
      assert forall i :: 0 <= i < |hs| ==> ReadRecord(kind, rs[i]) == Ok(Read(Record(hs[i], false), rs[i + 1])) by {
        forall i | 0 <= i < |hs|
          ensures ReadRecord(kind, rs[i]) == Ok(Read(Record(hs[i], false), rs[i + 1]))
        {
          assert rs[i] == rests[i + 1] && rs[i + 1] == rests[i + 2] && hs[i] == gs[i + 1];
        }
      }
      IncompleteRunKeepsLast(kind, extra, rs, hs, fs1);
      assert rs[0] == rests[1] && rs[|hs|] == rests[|gs|] && hs[|hs| - 1] == gs[|gs| - 1];
      OrderedMap.InsertTwice(fs, id, Feature(id, gs[0], []), Feature(id, gs[|gs| - 1], []));
    }
  }

  /** An incomplete record (its flag is not `0`) is stored and the section
      loop reads the next record under the same id, without a separator. */
  lemma IncompleteRecordSameId(kind: SectionKind, extra: string, rest: seq<string>, fs: FeatureMap,
                               g: Geometry, after: seq<string>)
    requires !AtSectionEnd(kind, extra)
    requires ReadRecord(kind, rest) == Ok(Read(Record(g, false), after))
    ensures ReadRecords(kind, extra, rest, fs)
         == ReadRecords(kind, extra, after, OrderedMap.Insert(fs, ToInt(extra), Feature(ToInt(extra), g, [])))
  {
  }

  /** An attribute row sets the attributes of the feature under its id to
      exactly the row's remaining items, as many as there are, whatever the
      field count; an id not yet stored gets a default feature; no other
      feature changes. */
  lemma MergeRowSets(fs: FeatureMap, line: string)
    ensures var info := Split(line, ',');
            var r := MergeRow(fs, line);
            var id := ToInt(info[0]);
            && OrderedMap.Get(r, id).Some?
            && OrderedMap.Get(r, id).value.attributes == Texts(info[1..])
            && |OrderedMap.Get(r, id).value.attributes| == |info| - 1
            && (OrderedMap.Get(fs, id).None? ==> OrderedMap.Get(r, id).value == DefaultFeature.(attributes := Texts(info[1..])))
            && (forall j :: j != id ==> OrderedMap.Get(r, j) == OrderedMap.Get(fs, j))
  {
  }
}

=== FILE: doctrip.dfy ===
/** What `readData` makes of a whole document `writeData` emits: the store
    comes back with its header lines, feature code, custom items, fields
    and features, block by block, as long as every part avoids the text the
    reader takes for a separator or an end marker. */
module DocumentRoundTrip {
  import opened Wrappers
  import opened Seqs
  import opened Text
  import opened Lines
  import opened Geometry
  import opened Features
  import opened Store
  import opened HeaderReader
  import opened GeometryReader
  import opened AttributeReader
  import opened Reader
  import opened Writer
  import opened RecordRoundTrip
  import opened SectionRoundTrip
  import OrderedMap

  // ---------------------------------------------------------------------------
  // The section scanner

  /** A line without a `B` holds no `...Begin` marker. */
  lemma NoMarker(line: string)
    requires 'B' !in line
    ensures MarkerOf(line) == None
  {
    LacksChar(line, "CommentBegin", 'B');
    LacksChar(line, "HeadBegin", 'B');
    LacksChar(line, "FeatureCodeBegin", 'B');
    LacksChar(line, "TableStructureBegin", 'B');
    LacksChar(line, "PointBegin", 'B');
    LacksChar(line, "LineBegin", 'B');
    LacksChar(line, "PolygonBegin", 'B');
    LacksChar(line, "SolidBegin", 'B');
    LacksChar(line, "AggregationBegin", 'B');
    LacksChar(line, "AnnotationBegin", 'B');
    LacksChar(line, "TopologyBegin", 'B');
    LacksChar(line, "AttributeBegin", 'B');
    LacksChar(line, "StyleBegin", 'B');
  }

  /** The begin markers the writer emits select their own sections: none of
      them contains a marker the scanner tests before its own.  Each proof
      finds a letter of every earlier marker that the line lacks. */
  lemma HeadMarker(s: string)
    requires s == "HeadBegin"
    ensures MarkerOf(s) == Some(HeadBegin)
  {
    LacksChar(s, "CommentBegin", 'C');
    ContainsSelf(s);
  }

  lemma FeatureCodeLetters(s: string)
    requires s == "FeatureCodeBegin"
    ensures 'm' !in s && 'H' !in s
  {
  }

  lemma FeatureCodeMarker(s: string)
    requires s == "FeatureCodeBegin"
    ensures MarkerOf(s) == Some(FeatureCodeBegin)
  {
    FeatureCodeLetters(s);
    LacksChar(s, "CommentBegin", 'm');
    LacksChar(s, "HeadBegin", 'H');
    ContainsSelf(s);
  }

  /** The markers the scanner tests before the TableStructure marker need a
      `C`, an `H` or an `F`. */
  lemma NotFront(line: string)
    requires 'C' !in line && 'H' !in line && 'F' !in line
    ensures !Contains(line, "CommentBegin") && !Contains(line, "HeadBegin") && !Contains(line, "FeatureCodeBegin")
  {
    LacksChar(line, "CommentBegin", 'C');
    LacksChar(line, "HeadBegin", 'H');
    LacksChar(line, "FeatureCodeBegin", 'F');
  }

  lemma TableStructureMarker(s: string)
    requires s == "TableStructureBegin"
    ensures MarkerOf(s) == Some(TableStructureBegin)
  {
    assert 'C' !in s && 'H' !in s && 'F' !in s;
    NotFront(s);
    ContainsSelf(s);
  }

  /** The markers before the three geometry markers in the scanner's order
      need a `C`, an `H`, an `F` or a `T`. */
  lemma NotHeader(line: string)
    requires 'C' !in line && 'H' !in line && 'F' !in line && 'T' !in line
    ensures !Contains(line, "CommentBegin") && !Contains(line, "HeadBegin")
    ensures !Contains(line, "FeatureCodeBegin") && !Contains(line, "TableStructureBegin")
  {
    NotFront(line);
    LacksChar(line, "TableStructureBegin", 'T');
  }

  /** A line that holds none of the markers before the geometry markers
      selects the first geometry marker it holds. */
  lemma SelectsGeometry(s: string)
    requires !Contains(s, "CommentBegin") && !Contains(s, "HeadBegin")
    requires !Contains(s, "FeatureCodeBegin") && !Contains(s, "TableStructureBegin")
    ensures Contains(s, "PointBegin") ==> MarkerOf(s) == Some(PointBegin)
    ensures !Contains(s, "PointBegin") && Contains(s, "LineBegin") ==> MarkerOf(s) == Some(LineBegin)
    ensures !Contains(s, "PointBegin") && !Contains(s, "LineBegin") && Contains(s, "PolygonBegin")
            ==> MarkerOf(s) == Some(PolygonBegin)
  {
  }

  lemma PointLetters(s: string)
    requires s == "PointBegin"
    ensures 'C' !in s && 'H' !in s && 'F' !in s && 'T' !in s
  {
  }

  lemma LineLetters(s: string)
    requires s == "LineBegin"
    ensures 'C' !in s && 'H' !in s && 'F' !in s && 'T' !in s && 'P' !in s
  {
  }

  lemma PolygonLetters(s: string)
    requires s == "PolygonBegin"
    ensures 'C' !in s && 'H' !in s && 'F' !in s && 'T' !in s && 't' !in s && 'L' !in s
  {
  }

  lemma PointMarker(s: string)
    requires s == "PointBegin"
    ensures MarkerOf(s) == Some(PointBegin)
  {
    PointLetters(s);
    NotHeader(s);
    ContainsSelf(s);
    SelectsGeometry(s);
  }

  lemma LineMarker(s: string)
    requires s == "LineBegin"
    ensures MarkerOf(s) == Some(LineBegin)
  {
    LineLetters(s);
    NotHeader(s);
    LacksChar(s, "PointBegin", 'P');
    ContainsSelf(s);
    SelectsGeometry(s);
  }

  lemma PolygonMarker(s: string)
    requires s == "PolygonBegin"
    ensures MarkerOf(s) == Some(PolygonBegin)
  {
    PolygonLetters(s);
    NotHeader(s);
    LacksChar(s, "PointBegin", 't');
    LacksChar(s, "LineBegin", 'L');
    ContainsSelf(s);
    SelectsGeometry(s);
  }

  /** The markers up to the Solid marker in the scanner's order need one of
      `C`, `H`, `F`, `T`, `P`, `L` or `S`. */
  lemma NotGeometry(line: string)
    requires 'C' !in line && 'H' !in line && 'F' !in line && 'T' !in line
    requires 'P' !in line && 'L' !in line && 'S' !in line
    ensures !Contains(line, "CommentBegin") && !Contains(line, "HeadBegin")
    ensures !Contains(line, "FeatureCodeBegin") && !Contains(line, "TableStructureBegin")
    ensures !Contains(line, "PointBegin") && !Contains(line, "LineBegin")
    ensures !Contains(line, "PolygonBegin") && !Contains(line, "SolidBegin")
  {
    NotHeader(line);
    LacksChar(line, "PointBegin", 'P');
    LacksChar(line, "LineBegin", 'L');
    LacksChar(line, "PolygonBegin", 'P');
    LacksChar(line, "SolidBegin", 'S');
  }

  /** A line that holds none of the markers up to the Solid marker selects
      the first of the later markers it holds. */
  lemma SelectsLater(s: string)
    requires !Contains(s, "CommentBegin") && !Contains(s, "HeadBegin")
    requires !Contains(s, "FeatureCodeBegin") && !Contains(s, "TableStructureBegin")
    requires !Contains(s, "PointBegin") && !Contains(s, "LineBegin")
    requires !Contains(s, "PolygonBegin") && !Contains(s, "SolidBegin")
    requires !Contains(s, "AggregationBegin")
    ensures Contains(s, "AnnotationBegin") ==> MarkerOf(s) == Some(AnnotationBegin)
    ensures !Contains(s, "AnnotationBegin") && !Contains(s, "TopologyBegin") && Contains(s, "AttributeBegin")
            ==> MarkerOf(s) == Some(AttributeBegin)
  {
  }

  /** The two last markers the writer emits hold no capital but their first
      letter and the `B`. */
  lemma UpperLetters(s: string)
    requires s == "AnnotationBegin" || s == "AttributeBegin"
    ensures 'C' !in s && 'H' !in s && 'F' !in s && 'T' !in s && 'P' !in s && 'L' !in s && 'S' !in s
  {
    assert forall k :: 0 <= k < |s| ==> s[k] == 'A' || s[k] == 'B' || 'a' <= s[k] <= 'z';
  }

  lemma AnnotationMarker(s: string)
    requires s == "AnnotationBegin"
    ensures MarkerOf(s) == Some(AnnotationBegin)
  {
    UpperLetters(s);
    assert 'r' !in s;
    NotGeometry(s);
    LacksChar(s, "AggregationBegin", 'r');
    ContainsSelf(s);
    SelectsLater(s);
  }

  lemma AttributeMarker(s: string)
    requires s == "AttributeBegin"
    ensures MarkerOf(s) == Some(AttributeBegin)
  {
    UpperLetters(s);
    assert 'o' !in s;
    NotGeometry(s);
    LacksChar(s, "AggregationBegin", 'o');
    LacksChar(s, "AnnotationBegin", 'o');
    LacksChar(s, "TopologyBegin", 'T');
    ContainsSelf(s);
    SelectsLater(s);
  }

  /** A marker line hands the lines after it to its section's reader, and
      the scan goes on with the line after the section. */
  lemma Scanned(extra: string, rest: seq<string>, st: Store, m: Marker, after: Read<Store>)
    requires |rest| > 0 && MarkerOf(extra) == Some(m)
    requires Dispatch(m, rest, st) == Ok(after) && |after.rest| > 0
    ensures ReadSections(extra, rest, st) == ReadSections(after.rest[0], after.rest[1..], after.value)
  {
  }

  /** A section that ends the document ends the scan. */
  lemma ScannedLast(extra: string, rest: seq<string>, st: Store, m: Marker, result: Store)
    requires |rest| > 0 && MarkerOf(extra) == Some(m)
    requires Dispatch(m, rest, st) == Ok(Read(result, []))
    ensures ReadSections(extra, rest, st) == Ok(result)
  {
  }

  /** A line without a marker is read and ignored. */
  lemma Skipped(extra: string, rest: seq<string>, st: Store)
    requires |rest| > 0 && 'B' !in extra
    ensures ReadSections(extra, rest, st) == ReadSections(rest[0], rest[1..], st)
  {
    NoMarker(extra);
  }

  /** A section whose reader fails fails the scan. */
  lemma ScannedFailing(extra: string, rest: seq<string>, st: Store, m: Marker)
    requires |rest| > 0 && MarkerOf(extra) == Some(m)
    requires Dispatch(m, rest, st).Fail?
    ensures ReadSections(extra, rest, st) == Fail(Dispatch(m, rest, st).error)
  {
  }

  // ---------------------------------------------------------------------------
  // The Head block

  /** The header lines read one after another into the store: each is kept
      and may set the CRS or the extent, and nothing else changes. */
  function ReadHeadLines(st: Store, lines: seq<string>): (r: Res<Store>)
    ensures r.Ok? ==> r.value == st.(head := st.head + lines, crs := r.value.crs, extent := r.value.extent)
    decreases |lines|
  {
    if |lines| == 0 then Ok(st)
    else
      var st1 :- ReadHeadLine(st, lines[0]);
      var r := ReadHeadLines(st1, lines[1..]);
      assert st.head + [lines[0]] + lines[1..] == st.head + lines;
      r
  }

  /** The end marker ends `readHead`. */
  lemma HeadEndStep(tail: seq<string>, st: Store)
    ensures ReadHead(["HeadEnd"] + tail, st) == Ok(Read(st, tail))
  {
    NextCons("HeadEnd", tail);
    ContainsSelf("HeadEnd");
  }

  /** A header line without the end marker is read, and `readHead` goes on. */
  lemma HeadLineStep(line: string, rest: seq<string>, st: Store, st1: Store)
    requires !Contains(line, "HeadEnd") && ReadHeadLine(st, line) == Ok(st1)
    ensures ReadHead([line] + rest, st) == ReadHead(rest, st1)
  {
    NextCons(line, rest);
  }

  /** `readHead` reads the header lines the writer emits, up to the end
      marker, as long as no header line contains that marker. */
  lemma {:induction false} HeadRead(lines: seq<string>, tail: seq<string>, st: Store, result: Store)
    requires forall k :: 0 <= k < |lines| ==> !Contains(lines[k], "HeadEnd")
    requires ReadHeadLines(st, lines) == Ok(result)
    ensures ReadHead(lines + (["HeadEnd"] + tail), st) == Ok(Read(result, tail))
    decreases |lines|
  {
    if |lines| == 0 {
      NothingThen(lines, ["HeadEnd"] + tail);
      HeadEndStep(tail, st);
    } else {
      var st1 := ReadHeadLine(st, lines[0]).value;
      HeadRead(lines[1..], tail, st1, result);
      FirstThen(lines, ["HeadEnd"] + tail);
      HeadLineStep(lines[0], lines[1..] + (["HeadEnd"] + tail), st, st1);
    }
  }

  lemma HeadBlockRead(st: Store, tail: seq<string>, s: Store, result: Store)
    requires |tail| > 0
    requires forall k :: 0 <= k < |st.head| ==> !Contains(st.head[k], "HeadEnd")
    requires ReadHeadLines(s, st.head) == Ok(result)
    ensures var b := HeadBlock(st, tail);
            |b| > 0 && ReadSections(b[0], b[1..], s) == ReadSections(tail[0], tail[1..], result)
  {
    var b := HeadBlock(st, tail);
    assert b[1..] == st.head + (["HeadEnd"] + tail);
    HeadMarker(b[0]);
    HeadRead(st.head, tail, s, result);
    Scanned(b[0], b[1..], s, HeadBegin, Read(result, tail));
  }

  // ---------------------------------------------------------------------------
  // The FeatureCode block

  /** Items joined by commas, from the right. */
  lemma CommaJoined(a: string, b: string, c: string, d: string)
    ensures a + "," + b == a + [','] + b
    ensures a + "," + b + "," + c == a + [','] + (b + [','] + c)
    ensures a + "," + b + "," + c + "," + d == a + [','] + (b + [','] + (c + [','] + d))
  {
  }

  /** Separator-free items joined by commas split back into them. */
  lemma ThreeItems(a: string, b: string, c: string)
    requires ',' !in a && ',' !in b && ',' !in c
    ensures Split(a + [','] + (b + [','] + c), ',') == [a, b, c]
  {
    SplitSingle(c, ',');
    SplitCons(b, ',', c);
    SplitCons(a, ',', b + [','] + c);
  }

  lemma FourItems(a: string, b: string, c: string, d: string)
    requires ',' !in a && ',' !in b && ',' !in c && ',' !in d
    ensures Split(a + "," + b + "," + c + "," + d, ',') == [a, b, c, d]
  {
    CommaJoined(a, b, c, d);
    ThreeItems(b, c, d);
    SplitCons(a, ',', b + [','] + (c + [','] + d));
  }

  /** The kind name written for a layer type selects that layer type again. */
  lemma KindRoundTrip(w: WkbType)
    requires HasBlock(LayerGeometryType(w))
    ensures ',' !in KindName(LayerGeometryType(w))
    ensures KindOf(KindName(LayerGeometryType(w))) == w
  {
    var k := KindName(LayerGeometryType(w));
    match w
    case WkbMultiPoint =>
      ContainsSelf(k);
    case WkbMultiLineString =>
      TooShort(k, "Point");
      ContainsSelf(k);
    case WkbMultiPolygon =>
      assert 't' !in k && 'L' !in k;
      LacksChar(k, "Point", 't');
      LacksChar(k, "Line", 'L');
      ContainsSelf(k);
  }

  /** The end marker ends the custom items. */
  lemma CustomItemsEnd(tail: seq<string>, acc: seq<string>)
    ensures ReadCustomItems(["FeatureCodeEnd"] + tail, acc) == Ok(Read(acc, tail))
  {
    NextCons("FeatureCodeEnd", tail);
    ContainsSelf("FeatureCodeEnd");
  }

  /** A line without the end marker is one more custom item. */
  lemma CustomItemStep(item: string, rest: seq<string>, acc: seq<string>)
    requires !Contains(item, "FeatureCodeEnd")
    ensures ReadCustomItems([item] + rest, acc) == ReadCustomItems(rest, acc + [item])
  {
    NextCons(item, rest);
  }

  /** The custom items come back verbatim, after those already held. */
  lemma {:induction false} CustomItemsRead(items: seq<string>, acc: seq<string>, tail: seq<string>)
    requires forall k :: 0 <= k < |items| ==> !Contains(items[k], "FeatureCodeEnd")
    ensures ReadCustomItems(items + (["FeatureCodeEnd"] + tail), acc) == Ok(Read(acc + items, tail))
    decreases |items|
  {
    if |items| == 0 {
      NothingThen(items, ["FeatureCodeEnd"] + tail);
      assert acc + items == acc;
      CustomItemsEnd(tail, acc);
    } else {
      CustomItemsRead(items[1..], acc + [items[0]], tail);
      FirstThen(items, ["FeatureCodeEnd"] + tail);
      CustomItemStep(items[0], items[1..] + (["FeatureCodeEnd"] + tail), acc);
      AppendFirst(acc, items);
    }
  }

  /** What the FeatureCode section sets. */
  function WithFeatureCode(s: Store, st: Store): Store {
    s.(featureTypeCode := st.featureTypeCode, featureTypeName := st.featureTypeName,
       wkbType := st.wkbType, attributeTableName := st.attributeTableName,
       customItems := s.customItems + st.customItems)
  }

  /** The parts of the store the writer's feature-code line and items carry
      avoid the reader's separators and end marker. */
  predicate FeatureCodeWritable(st: Store) {
    && HasBlock(LayerGeometryType(st.wkbType))
    && ',' !in st.featureTypeCode && ',' !in st.featureTypeName && ',' !in st.attributeTableName
    && forall k :: 0 <= k < |st.customItems| ==> !Contains(st.customItems[k], "FeatureCodeEnd")
  }

  lemma FeatureCodeRead(st: Store, tail: seq<string>, s: Store)
    requires FeatureCodeWritable(st)
    ensures ReadFeatureCode(FeatureCodeLine(st) + (st.customItems + (["FeatureCodeEnd"] + tail)), s)
         == Ok(Read(WithFeatureCode(s, st), tail))
  {
    var kind := KindName(LayerGeometryType(st.wkbType));
    KindRoundTrip(st.wkbType);
    var line := st.featureTypeCode + "," + st.featureTypeName + "," + kind + "," + st.attributeTableName;
    assert FeatureCodeLine(st) == [line];
    FourItems(st.featureTypeCode, st.featureTypeName, kind, st.attributeTableName);
    NextCons(line, st.customItems + (["FeatureCodeEnd"] + tail));
    CustomItemsRead(st.customItems, s.customItems, tail);
  }

  lemma FeatureCodeBlockRead(st: Store, tail: seq<string>, s: Store)
    requires |tail| > 0 && FeatureCodeWritable(st)
    ensures var b := FeatureCodeBlock(st, tail);
            |b| > 0 && ReadSections(b[0], b[1..], s) == ReadSections(tail[0], tail[1..], WithFeatureCode(s, st))
  {
    var b := FeatureCodeBlock(st, tail);
    Cons("FeatureCodeBegin", FeatureCodeLine(st) + (st.customItems + (["FeatureCodeEnd"] + tail)));
    FeatureCodeMarker(b[0]);
    FeatureCodeRead(st, tail, s);
    FeatureCodeScanned(b, s, Read(WithFeatureCode(s, st), tail));
  }

  lemma FeatureCodeScanned(b: seq<string>, s: Store, after: Read<Store>)
    requires |b| > 1 && MarkerOf(b[0]) == Some(FeatureCodeBegin)
    requires ReadFeatureCode(b[1..], s) == Ok(after) && |after.rest| > 0
    ensures ReadSections(b[0], b[1..], s) == ReadSections(after.rest[0], after.rest[1..], after.value)
  {
    assert Dispatch(FeatureCodeBegin, b[1..], s) == Ok(after);
    Scanned(b[0], b[1..], s, FeatureCodeBegin, after);
  }

  /** A layer with none of the three geometry types writes no feature-code
      line, so the reader takes the first custom item, or the end marker,
      for it: a line without three commas makes the read fail. */
  lemma NoKindNoFeatureCode(st: Store, tail: seq<string>, s: Store)
    requires !HasBlock(LayerGeometryType(st.wkbType))
    requires forall k :: 0 <= k < |st.customItems| ==> ',' !in st.customItems[k]
    ensures var b := FeatureCodeBlock(st, tail);
            |b| > 0 && ReadSections(b[0], b[1..], s).Fail?
  {
    var b := FeatureCodeBlock(st, tail);
    assert FeatureCodeLine(st) == [];
    assert b == ["FeatureCodeBegin"] + (st.customItems + (["FeatureCodeEnd"] + tail));
    FirstItemCommaFree(st.customItems, tail);
    FeatureCodeBlockFails(b, s);
  }

  /** The first line after a comma-free list of custom items has no comma. */
  lemma FirstItemCommaFree(items: seq<string>, tail: seq<string>)
    requires forall k :: 0 <= k < |items| ==> ',' !in items[k]
    ensures ',' !in (items + (["FeatureCodeEnd"] + tail))[0]
  {
    var rest := items + (["FeatureCodeEnd"] + tail);
    if |items| > 0 {
      assert rest[0] == items[0];
    } else {
      var end := "FeatureCodeEnd";
      assert rest[0] == end && ',' !in end;
    }
  }

  /** A FeatureCode block whose first line has no comma fails the scan. */
  lemma FeatureCodeBlockFails(b: seq<string>, s: Store)
    requires |b| > 1 && b[0] == "FeatureCodeBegin" && ',' !in b[1]
    ensures ReadSections(b[0], b[1..], s).Fail?
  {
    FeatureCodeMarker(b[0]);
    FeatureCodeFails(b[1..], s);
    ScannedFailing(b[0], b[1..], s, FeatureCodeBegin);
  }

  /** A feature-code line without a comma makes `readFeatureCode` fail. */
  lemma FeatureCodeFails(rest: seq<string>, s: Store)
    requires |rest| > 0 && ',' !in rest[0]
    ensures ReadFeatureCode(rest, s).Fail?
  {
    SplitSingle(rest[0], ',');
  }

  // ---------------------------------------------------------------------------
  // The TableStructure block

  /** A field the writer and the reader agree on: no comma in its name or
      type name, a type name other than `Double` that holds `Int` only as
      the whole name, the storage type the reader derives from that name, and
      no length or precision (the writer emits them only for `Double`). */
  predicate StableField(f: Field) {
    && ',' !in f.name && ',' !in f.typeName && f.typeName != "Double"
    && (Contains(f.typeName, "Int") ==> f.typeName == "Int")
    && f.ty == (if f.typeName == "Int" then Int else String)
    && f.length == 0 && f.precision == 0
  }

  /** Two separator-free items joined by a comma split back into them. */
  lemma TwoItems(a: string, b: string)
    requires ',' !in a && ',' !in b
    ensures Split(a + "," + b, ',') == [a, b]
  {
    CommaJoined(a, b, "", "");
    SplitSingle(b, ',');
    SplitCons(a, ',', b);
  }

  /** What a field other than `Double` comes back as: the type name is
      written alone, so its length and precision are lost (read as 0), a
      type name that contains `Int` comes back as `Int` (the native `Int1`,
      `Int2`, `Int4` and `Int8` among them), and the storage type is Int for
      that name and String for every other, so a `Float`, `Date`, `Time` or
      `Datetime` field comes back as a string field. */
  lemma FieldLineRead(f: Field)
    requires ',' !in f.name && ',' !in f.typeName && f.typeName != "Double"
    ensures var typeName := if Contains(f.typeName, "Int") then "Int" else f.typeName;
            ReadField(FieldLine(f)) == Ok(Field(f.name, if typeName == "Int" then Int else String, typeName, 0, 0))
  {
    assert FieldLine(f) == f.name + "," + f.typeName;
    TwoItems(f.name, f.typeName);
  }

  /** A stable field's line reads back as the field. */
  lemma FieldRoundTrip(f: Field)
    requires StableField(f)
    ensures ReadField(FieldLine(f)) == Ok(f)
  {
    assert FieldLine(f) == f.name + "," + f.typeName;
    TwoItems(f.name, f.typeName);
  }

  /** A `Double` field does not come back: with no comma after the type name
      its length is glued to it, so the field reads back as a string field
      whose type name is `Double` followed by the length, whose length is the
      precision, and whose precision is 0. */
  lemma DoubleFieldChanges(f: Field)
    requires f.typeName == "Double" && ',' !in f.name && IsInt32(f.precision)
    ensures ReadField(FieldLine(f))
         == Ok(Field(f.name, String, "Double" + IntToString(f.length), f.precision, 0))
  {
    var glued := "Double" + IntToString(f.length);
    var prec := IntToString(f.precision);
    GluedTypeName(f.length);
    NumeralHasNoComma(f.precision);
    assert FieldLine(f) == f.name + "," + glued + "," + prec;
    CommaJoined(f.name, glued, prec, "");
    ThreeItems(f.name, glued, prec);
    IntRoundTrip(f.precision);
  }

  /** The type name a `Double` field reads back with: no comma, no `Int`,
      and neither `Double` nor `Int` itself. */
  lemma GluedTypeName(n: int)
    ensures var glued := "Double" + IntToString(n);
            ',' !in glued && !Contains(glued, "Int") && glued != "Double" && glued != "Int"
  {
    var glued := "Double" + IntToString(n);
    NumeralHasNoComma(n);
    assert forall k :: 0 <= k < |glued| ==> glued[k] != 'I' && glued[k] != ',' by {
      forall k | 0 <= k < |glued|
        ensures glued[k] != 'I' && glued[k] != ','
      {
        if k >= 6 {
          assert glued[k] == IntToString(n)[k - 6];
        }
      }
    }
    LacksChar(glued, "Int", 'I');
    assert |glued| > 6;
  }

  /** One field line read into the fields held, the rest following. */
  lemma FieldsStep(fields: seq<Field>, rest: seq<string>, acc: seq<Field>)
    requires |fields| > 0 && ReadField(FieldLine(fields[0])) == Ok(fields[0])
    requires fields[0].name !in FieldNames(acc)
    requires ReadFields(FieldLines(fields[1..], rest), |fields| - 1, acc + [fields[0]]) == Ok(Read(acc + fields, rest))
    ensures ReadFields(FieldLines(fields, rest), |fields|, acc) == Ok(Read(acc + fields, rest))
  {
    NextCons(FieldLine(fields[0]), FieldLines(fields[1..], rest));
  }

  /** A stable first field line, then the others read back. */
  lemma StableFieldStep(fields: seq<Field>, rest: seq<string>, acc: seq<Field>)
    requires |fields| > 0 && StableField(fields[0]) && fields[0].name !in FieldNames(acc)
    requires ReadFields(FieldLines(fields[1..], rest), |fields| - 1, acc + [fields[0]])
          == Ok(Read(acc + [fields[0]] + fields[1..], rest))
    ensures ReadFields(FieldLines(fields, rest), |fields|, acc) == Ok(Read(acc + fields, rest))
  {
    FieldRoundTrip(fields[0]);
    AppendFirst(acc, fields);
    FieldsStep(fields, rest, acc);
  }

  /** Stable field lines whose names are distinct from each other and from
      the fields already held read back as the fields, after those held. */
  lemma {:induction false} FieldsRoundTrip(fields: seq<Field>, rest: seq<string>, acc: seq<Field>)
    requires forall k :: 0 <= k < |fields| ==> StableField(fields[k])
    requires DistinctNames(acc + fields)
    ensures ReadFields(FieldLines(fields, rest), |fields|, acc) == Ok(Read(acc + fields, rest))
    decreases |fields|
  {
    if |fields| == 0 {
      assert acc + fields == acc;
    } else {
      assert |fields[1..]| == |fields| - 1;
      AppendFirst(acc, fields);
      FirstNameFree(acc, fields);
      FieldsRoundTrip(fields[1..], rest, acc + [fields[0]]);
      StableFieldStep(fields, rest, acc);
    }
  }

  /** Among distinct names, the first field after `acc` is not named in it. */
  lemma FirstNameFree(acc: seq<Field>, fields: seq<Field>)
    requires |fields| > 0 && DistinctNames(acc + fields)
    ensures fields[0].name !in FieldNames(acc)
  {
    forall j | 0 <= j < |acc|
      ensures FieldNames(acc)[j] != fields[0].name
    {
      assert (acc + fields)[j] == acc[j] && (acc + fields)[|acc|] == fields[0];
    }
  }

  /** A second field line with a name already read is dropped: two stable
      fields of one name read back as the first alone. */
  lemma RepeatedFieldDropped(f: Field, g: Field, rest: seq<string>, acc: seq<Field>)
    requires StableField(f) && StableField(g) && f.name == g.name && f.name !in FieldNames(acc)
    ensures ReadFields(FieldLines([f, g], rest), 2, acc) == Ok(Read(acc + [f], rest))
  {
    FieldRoundTrip(f);
    FieldRoundTrip(g);
    var none: seq<Field> := [g][1..];
    assert none == [] && [f, g][1..] == [g];
    var gs := FieldLines([g], rest);
    assert FieldLines([f, g], rest) == [FieldLine(f)] + gs;
    NextCons(FieldLine(f), gs);
    assert gs == [FieldLine(g)] + FieldLines(none, rest) == [FieldLine(g)] + rest;
    NextCons(FieldLine(g), rest);
    assert f.name in FieldNames(acc + [f]) by {
      assert FieldNames(acc + [f])[|acc|] == f.name;
    }
  }

  /** The parts of the store the TableStructure block carries avoid the
      reader's separator, and the field count is a value of `int`. */
  predicate FieldsWritable(st: Store) {
    && ',' !in st.attributeTableName && Countable(|st.fields|) && DistinctNames(st.fields)
    && forall k :: 0 <= k < |st.fields| ==> StableField(st.fields[k])
  }

  lemma TableStructureRead(st: Store, rest: seq<string>, s: Store)
    requires FieldsWritable(st) && DistinctNames(s.fields + st.fields)
    ensures ReadTableStructure([st.attributeTableName + "," + IntToString(|st.fields|)] + FieldLines(st.fields, rest), s)
         == Ok(Read(s.(fields := s.fields + st.fields), rest))
  {
    var line := st.attributeTableName + "," + IntToString(|st.fields|);
    CountRoundTrip(|st.fields|);
    TwoItems(st.attributeTableName, IntToString(|st.fields|));
    NextCons(line, FieldLines(st.fields, rest));
    FieldsRoundTrip(st.fields, rest, s.fields);
  }

  /** The lines the TableStructure reader leaves behind hold no marker. */
  lemma TableStructureTrailer(tail: seq<string>, s: Store)
    requires |tail| > 0
    ensures ReadSections("0", ["TableStructureEnd"] + tail, s) == ReadSections(tail[0], tail[1..], s)
  {
    var zero, end := "0", "TableStructureEnd";
    assert 'B' !in zero && 'B' !in end;
    Skipped(zero, [end] + tail, s);
    Skipped(end, tail, s);
    assert ([end] + tail)[1..] == tail;
  }

  lemma TableStructureBlockRead(st: Store, tail: seq<string>, s: Store)
    requires |tail| > 0 && FieldsWritable(st) && DistinctNames(s.fields + st.fields)
    ensures var b := TableStructureBlock(st, tail);
            |b| > 0 && ReadSections(b[0], b[1..], s) == ReadSections(tail[0], tail[1..], s.(fields := s.fields + st.fields))
  {
    var b := TableStructureBlock(st, tail);
    var rest := ["0"] + (["TableStructureEnd"] + tail);
    var body := [st.attributeTableName + "," + IntToString(|st.fields|)] + FieldLines(st.fields, rest);
    assert b == ["TableStructureBegin"] + body;
    TableStructureRead(st, rest, s);
    TableStructureMarker(b[0]);
    TableStructureScanned(b, s, Read(s.(fields := s.fields + st.fields), rest));
    TableStructureTrailer(tail, s.(fields := s.fields + st.fields));
  }

  /** The scan past a TableStructure block whose reader succeeds. */
  lemma TableStructureScanned(b: seq<string>, s: Store, after: Read<Store>)
    requires |b| > 1 && MarkerOf(b[0]) == Some(TableStructureBegin)
    requires ReadTableStructure(b[1..], s) == Ok(after) && |after.rest| > 0
    ensures ReadSections(b[0], b[1..], s) == ReadSections(after.rest[0], after.rest[1..], after.value)
  {
    assert Dispatch(TableStructureBegin, b[1..], s) == Ok(after);
    Scanned(b[0], b[1..], s, TableStructureBegin, after);
  }

  // ---------------------------------------------------------------------------
  // The geometry blocks

  /** The marker that opens a layer type's block. */
  function MarkerFor(t: GeometryType): Marker
    requires HasBlock(t)
  {
    match t
    case PointGeometry => PointBegin
    case LineGeometry => LineBegin
    case _ => PolygonBegin
  }

  /** The scanner hands a geometry block to its decoder, which starts from
      the features the store already holds. */
  lemma DispatchGeometry(t: GeometryType, rest: seq<string>, s: Store, read: Read<FeatureMap>)
    requires HasBlock(t)
    requires ReadGeometrySection(SectionOf(t), rest, s.features) == Ok(read)
    ensures Dispatch(MarkerFor(t), rest, s) == Ok(Read(s.(features := read.value), read.rest))
  {
    match t
    case PointGeometry => DispatchPoint(rest, s, read);
    case LineGeometry => DispatchLine(rest, s, read);
    case PolygonGeometry => DispatchPolygon(rest, s, read);
  }

  lemma DispatchPoint(rest: seq<string>, s: Store, read: Read<FeatureMap>)
    requires ReadGeometrySection(PointSection, rest, s.features) == Ok(read)
    ensures Dispatch(PointBegin, rest, s) == Ok(Read(s.(features := read.value), read.rest))
  {
  }

  lemma DispatchLine(rest: seq<string>, s: Store, read: Read<FeatureMap>)
    requires ReadGeometrySection(LineSection, rest, s.features) == Ok(read)
    ensures Dispatch(LineBegin, rest, s) == Ok(Read(s.(features := read.value), read.rest))
  {
  }

  lemma DispatchPolygon(rest: seq<string>, s: Store, read: Read<FeatureMap>)
    requires ReadGeometrySection(PolygonSection, rest, s.features) == Ok(read)
    ensures Dispatch(PolygonBegin, rest, s) == Ok(Read(s.(features := read.value), read.rest))
  {
  }

  /** Features whose records the layer type's decoder reads back: in key
      order, keyed by values of `int`, each geometry writable. */
  predicate FeaturesWritable(t: GeometryType, st: Store)
    requires HasBlock(t)
  {
    && OrderedMap.Ascending(st.features)
    && forall i :: 0 <= i < |st.features| ==> IsInt32(st.features[i].key) && Writable(t, st.features[i].value.geometry)
  }

  /** The store after a geometry block: the decoded records when the block
      is the layer's, unchanged otherwise. */
  function AfterBlock(t: GeometryType, st: Store, s: Store): Store
    requires HasBlock(t)
  {
    if LayerGeometryType(st.wkbType) == t then s.(features := Decoded(t, st.features)) else s
  }

  /** A geometry block read by the scanner: the layer's own block fills the
      (still empty) feature map with its decoded records, the other two are
      passed over. */
  lemma GeometryBlockRead(t: GeometryType, st: Store, begin: string, end: string, tail: seq<string>, s: Store)
    requires HasBlock(t) && |tail| > 0
    requires MarkerOf(begin) == Some(MarkerFor(t)) && AtSectionEnd(SectionOf(t), end)
    requires LayerGeometryType(st.wkbType) == t ==> s.features == [] && FeaturesWritable(t, st)
    ensures var b := GeometryBlock(t, st, begin, end, tail);
            |b| > 0 && ReadSections(b[0], b[1..], s) == ReadSections(tail[0], tail[1..], AfterBlock(t, st, s))
  {
    var b := GeometryBlock(t, st, begin, end, tail);
    if LayerGeometryType(st.wkbType) == t {
      var d: FeatureMap := Decoded(t, st.features);
      GeometrySectionRoundTrip(t, st.features, st.featureTypeCode, end, tail, []);
      assert [] + d == d;
      assert b == [begin] + Records(t, st.features, st.featureTypeCode, [end] + tail);
      DispatchGeometry(t, b[1..], s, Read(d, tail));
      Scanned(b[0], b[1..], s, MarkerFor(t), Read(s.(features := d), tail));
    } else {
      assert b == [begin] + ([end] + tail);
      SectionEnd(SectionOf(t), end, tail, s.features);
      DispatchGeometry(t, b[1..], s, Read(s.features, tail));
      assert s.(features := s.features) == s;
      Scanned(b[0], b[1..], s, MarkerFor(t), Read(s, tail));
    }
  }

  // ---------------------------------------------------------------------------
  // The Annotation and Attribute blocks

  /** The empty Annotation block is skipped. */
  lemma AnnotationBlockRead(tail: seq<string>, s: Store)
    requires |tail| > 0
    ensures var b := AnnotationBlock(tail);
            |b| > 0 && ReadSections(b[0], b[1..], s) == ReadSections(tail[0], tail[1..], s)
  {
    var b := AnnotationBlock(tail);
    assert b == ["AnnotationBegin"] + (["AnnotationEnd"] + tail);
    EndSkipped("AnnotationEnd", tail);
    AnnotationMarker(b[0]);
    AnnotationScanned(b, s, tail);
  }

  /** A skipped section whose end marker comes first ends right after it. */
  lemma EndSkipped(end: string, tail: seq<string>)
    ensures SkipSection([end] + tail, end) == Ok(tail)
  {
    ContainsSelf(end);
    NextCons(end, tail);
  }

  /** The scan past an Annotation block. */
  lemma AnnotationScanned(b: seq<string>, s: Store, after: seq<string>)
    requires |b| > 1 && MarkerOf(b[0]) == Some(AnnotationBegin)
    requires SkipSection(b[1..], "AnnotationEnd") == Ok(after) && |after| > 0
    ensures ReadSections(b[0], b[1..], s) == ReadSections(after[0], after[1..], s)
  {
    Scanned(b[0], b[1..], s, AnnotationBegin, Read(s, after));
  }

  /** The Attribute block, the last one, ends the scan with every feature's
      values restored. */
  lemma AttributeBlockRead(t: GeometryType, st: Store, s: Store)
    requires HasBlock(t) && s.features == Decoded(t, st.features) && OrderedMap.Ascending(st.features)
    requires !Contains(st.attributeTableName, "AttributeEnd")
    requires forall i :: 0 <= i < |st.features| ==> RowWritable(st.features[i])
    requires (forall i :: 0 <= i < |st.features| ==> |st.features[i].value.attributes| > 0)
          || (forall i :: 0 <= i < |st.features| ==> |st.features[i].value.attributes| == 0)
    ensures var b := AttributeBlock(st, []);
            |b| > 0 && ReadSections(b[0], b[1..], s) == Ok(s.(features := Restored(t, st.features)))
  {
    var b := AttributeBlock(st, []);
    var rest := [st.attributeTableName] + AttributeRows(st.features, "", ["AttributeEnd"] + []);
    assert b == ["AttributeBegin"] + rest;
    AttributeSectionRoundTrip(t, st.features, st.attributeTableName, []);
    AttributeMarker(b[0]);
    AttributeScanned(b, s, Restored(t, st.features));
  }

  /** The scan over an Attribute block that closes the document. */
  lemma AttributeScanned(b: seq<string>, s: Store, result: FeatureMap)
    requires |b| > 1 && MarkerOf(b[0]) == Some(AttributeBegin)
    requires ReadAttribute(b[1..], s.features) == Ok(Read(result, []))
    ensures ReadSections(b[0], b[1..], s) == Ok(s.(features := result))
  {
    ScannedLast(b[0], b[1..], s, AttributeBegin, s.(features := result));
  }

  // ---------------------------------------------------------------------------
  // The three geometry blocks in writing order

  lemma PointBlockRead(st: Store, tail: seq<string>, s: Store)
    requires |tail| > 0
    requires LayerGeometryType(st.wkbType) == PointGeometry ==> s.features == [] && FeaturesWritable(PointGeometry, st)
    ensures var b := GeometryBlock(PointGeometry, st, "PointBegin", "PointEnd", tail);
            |b| > 0 && ReadSections(b[0], b[1..], s) == ReadSections(tail[0], tail[1..], AfterBlock(PointGeometry, st, s))
  {
    var begin := "PointBegin";
    PointMarker(begin);
    EndMarkers();
    GeometryBlockRead(PointGeometry, st, begin, "PointEnd", tail, s);
  }

  lemma LineBlockRead(st: Store, tail: seq<string>, s: Store)
    requires |tail| > 0
    requires LayerGeometryType(st.wkbType) == LineGeometry ==> s.features == [] && FeaturesWritable(LineGeometry, st)
    ensures var b := GeometryBlock(LineGeometry, st, "LineBegin", "LineEnd", tail);
            |b| > 0 && ReadSections(b[0], b[1..], s) == ReadSections(tail[0], tail[1..], AfterBlock(LineGeometry, st, s))
  {
    var begin := "LineBegin";
    LineMarker(begin);
    EndMarkers();
    GeometryBlockRead(LineGeometry, st, begin, "LineEnd", tail, s);
  }

  lemma PolygonBlockRead(st: Store, tail: seq<string>, s: Store)
    requires |tail| > 0
    requires LayerGeometryType(st.wkbType) == PolygonGeometry ==> s.features == [] && FeaturesWritable(PolygonGeometry, st)
    ensures var b := GeometryBlock(PolygonGeometry, st, "PolygonBegin", "PolygonEnd", tail);
            |b| > 0 && ReadSections(b[0], b[1..], s) == ReadSections(tail[0], tail[1..], AfterBlock(PolygonGeometry, st, s))
  {
    var begin := "PolygonBegin";
    PolygonMarker(begin);
    EndMarkers();
    GeometryBlockRead(PolygonGeometry, st, begin, "PolygonEnd", tail, s);
  }

  /** Of the three geometry blocks only the layer's own changes the store:
      the features read are its decoded records. */
  lemma OneBlockDecodes(st: Store, s: Store)
    requires HasBlock(LayerGeometryType(st.wkbType)) && s.features == []
    ensures AfterBlock(PolygonGeometry, st, AfterBlock(LineGeometry, st, AfterBlock(PointGeometry, st, s)))
         == s.(features := Decoded(LayerGeometryType(st.wkbType), st.features))
  {
  }

  /** The geometry blocks that follow what the scanner read so far
      (`tail` being the Annotation and Attribute blocks). */
  function GeometryBlocks(st: Store, tail: seq<string>): seq<string> {
    GeometryBlock(PointGeometry, st, "PointBegin", "PointEnd",
      GeometryBlock(LineGeometry, st, "LineBegin", "LineEnd",
        GeometryBlock(PolygonGeometry, st, "PolygonBegin", "PolygonEnd", tail)))
  }

  lemma GeometryBlocksRead(st: Store, tail: seq<string>, s: Store)
    requires |tail| > 0 && s.features == []
    requires HasBlock(LayerGeometryType(st.wkbType)) && FeaturesWritable(LayerGeometryType(st.wkbType), st)
    ensures var b := GeometryBlocks(st, tail);
            |b| > 0 && ReadSections(b[0], b[1..], s)
                    == ReadSections(tail[0], tail[1..], s.(features := Decoded(LayerGeometryType(st.wkbType), st.features)))
  {
    var t5 := GeometryBlock(PolygonGeometry, st, "PolygonBegin", "PolygonEnd", tail);
    var t4 := GeometryBlock(LineGeometry, st, "LineBegin", "LineEnd", t5);
    var s4 := AfterBlock(PointGeometry, st, s);
    var s5 := AfterBlock(LineGeometry, st, s4);
    PointBlockRead(st, t4, s);
    LineBlockRead(st, t5, s4);
    PolygonBlockRead(st, tail, s5);
    OneBlockDecodes(st, s);
  }

  // ---------------------------------------------------------------------------
  // The whole document

  /** A store whose document the reader takes apart as the writer put it
      together: one of the three geometry layer types, header lines the
      reader accepts and that do not end the header early, and feature-code
      items, fields, table name, features and values that avoid every
      separator and end marker of their sections. */
  predicate Reloadable(st: Store) {
    var t := LayerGeometryType(st.wkbType);
    && HasBlock(t)
    && ReadHeadLines(Empty, st.head).Ok?
    && (forall k :: 0 <= k < |st.head| ==> !Contains(st.head[k], "HeadEnd"))
    && FeatureCodeWritable(st)
    && FieldsWritable(st)
    && !Contains(st.attributeTableName, "AttributeEnd")
    && FeaturesWritable(t, st)
    && (forall i :: 0 <= i < |st.features| ==> RowWritable(st.features[i]))
    && AttributesMatchFields(st)
  }

  /** The store `readData` rebuilds: the header lines with the CRS and
      extent they set, the feature code, items and fields as written, and
      the features in key order with their geometries as the layer type's
      decoder reads them and their values as text.  No comment is read back
      and the id counter is left at its initial value. */
  function Reloaded(st: Store): Store
    requires Reloadable(st)
  {
    var h := ReadHeadLines(Empty, st.head).value;
    Store([], st.head, h.crs, h.extent, st.featureTypeCode, st.featureTypeName, st.attributeTableName,
          st.wkbType, st.customItems, st.fields, Restored(LayerGeometryType(st.wkbType), st.features), 0)
  }

  /** What the Head, FeatureCode and TableStructure blocks leave in an
      initial store. */
  function Front(st: Store, h: Store): Store {
    Store([], st.head, h.crs, h.extent, st.featureTypeCode, st.featureTypeName, st.attributeTableName,
          st.wkbType, st.customItems, st.fields, [], 0)
  }

  lemma FrontBlocksRead(st: Store, tail: seq<string>, h: Store)
    requires |tail| > 0 && ReadHeadLines(Empty, st.head) == Ok(h)
    requires forall k :: 0 <= k < |st.head| ==> !Contains(st.head[k], "HeadEnd")
    requires FeatureCodeWritable(st) && FieldsWritable(st)
    ensures var w := HeadBlock(st, FeatureCodeBlock(st, TableStructureBlock(st, tail)));
            ReadData(w) == ReadSections(tail[0], tail[1..], Front(st, h))
  {
    var t2 := TableStructureBlock(st, tail);
    var t1 := FeatureCodeBlock(st, t2);
    var w := HeadBlock(st, t1);
    HeadBlockRead(st, t1, Empty, h);
    assert ReadData(w) == ReadSections(t1[0], t1[1..], h);
    FeatureCodeBlockRead(st, t2, h);
    var s2 := WithFeatureCode(h, st);
    FrontStore(st, h);
    TableStructureBlockRead(st, tail, s2);
  }

  /** The store the three front blocks leave, field by field. */
  lemma FrontStore(st: Store, h: Store)
    requires ReadHeadLines(Empty, st.head) == Ok(h)
    ensures var s2 := WithFeatureCode(h, st);
            s2.fields + st.fields == st.fields && s2.(fields := s2.fields + st.fields) == Front(st, h)
  {
    assert h == Empty.(head := Empty.head + st.head, crs := h.crs, extent := h.extent);
    assert [] + st.customItems == st.customItems;
    assert [] + st.fields == st.fields;
  }

  /** A field count of zero means no feature carries values, any other
      count that every feature does. */
  lemma AllOrNone(st: Store)
    requires AttributesMatchFields(st)
    ensures (forall i :: 0 <= i < |st.features| ==> |st.features[i].value.attributes| > 0)
         || (forall i :: 0 <= i < |st.features| ==> |st.features[i].value.attributes| == 0)
  {
  }

  /** `readData` of what `writeData` emits rebuilds the store. */
  lemma WriteThenRead(st: Store)
    requires Reloadable(st)
    ensures ReadData(WriteData(st)) == Ok(Reloaded(st))
  {
    var t := LayerGeometryType(st.wkbType);
    var h := ReadHeadLines(Empty, st.head).value;
    var t7 := AttributeBlock(st, []);
    var t6 := AnnotationBlock(t7);
    var t3 := GeometryBlocks(st, t6);
    assert WriteData(st) == HeadBlock(st, FeatureCodeBlock(st, TableStructureBlock(st, t3)));
    FrontBlocksRead(st, t3, h);
    var s3 := Front(st, h);
    GeometryBlocksRead(st, t6, s3);
    var s6 := s3.(features := Decoded(t, st.features));
    AnnotationBlockRead(t7, s6);
    AllOrNone(st);
    AttributeBlockRead(t, st, s6);
  }

  /** A store already in the form the reader produces: no comments, the CRS
      and extent its header lines set, geometries as their decoder reads
      them, values as text, and the id counter the constructor sets. */
  predicate Canonical(st: Store)
    requires Reloadable(st)
  {
    var t := LayerGeometryType(st.wkbType);
    var h := ReadHeadLines(Empty, st.head).value;
    && st.comments == [] && st.crs == h.crs && st.extent == h.extent
    && st.nextId == |st.features| + 1
    && forall i :: 0 <= i < |st.features| ==> RestoredEntry(t, st.features[i]) == st.features[i]
  }

  /** Loading what is written from a canonical store gives the same store
      back. */
  lemma CanonicalRoundTrip(st: Store)
    requires Reloadable(st) && Canonical(st)
    ensures Load(WriteData(st)) == Ok(st)
  {
    WriteThenRead(st);
    LoadAfterRead(WriteData(st), Reloaded(st));
    ReloadedIsCanonical(st);
  }

  /** The constructor's load is `readData` with the counter set after it. */
  lemma LoadAfterRead(lines: seq<string>, s: Store)
    requires ReadData(lines) == Ok(s)
    ensures Load(lines) == Ok(s.(nextId := |s.features| + 1))
  {
  }

  /** A canonical store is what the reader rebuilds from it, up to the
      counter the constructor sets. */
  lemma ReloadedIsCanonical(st: Store)
    requires Reloadable(st) && Canonical(st)
    ensures Reloaded(st).(nextId := |Reloaded(st).features| + 1) == st
  {
    var t := LayerGeometryType(st.wkbType);
    var d := Restored(t, st.features);
    assert d == st.features by {
      forall i | 0 <= i < |d|
        ensures d[i] == st.features[i]
      {
        assert d[i] == RestoredEntry(t, st.features[i]);
      }
    }
  }

  /** A layer of none of the three geometry types writes a document the
      reader cannot load: the feature-code line is missing, and the reader
      takes the next line, which has no comma, for it. */
  lemma NoKindNoDocument(st: Store)
    requires !HasBlock(LayerGeometryType(st.wkbType))
    requires ReadHeadLines(Empty, st.head).Ok?
    requires forall k :: 0 <= k < |st.head| ==> !Contains(st.head[k], "HeadEnd")
    requires forall k :: 0 <= k < |st.customItems| ==> ',' !in st.customItems[k]
    ensures ReadData(WriteData(st)).Fail?
  {
    var h := ReadHeadLines(Empty, st.head).value;
    var t1 := FeatureCodeBlock(st, TableStructureBlock(st, GeometryBlocks(st, AnnotationBlock(AttributeBlock(st, [])))));
    assert WriteData(st) == HeadBlock(st, t1);
    HeadBlockRead(st, t1, Empty, h);
    NoKindNoFeatureCode(st, TableStructureBlock(st, GeometryBlocks(st, AnnotationBlock(AttributeBlock(st, [])))), h);
  }
}

=== FILE: edits.dfy ===
/** The provider's editing operations on the store: features added,
    deleted and changed, fields added, renamed and deleted.  In the source
    every one of them ends by writing the whole document again; here that
    document is `WriteData` of the store the operation returns. */
module Edits {
  import opened Wrappers
  import opened Geometry
  import opened Features
  import opened Store
  import OrderedMap

  /** The store after an operation that also reports success. */
  datatype Edited = Edited(store: Store, ok: bool)

  // ---------------------------------------------------------------------------
  // addFeatures

  /** An attribute list fitted to the fields: missing values are filled
      with nulls of their field's type, surplus values are dropped. */
  function FitAttributes(vs: seq<Value>, fields: seq<Field>): (r: seq<Value>)
    ensures |r| == |fields|
    ensures forall k :: 0 <= k < |fields| ==> r[k] == if k < |vs| then vs[k] else Null(fields[k].ty)
  {
    if |vs| >= |fields| then vs[..|fields|]
    else vs + seq(|fields| - |vs|, k requires 0 <= k < |fields| - |vs| => Null(fields[|vs| + k].ty))
  }

  /** Whether a layer of kind `w` takes a geometry: no geometry at all, any
      geometry on a layer without geometry (where it is then dropped), or
      a geometry of the layer's own type. */
  predicate Accepts(w: WkbType, g: Geometry) {
    !HasGeometry(g) || w == WkbNoGeometry || TypeOf(g) == WkbGeometryType(w)
  }

  /** A feature as it is stored: under `id`, with its attributes fitted to
      the fields and its geometry dropped on a layer without geometry. */
  function Prepared(w: WkbType, fields: seq<Field>, f: Feature, id: int): Feature {
    Feature(id, if w == WkbNoGeometry then Absent else f.geometry, FitAttributes(f.attributes, fields))
  }

  /** The features the layer takes, in the order given. */
  function Accepted(w: WkbType, fs: seq<Feature>): (r: seq<Feature>)
    ensures |r| <= |fs|
    decreases |fs|
  {
    if |fs| == 0 then []
    else (if Accepts(w, fs[0].geometry) then [fs[0]] else []) + Accepted(w, fs[1..])
  }

  /** `addFeatures`: every feature the layer takes is stored under the next
      id, which then advances; a feature it does not take is passed over,
      uses no id, and makes the result false. */
  function AddFeatures(st: Store, fs: seq<Feature>): (r: Edited)
    ensures r.ok <==> forall k :: 0 <= k < |fs| ==> Accepts(st.wkbType, fs[k].geometry)
    ensures r.store.nextId == st.nextId + |Accepted(st.wkbType, fs)|
    ensures r.store == st.(features := r.store.features, nextId := r.store.nextId)
    decreases |fs|
  {
    if |fs| == 0 then Edited(st, true)
    else
      AllAcceptedCons(st.wkbType, fs);
      if Accepts(st.wkbType, fs[0].geometry) then
        var f := Prepared(st.wkbType, st.fields, fs[0], st.nextId);
        AddFeatures(st.(features := OrderedMap.Insert(st.features, st.nextId, f), nextId := st.nextId + 1), fs[1..])
      else
        var r := AddFeatures(st, fs[1..]);
        Edited(r.store, false)
  }

  /** Every feature is taken when the first is and so is every later one;
      the count taken is one more than the later ones' when the first is. */
  lemma AllAcceptedCons(w: WkbType, fs: seq<Feature>)
    requires |fs| > 0
    ensures (forall k :: 0 <= k < |fs| ==> Accepts(w, fs[k].geometry))
        <==> Accepts(w, fs[0].geometry) && forall k :: 0 <= k < |fs[1..]| ==> Accepts(w, fs[1..][k].geometry)
    ensures |Accepted(w, fs)| == (if Accepts(w, fs[0].geometry) then 1 else 0) + |Accepted(w, fs[1..])|
  {
    if Accepts(w, fs[0].geometry) && forall k :: 0 <= k < |fs[1..]| ==> Accepts(w, fs[1..][k].geometry) {
      forall k | 0 <= k < |fs|
        ensures Accepts(w, fs[k].geometry)
      {
        if k > 0 {
          assert fs[k] == fs[1..][k - 1];
        }
      }
    }
  }

  /** The entries the accepted features become: consecutive ids from `id`. */
  function NewEntries(w: WkbType, fields: seq<Field>, fs: seq<Feature>, id: int): (r: seq<OrderedMap.Entry<Feature>>)
    decreases |fs|
  {
    if |fs| == 0 then []
    else if Accepts(w, fs[0].geometry) then [OrderedMap.Entry(id, Prepared(w, fields, fs[0], id))] + NewEntries(w, fields, fs[1..], id + 1)
    else NewEntries(w, fields, fs[1..], id)
  }

  /** With the counter above every key in use, the accepted features are
      appended after the existing ones, under consecutive ids from the
      counter, and nothing already stored is replaced. */
  lemma {:induction false} AddFeaturesAppends(st: Store, fs: seq<Feature>)
    requires FreshCounter(st)
    ensures AddFeatures(st, fs).store.features == st.features + NewEntries(st.wkbType, st.fields, fs, st.nextId)
    decreases |fs|
  {
    if |fs| == 0 {
      assert st.features + [] == st.features;
    } else if Accepts(st.wkbType, fs[0].geometry) {
      var p := Prepared(st.wkbType, st.fields, fs[0], st.nextId);
      var st1 := st.(features := OrderedMap.Insert(st.features, st.nextId, p), nextId := st.nextId + 1);
      assert AddFeatures(st, fs) == AddFeatures(st1, fs[1..]);
      OrderedMap.InsertAbove(st.features, st.nextId, p);
      AppendedFresh(st.features, st.nextId, p);
      AddFeaturesAppends(st1, fs[1..]);
      AppendAssoc(st.features, OrderedMap.Entry(st.nextId, p), NewEntries(st.wkbType, st.fields, fs[1..], st.nextId + 1));
    } else {
      AddFeaturesAppends(st, fs[1..]);
    }
  }

  lemma AppendedFresh(m: OrderedMap.Map<Feature>, k: int, v: Feature)
    requires OrderedMap.Below(m, k)
    ensures OrderedMap.Below(m + [OrderedMap.Entry(k, v)], k + 1)
  {
  }

  lemma AppendAssoc<T>(a: seq<T>, e: T, b: seq<T>)
    ensures a + [e] + b == a + ([e] + b)
  {
  }

  /** The new entries lie at and above `id`, ascending, each under its own
      id and with one value per field. */
  lemma {:induction false} NewEntriesShape(w: WkbType, fields: seq<Field>, fs: seq<Feature>, id: int)
    ensures var es := NewEntries(w, fields, fs, id);
            && |es| == |Accepted(w, fs)|
            && OrderedMap.Ascending(es)
            && (forall i :: 0 <= i < |es| ==> es[i].key == id + i)
            && (forall i :: 0 <= i < |es| ==> es[i].value.id == es[i].key && |es[i].value.attributes| == |fields|)
    decreases |fs|
  {
    if |fs| > 0 {
      NewEntriesShape(w, fields, fs[1..], if Accepts(w, fs[0].geometry) then id + 1 else id);
    }
  }

  /** `addFeatures` keeps the store's invariants: one value per field on
      every feature, every feature under its own id, and the counter above
      every id in use. */
  lemma AddFeaturesKeepsInvariants(st: Store, fs: seq<Feature>)
    requires FreshCounter(st) && AttributesMatchFields(st) && IdsMatchKeys(st)
    ensures var r := AddFeatures(st, fs).store;
            && FreshCounter(r) && AttributesMatchFields(r) && IdsMatchKeys(r)
            && |r.features| == |st.features| + |Accepted(st.wkbType, fs)|
  {
    var es := NewEntries(st.wkbType, st.fields, fs, st.nextId);
    AddFeaturesAppends(st, fs);
    NewEntriesShape(st.wkbType, st.fields, fs, st.nextId);
    AppendedEntriesKeep(st.features, es, st.nextId, |st.fields|);
  }

  /** Entries under consecutive fresh ids, each under its own id and with
      `n` values, keep the invariants of the entries they follow. */
  lemma AppendedEntriesKeep(m: seq<OrderedMap.Entry<Feature>>, es: seq<OrderedMap.Entry<Feature>>, id: int, n: int)
    requires OrderedMap.Below(m, id)
    requires forall i :: 0 <= i < |m| ==> m[i].value.id == m[i].key && |m[i].value.attributes| == n
    requires forall i :: 0 <= i < |es| ==> es[i].key == id + i
    requires forall i :: 0 <= i < |es| ==> es[i].value.id == es[i].key && |es[i].value.attributes| == n
    ensures OrderedMap.Below(m + es, id + |es|)
    ensures forall i :: 0 <= i < |m + es| ==> (m + es)[i].value.id == (m + es)[i].key && |(m + es)[i].value.attributes| == n
  {
    forall i | 0 <= i < |m + es|
      ensures (m + es)[i].key < id + |es|
      ensures (m + es)[i].value.id == (m + es)[i].key && |(m + es)[i].value.attributes| == n
    {
      if i >= |m| {
        assert (m + es)[i] == es[i - |m|];
      } else {
        assert (m + es)[i] == m[i];
      }
    }
  }

  /** On a layer without geometry (the kind of a provider whose file had no
      FeatureCode section) every feature is taken, and stored without its
      geometry. */
  lemma {:induction false} NoGeometryLayerStrips(fields: seq<Field>, fs: seq<Feature>, id: int)
    ensures |Accepted(WkbNoGeometry, fs)| == |fs|
    ensures var es := NewEntries(WkbNoGeometry, fields, fs, id);
            |es| == |fs| && forall i :: 0 <= i < |es| ==> es[i].value.geometry == Absent
    decreases |fs|
  {
    if |fs| > 0 {
      NoGeometryLayerStrips(fields, fs[1..], id + 1);
    }
  }

  /** The counter set by the constructor (one more than the number of
      features read) is fresh exactly when every id read is at most that
      number; with positive ids, exactly when they are 1 to n. */
  lemma LoadedCounter(st: Store)
    requires st.nextId == |st.features| + 1
    requires forall i :: 0 <= i < |st.features| ==> st.features[i].key >= 1
    ensures FreshCounter(st) <==> forall i :: 0 <= i < |st.features| ==> st.features[i].key == i + 1
  {
    var fs := st.features;
    AtLeastPosition(fs);
    if FreshCounter(st) {
      AtMostPosition(fs);
    }
  }

  /** Ascending positive keys are at least one more than their position. */
  lemma {:induction false} AtLeastPosition(fs: OrderedMap.Map<Feature>)
    requires forall i :: 0 <= i < |fs| ==> fs[i].key >= 1
    ensures forall i :: 0 <= i < |fs| ==> fs[i].key >= i + 1
    decreases |fs|
  {
    if |fs| > 0 {
      var init: OrderedMap.Map<Feature> := fs[..|fs| - 1];
      AtLeastPosition(init);
      assert forall i :: 0 <= i < |init| ==> fs[i] == init[i];
      if |fs| > 1 {
        assert fs[|fs| - 2].key < fs[|fs| - 1].key;
      }
    }
  }

  /** Ascending keys below `|fs| + 1` are at most one more than their
      position. */
  lemma {:induction false} AtMostPosition(fs: OrderedMap.Map<Feature>)
    requires OrderedMap.Below(fs, |fs| + 1)
    ensures forall i :: 0 <= i < |fs| ==> fs[i].key <= i + 1
    decreases |fs|
  {
    if |fs| > 0 {
      var init: OrderedMap.Map<Feature> := fs[..|fs| - 1];
      forall i | 0 <= i < |init|
        ensures init[i].key < |init| + 1
      {
        assert init[i] == fs[i];
        assert fs[i].key < fs[|fs| - 1].key;
      }
      AtMostPosition(init);
      assert forall i :: 0 <= i < |init| ==> fs[i] == init[i];
    }
  }

  /** When the counter has reached an id in use (as it does after loading
      ids other than 1 to n), the next feature added replaces the feature
      stored there: the count does not grow. */
  lemma AddAtTakenCounter(st: Store, f: Feature)
    requires st.nextId in OrderedMap.Keys(st.features) && Accepts(st.wkbType, f.geometry)
    ensures var r := AddFeatures(st, [f]).store;
            && |r.features| == |st.features|
            && OrderedMap.Get(r.features, st.nextId) == Some(Prepared(st.wkbType, st.fields, f, st.nextId))
  {
    var p := Prepared(st.wkbType, st.fields, f, st.nextId);
    var st1 := st.(features := OrderedMap.Insert(st.features, st.nextId, p), nextId := st.nextId + 1);
    assert [f][1..] == [];
    assert AddFeatures(st, [f]) == AddFeatures(st1, []);
  }

  // ---------------------------------------------------------------------------
  // deleteFeatures

  /** `updateExtents`: the extent is reset to the empty rectangle. */
  function UpdateExtents(st: Store): Store {
    st.(extent := MinimalExtent)
  }

  /** `deleteFeatures`: every listed id present is erased (absent ids are
      passed over), then the extent is reset. */
  function DeleteFeatures(st: Store, ids: set<int>): (r: Store)
    ensures OrderedMap.Keys(r.features) == OrderedMap.Keys(st.features) - ids
    ensures forall j :: j !in ids ==> OrderedMap.Get(r.features, j) == OrderedMap.Get(st.features, j)
    ensures r == st.(features := r.features, extent := MinimalExtent)
  {
    UpdateExtents(st.(features := OrderedMap.RemoveKeys(st.features, ids)))
  }

  /** `deleteFeatures` keeps the store's invariants. */
  lemma DeleteFeaturesKeepsInvariants(st: Store, ids: set<int>)
    requires FreshCounter(st) && AttributesMatchFields(st) && IdsMatchKeys(st)
    ensures var r := DeleteFeatures(st, ids);
            FreshCounter(r) && AttributesMatchFields(r) && IdsMatchKeys(r)
  {
    OrderedMap.RemoveKeysKeeps(st.features, ids);
  }

  /** Ids are not handed out again: after deleting features below the
      counter and adding one, the deleted ids stay empty and the new feature
      is stored under the counter. */
  lemma DeleteThenAdd(st: Store, ids: set<int>, f: Feature)
    requires FreshCounter(st) && Accepts(st.wkbType, f.geometry)
    ensures var r := AddFeatures(DeleteFeatures(st, ids), [f]).store;
            && (forall k :: k in ids && k < st.nextId ==> OrderedMap.Get(r.features, k) == None)
            && OrderedMap.Get(r.features, st.nextId) == Some(Prepared(st.wkbType, st.fields, f, st.nextId))
  {
    var d := DeleteFeatures(st, ids);
    OrderedMap.RemoveKeysKeeps(st.features, ids);
    assert FreshCounter(d);
    var p := Prepared(st.wkbType, st.fields, f, st.nextId);
    var d1 := d.(features := OrderedMap.Insert(d.features, d.nextId, p), nextId := d.nextId + 1);
    assert [f][1..] == [];
    assert AddFeatures(d, [f]) == AddFeatures(d1, []);
  }

  // ---------------------------------------------------------------------------
  // changeAttributeValues and changeGeometryValues

  /** `QgsFeature::setAttribute` for each index of a change map: an index
      within the list replaces that value, any other index is ignored. */
  function SetValues(vs: seq<Value>, m: OrderedMap.Map<Value>): (r: seq<Value>)
    ensures |r| == |vs|
    ensures forall k :: 0 <= k < |vs| ==> r[k] == match OrderedMap.Get(m, k) case Some(v) => v case None => vs[k]
    decreases |m|
  {
    if |m| == 0 then vs
    else
      var i := m[0].key;
      var vs1 := if 0 <= i < |vs| then vs[i := m[0].value] else vs;
      var r := SetValues(vs1, m[1..]);
      assert OrderedMap.Get(m[1..], i) == None by {
        OrderedMap.KeysAt(m[1..], i);
      }
      r
  }

  /** `changeAttributeValues`: the values of every listed feature present
      are set from its change map; absent ids are passed over. */
  function ChangeAttributeValues(st: Store, changes: OrderedMap.Map<OrderedMap.Map<Value>>): (r: Store)
    ensures |r.features| == |st.features|
    ensures forall i :: 0 <= i < |st.features| ==>
              var e := st.features[i];
              r.features[i] == OrderedMap.Entry(e.key, match OrderedMap.Get(changes, e.key)
                                                        case Some(m) => e.value.(attributes := SetValues(e.value.attributes, m))
                                                        case None => e.value)
    ensures r == st.(features := r.features)
  {
    st.(features := OrderedMap.UpdatePresent(st.features, changes,
                      (f: Feature, m: OrderedMap.Map<Value>) => f.(attributes := SetValues(f.attributes, m))))
  }

  /** `changeGeometryValues`: every listed feature present gets its new
      geometry, whatever its type; absent ids are passed over; then the
      extent is reset. */
  function ChangeGeometryValues(st: Store, geometries: OrderedMap.Map<Geometry>): (r: Store)
    ensures |r.features| == |st.features|
    ensures forall i :: 0 <= i < |st.features| ==>
              var e := st.features[i];
              r.features[i] == OrderedMap.Entry(e.key, match OrderedMap.Get(geometries, e.key)
                                                        case Some(g) => e.value.(geometry := g)
                                                        case None => e.value)
    ensures r == st.(features := r.features, extent := MinimalExtent)
  {
    UpdateExtents(st.(features := OrderedMap.UpdatePresent(st.features, geometries,
                                    (f: Feature, g: Geometry) => f.(geometry := g))))
  }

  /** Changing attribute values keeps every key, every id and the number
      of values each feature carries. */
  lemma ChangeAttributeValuesKeepsInvariants(st: Store, changes: OrderedMap.Map<OrderedMap.Map<Value>>)
    requires AttributesMatchFields(st) && IdsMatchKeys(st) && FreshCounter(st)
    ensures var r := ChangeAttributeValues(st, changes);
            AttributesMatchFields(r) && IdsMatchKeys(r) && FreshCounter(r)
  {
    var r := ChangeAttributeValues(st, changes);
    forall i | 0 <= i < |r.features|
      ensures |r.features[i].value.attributes| == |r.fields|
      ensures r.features[i].value.id == r.features[i].key
      ensures r.features[i].key < r.nextId
    {
      assert r.features[i].key == st.features[i].key;
    }
  }

  /** Changing geometries keeps every key, every id and every attribute
      list. */
  lemma ChangeGeometryValuesKeepsInvariants(st: Store, geometries: OrderedMap.Map<Geometry>)
    requires AttributesMatchFields(st) && IdsMatchKeys(st) && FreshCounter(st)
    ensures var r := ChangeGeometryValues(st, geometries);
            AttributesMatchFields(r) && IdsMatchKeys(r) && FreshCounter(r)
  {
    var r := ChangeGeometryValues(st, geometries);
    forall i | 0 <= i < |r.features|
      ensures |r.features[i].value.attributes| == |r.fields|
      ensures r.features[i].value.id == r.features[i].key
      ensures r.features[i].key < r.nextId
    {
      assert r.features[i].key == st.features[i].key;
    }
  }

  // ---------------------------------------------------------------------------
  // addAttributes

  /** The field types `addAttributes` takes. */
  predicate Supported(ty: VariantType) {
    ty in {Int, Double, String, Date, Time, DateTime, LongLong, StringList, List, Bool, ByteArray}
  }

  /** The fields of a supported type, in the order given. */
  function SupportedFields(fields: seq<Field>): (r: seq<Field>)
    ensures |r| <= |fields|
    decreases |fields|
  {
    if |fields| == 0 then []
    else (if Supported(fields[0].ty) then [fields[0]] else []) + SupportedFields(fields[1..])
  }

  /** `n` invalid null values, the `QVariant()` a new field starts with. */
  function Nulls(n: nat): (r: seq<Value>)
    ensures |r| == n
    ensures forall k :: 0 <= k < n ==> r[k] == Null(Invalid)
  {
    seq(n, k => Null(Invalid))
  }

  /** One invalid null appended to every feature, and the field appended
      unless a field already has its name: `QgsFields::append` refuses the
      field then, and the loop pads the features all the same. */
  function AppendField(st: Store, f: Field): (r: Store)
    ensures |r.features| == |st.features|
    ensures r.fields == if f.name in FieldNames(st.fields) then st.fields else st.fields + [f]
  {
    st.(fields := if f.name in FieldNames(st.fields) then st.fields else st.fields + [f],
        features := OrderedMap.MapValues(st.features,
                      (e: OrderedMap.Entry<Feature>) => e.value.(attributes := e.value.attributes + [Null(Invalid)])))
  }

  /** `addAttributes`: each field of a supported type is offered to the
      fields and every feature gets one more value for it; a field of any
      other type is passed over. */
  function AddAttributes(st: Store, added: seq<Field>): (r: Store)
    ensures |r.features| == |st.features|
    ensures r == st.(fields := r.fields, features := r.features)
    decreases |added|
  {
    if |added| == 0 then st
    else if !Supported(added[0].ty) then AddAttributes(st, added[1..])
    else AddAttributes(AppendField(st, added[0]), added[1..])
  }

  /** The names of two field lists joined. */
  lemma NamesConcat(a: seq<Field>, b: seq<Field>)
    ensures FieldNames(a + b) == FieldNames(a) + FieldNames(b)
  {
  }

  /** The fields `addAttributes` actually appends to `held`: those of a
      supported type whose name no field has yet, the ones appended before
      them included.  Each is supported, none takes a name `held` has, and
      they keep distinct names distinct. */
  function NewFields(held: seq<Field>, added: seq<Field>): (r: seq<Field>)
    ensures |r| <= |SupportedFields(added)|
    ensures forall k :: 0 <= k < |r| ==> Supported(r[k].ty) && r[k].name !in FieldNames(held)
    ensures DistinctNames(held) ==> DistinctNames(held + r)
    decreases |added|
  {
    if |added| == 0 then []
    else if !Supported(added[0].ty) then NewFields(held, added[1..])
    else if added[0].name in FieldNames(held) then
      var r := NewFields(held, added[1..]);
      assert |SupportedFields(added)| == 1 + |SupportedFields(added[1..])|;
      r
    else
      var held1 := held + [added[0]];
      var more := NewFields(held1, added[1..]);
      assert |SupportedFields(added)| == 1 + |SupportedFields(added[1..])|;
      NamesConcat(held, [added[0]]);
      assert DistinctNames(held) ==> DistinctNames(held1) by {
        if DistinctNames(held) {
          forall a, b | 0 <= a < b < |held1|
            ensures held1[a].name != held1[b].name
          {
            if b == |held| {
              assert held1[a].name == FieldNames(held)[a];
            }
          }
        }
      }
      AppendAssoc(held, added[0], more);
      [added[0]] + more
  }

  /** Every supported field offered takes a name that neither the fields
      held nor an earlier supported field offered has. */
  predicate NamesNew(held: seq<Field>, added: seq<Field>) {
    var s := SupportedFields(added);
    forall k :: 0 <= k < |s| ==> NameNew(held, s, k)
  }

  predicate NameNew(held: seq<Field>, s: seq<Field>, k: int)
    requires 0 <= k < |s|
  {
    s[k].name !in FieldNames(held + s[..k])
  }

  /** `addAttributes` appends every supported field it is offered exactly
      when all their names are new, and fewer otherwise. */
  lemma AppendsAll(held: seq<Field>, added: seq<Field>)
    ensures NewFields(held, added) == SupportedFields(added) <==> NamesNew(held, added)
    ensures !NamesNew(held, added) ==> |NewFields(held, added)| < |SupportedFields(added)|
  {
    if NamesNew(held, added) {
      AllNewAppended(held, added);
    } else {
      var s := SupportedFields(added);
      var k :| 0 <= k < |s| && !NameNew(held, s, k);
      RefusedShorter(held, added, k);
    }
  }

  lemma {:induction false} AllNewAppended(held: seq<Field>, added: seq<Field>)
    requires NamesNew(held, added)
    ensures NewFields(held, added) == SupportedFields(added)
    decreases |added|
  {
    if |added| == 0 {
    } else if !Supported(added[0].ty) {
      assert SupportedFields(added) == SupportedFields(added[1..]);
      AllNewAppended(held, added[1..]);
    } else {
      var s := SupportedFields(added);
      var s1 := SupportedFields(added[1..]);
      var held1 := held + [added[0]];
      assert s == [added[0]] + s1;
      assert NameNew(held, s, 0);
      assert s[..0] == [];
      assert held + s[..0] == held;
      forall k | 0 <= k < |s1|
        ensures NameNew(held1, s1, k)
      {
        assert NameNew(held, s, k + 1);
        assert held + s[..k + 1] == held1 + s1[..k];
      }
      AllNewAppended(held1, added[1..]);
    }
  }

  /** A supported field whose name is taken is refused, so fewer fields are
      appended than were offered. */
  lemma {:induction false} RefusedShorter(held: seq<Field>, added: seq<Field>, k: int)
    requires 0 <= k < |SupportedFields(added)|
    requires !NameNew(held, SupportedFields(added), k)
    ensures |NewFields(held, added)| < |SupportedFields(added)|
    decreases |added|
  {
    var s := SupportedFields(added);
    var s1 := SupportedFields(added[1..]);
    if !Supported(added[0].ty) {
      assert s == s1;
      RefusedShorter(held, added[1..], k);
    } else {
      assert s == [added[0]] + s1;
      FirstNameNew(held, s);
      if added[0].name in FieldNames(held) {
        assert NewFields(held, added) == NewFields(held, added[1..]);
      } else if k == 0 {
        assert false;
      } else {
        var held1 := held + [added[0]];
        assert held + s[..k] == held1 + s1[..k - 1];
        assert !NameNew(held1, s1, k - 1);
        RefusedShorter(held1, added[1..], k - 1);
      }
    }
  }

  lemma FirstNameNew(held: seq<Field>, s: seq<Field>)
    requires |s| > 0
    ensures NameNew(held, s, 0) <==> s[0].name !in FieldNames(held)
  {
    assert held + s[..0] == held;
  }

  /** The value list every feature has after `n` fields were offered. */
  function Extended(e: OrderedMap.Entry<Feature>, n: nat): OrderedMap.Entry<Feature> {
    OrderedMap.Entry(e.key, e.value.(attributes := e.value.attributes + Nulls(n)))
  }

  /** `addAttributes` appends exactly the accepted fields, in order, gives
      every feature one invalid null per supported field offered after its
      own values, and changes nothing else. */
  lemma AddAttributesAppends(st: Store, added: seq<Field>)
    ensures var r := AddAttributes(st, added);
            && r.fields == st.fields + NewFields(st.fields, added)
            && (forall i :: 0 <= i < |st.features| ==> r.features[i] == Extended(st.features[i], |SupportedFields(added)|))
  {
    AddedFields(st, added);
    AddedValues(st, added);
  }

  lemma {:induction false} AddedFields(st: Store, added: seq<Field>)
    ensures AddAttributes(st, added).fields == st.fields + NewFields(st.fields, added)
    decreases |added|
  {
    if |added| == 0 {
      assert st.fields + [] == st.fields;
    } else if !Supported(added[0].ty) {
      assert AddAttributes(st, added) == AddAttributes(st, added[1..]);
      AddedFields(st, added[1..]);
    } else {
      var st1 := AppendField(st, added[0]);
      assert AddAttributes(st, added).fields == AddAttributes(st1, added[1..]).fields;
      AddedFields(st1, added[1..]);
      if added[0].name !in FieldNames(st.fields) {
        AppendAssoc(st.fields, added[0], NewFields(st1.fields, added[1..]));
      }
    }
  }

  lemma {:induction false} AddedValues(st: Store, added: seq<Field>)
    ensures var r := AddAttributes(st, added);
            forall i :: 0 <= i < |st.features| ==> r.features[i] == Extended(st.features[i], |SupportedFields(added)|)
    decreases |added|
  {
    if |added| == 0 {
      forall i | 0 <= i < |st.features|
        ensures st.features[i] == Extended(st.features[i], 0)
      {
        assert st.features[i].value.attributes + Nulls(0) == st.features[i].value.attributes;
      }
    } else if !Supported(added[0].ty) {
      AddedValues(st, added[1..]);
    } else {
      var st1 := AppendField(st, added[0]);
      assert AddAttributes(st, added) == AddAttributes(st1, added[1..]);
      AddedValues(st1, added[1..]);
      var n := |SupportedFields(added[1..])|;
      assert n + 1 == |SupportedFields(added)|;
      forall i | 0 <= i < |st.features|
        ensures Extended(st1.features[i], n) == Extended(st.features[i], n + 1)
      {
        NullsCons(st.features[i].value.attributes, n);
      }
    }
  }

  lemma NullsCons(vs: seq<Value>, n: nat)
    ensures vs + [Null(Invalid)] + Nulls(n) == vs + Nulls(n + 1)
  {
  }

  /** `addAttributes` keeps ids and the counter, keeps distinct names
      distinct, and keeps one value per field on every feature exactly when
      there is no feature or every supported field offered has a new name. */
  lemma AddAttributesKeepsInvariants(st: Store, added: seq<Field>)
    requires AttributesMatchFields(st) && IdsMatchKeys(st) && FreshCounter(st)
    ensures var r := AddAttributes(st, added);
            && IdsMatchKeys(r) && FreshCounter(r)
            && (DistinctNames(st.fields) ==> DistinctNames(r.fields))
            && (AttributesMatchFields(r) <==> |st.features| == 0 || NamesNew(st.fields, added))
  {
    var r := AddAttributes(st, added);
    AddAttributesAppends(st, added);
    AppendsAll(st.fields, added);
    PaddedValues(st, added);
    if |st.features| > 0 && !NamesNew(st.fields, added) {
      assert |r.features[0].value.attributes| == |st.fields| + |SupportedFields(added)|;
    }
  }

  /** After `addAttributes` every feature holds one value per field it held
      and one per supported field offered, under the same key. */
  lemma PaddedValues(st: Store, added: seq<Field>)
    requires AttributesMatchFields(st) && IdsMatchKeys(st) && FreshCounter(st)
    requires forall i :: 0 <= i < |st.features| ==>
               AddAttributes(st, added).features[i] == Extended(st.features[i], |SupportedFields(added)|)
    ensures var r := AddAttributes(st, added);
            && IdsMatchKeys(r) && FreshCounter(r)
            && forall i :: 0 <= i < |r.features| ==> |r.features[i].value.attributes| == |st.fields| + |SupportedFields(added)|
  {
    var r := AddAttributes(st, added);
    var n := |SupportedFields(added)|;
    forall i | 0 <= i < |r.features|
      ensures |r.features[i].value.attributes| == |st.fields| + n
      ensures r.features[i].value.id == r.features[i].key
      ensures r.features[i].key < r.nextId
    {
      assert r.features[i] == Extended(st.features[i], n);
    }
  }

  /** A supported field whose name is already in use is not appended, yet
      every feature still gets a value for it: each ends with one value more
      than there are fields. */
  lemma AddAttributesRepeatedName(st: Store, f: Field)
    requires AttributesMatchFields(st) && Supported(f.ty) && f.name in FieldNames(st.fields)
    ensures var r := AddAttributes(st, [f]);
            && r.fields == st.fields
            && forall i :: 0 <= i < |r.features| ==> |r.features[i].value.attributes| == |r.fields| + 1
  {
    var r := AddAttributes(st, [f]);
    var none: seq<Field> := [f][1..];
    assert none == [];
    assert r == AddAttributes(AppendField(st, f), none) == AppendField(st, f);
    forall i | 0 <= i < |r.features|
      ensures |r.features[i].value.attributes| == |r.fields| + 1
    {
      assert r.features[i].value.attributes == st.features[i].value.attributes + [Null(Invalid)];
    }
  }

  // ---------------------------------------------------------------------------
  // renameAttributes

  /** Each listed index, in ascending order, gets its new name, unless the
      index is out of range or a field already has that name; either case
      makes the result false and leaves the fields alone.  An empty new name
      is refused by `QgsFields::rename`, whose answer the loop ignores: the
      fields stay as they are and the result is not touched. */
  function RenameFields(fields: seq<Field>, renames: OrderedMap.Map<string>): (r: (seq<Field>, bool))
    ensures |r.0| == |fields|
    ensures forall k :: 0 <= k < |fields| ==> r.0[k] == fields[k].(name := r.0[k].name)
    ensures DistinctNames(fields) ==> DistinctNames(r.0)
    decreases |renames|
  {
    if |renames| == 0 then (fields, true)
    else
      var i := renames[0].key;
      var name := renames[0].value;
      if i < 0 || i >= |fields| || name in FieldNames(fields) then
        var r := RenameFields(fields, renames[1..]);
        (r.0, false)
      else if name == "" then RenameFields(fields, renames[1..])
      else
        var fields1 := fields[i := fields[i].(name := name)];
        assert DistinctNames(fields) ==> DistinctNames(fields1) by {
          if DistinctNames(fields) {
            forall a, b | 0 <= a < b < |fields1|
              ensures fields1[a].name != fields1[b].name
            {
              if a == i {
                assert fields1[b].name == FieldNames(fields)[b];
              } else if b == i {
                assert fields1[a].name == FieldNames(fields)[a];
              }
            }
          }
        }
        RenameFields(fields1, renames[1..])
  }

  /** `renameAttributes`. */
  function RenameAttributes(st: Store, renames: OrderedMap.Map<string>): (r: Edited)
    ensures r.store == st.(fields := r.store.fields)
    ensures |r.store.fields| == |st.fields|
    ensures DistinctNames(st.fields) ==> DistinctNames(r.store.fields)
  {
    var r := RenameFields(st.fields, renames);
    Edited(st.(fields := r.0), r.1)
  }

  /** A single rename succeeds exactly when the index is in range and no
      field has the new name; then only that field's name changes, unless
      the new name is empty, and otherwise nothing changes. */
  lemma RenameOne(st: Store, i: int, name: string)
    ensures var r := RenameAttributes(st, [OrderedMap.Entry(i, name)]);
            && (r.ok <==> 0 <= i < |st.fields| && name !in FieldNames(st.fields))
            && (r.ok && name != "" ==> r.store.fields == st.fields[i := st.fields[i].(name := name)])
            && (!r.ok || name == "" ==> r.store == st)
  {
    var rs: OrderedMap.Map<string> := [OrderedMap.Entry(i, name)];
    var none: OrderedMap.Map<string> := rs[1..];
    assert none == [];
    if 0 <= i < |st.fields| && name !in FieldNames(st.fields) && name != "" {
      var f1 := st.fields[i := st.fields[i].(name := name)];
      assert RenameFields(st.fields, rs) == RenameFields(f1, none);
    } else if 0 <= i < |st.fields| && name !in FieldNames(st.fields) {
      assert RenameFields(st.fields, rs) == RenameFields(st.fields, none);
    } else {
      assert RenameFields(st.fields, rs) == (RenameFields(st.fields, none).0, false);
    }
  }

  // ---------------------------------------------------------------------------
  // deleteAttributes

  /** The elements of `s` whose positions are not in `idx`, in order. */
  function Kept<T>(s: seq<T>, idx: set<int>): seq<T>
    decreases |s|
  {
    if |s| == 0 then []
    else Kept(s[..|s| - 1], idx) + (if |s| - 1 in idx then [] else [s[|s| - 1]])
  }

  /** `QgsFields::remove(i)`, which ignores an index that is not a field,
      and `QVector::remove(i)`, which is only reached with a position that
      exists. */
  function RemoveAt<T>(s: seq<T>, i: int): seq<T> {
    if 0 <= i < |s| then s[..i] + s[i + 1..] else s
  }

  /** The largest index of a non-empty set. */
  function Largest(s: set<int>): (m: int)
    requires s != {}
    ensures m in s && forall x :: x in s ==> x <= m
  {
    LargestExists(s);
    var m :| m in s && forall x :: x in s ==> x <= m;
    m
  }

  /** A non-empty set has an element. */
  lemma Member(s: set<int>)
    requires s != {}
    ensures exists y :: y in s
  {
    if forall y :: y !in s {
      assert false;
    }
  }

  lemma LargestExists(s: set<int>)
    requires s != {}
    ensures exists m :: m in s && forall x :: x in s ==> x <= m
    decreases |s|
  {
    Member(s);
    var y :| y in s;
    var rest := s - {y};
    if rest == {} {
      assert s == {y};
      assert y in s && forall x :: x in s ==> x <= y;
    } else {
      LargestExists(rest);
      var m :| m in rest && forall x :: x in rest ==> x <= m;
      var top := if y > m then y else m;
      assert forall x :: x in s ==> x == y || x in rest;
      assert top in s && forall x :: x in s ==> x <= top;
    }
  }

  /** The indices in descending order, as `deleteAttributes` sorts them. */
  function Descending(s: set<int>): (r: seq<int>)
    ensures |r| == |s|
    ensures forall x :: x in s <==> x in r
    ensures forall a, b :: 0 <= a < b < |r| ==> r[a] > r[b]
    decreases |s|
  {
    if s == {} then []
    else
      var m := Largest(s);
      var rest := Descending(s - {m});
      LargestInFront(s, m, rest);
      [m] + rest
  }

  /** The largest element in front of the others in descending order. */
  lemma LargestInFront(s: set<int>, m: int, rest: seq<int>)
    requires m in s && forall x :: x in s ==> x <= m
    requires |rest| == |s - {m}| && forall x :: x in s - {m} <==> x in rest
    requires forall a, b :: 0 <= a < b < |rest| ==> rest[a] > rest[b]
    ensures |[m] + rest| == |s|
    ensures forall x :: x in s <==> x in [m] + rest
    ensures forall a, b :: 0 <= a < b < |[m] + rest| ==> ([m] + rest)[a] > ([m] + rest)[b]
  {
    var r := [m] + rest;
    forall x
      ensures x in s <==> x in r
    {
      if x != m {
        assert x in s <==> x in rest;
      }
    }
    forall a, b | 0 <= a < b < |r|
      ensures r[a] > r[b]
    {
      assert r[b] == rest[b - 1] && rest[b - 1] in s - {m};
      if a > 0 {
        assert r[a] == rest[a - 1];
      }
    }
  }

  /** Whether position `i` can be removed: every feature has a value there.
      `QVector::remove` on a position a feature lacks is undefined behaviour;
      whether `i` is a field does not matter, since `QgsFields::remove`
      ignores an index that is not one. */
  predicate Removable(st: Store, i: int) {
    forall k :: 0 <= k < |st.features| ==> HasPosition(st.features[k].value, i)
  }

  /** Whether a feature has a value at position `i`. */
  predicate HasPosition(f: Feature, i: int) {
    0 <= i < |f.attributes|
  }

  /** The positions in `order`, one after another, removed from the fields
      and from every feature.  The model fails at a position some feature
      lacks, where the source's behaviour is undefined. */
  function RemoveFields(st: Store, order: seq<int>): (r: Option<Store>)
    ensures r.Some? ==> r.value == st.(fields := r.value.fields, features := r.value.features)
    decreases |order|
  {
    if |order| == 0 then Some(st)
    else if !Removable(st, order[0]) then None
    else
      var i := order[0];
      RemoveFields(st.(fields := RemoveAt(st.fields, i),
                       features := OrderedMap.MapValues(st.features,
                                     (e: OrderedMap.Entry<Feature>) => e.value.(attributes := RemoveAt(e.value.attributes, i)))),
                   order[1..])
  }

  /** `deleteAttributes`: the indices in descending order, each removed from
      the fields and from every feature. */
  function DeleteAttributes(st: Store, idx: set<int>): Option<Store> {
    RemoveFields(st, Descending(idx))
  }

  /** Only the positions below `n` matter to `Kept` of a list of length
      `n`. */
  lemma {:induction false} KeptBelow<T>(s: seq<T>, a: set<int>, b: set<int>)
    requires forall x :: 0 <= x < |s| ==> (x in a <==> x in b)
    ensures Kept(s, a) == Kept(s, b)
    decreases |s|
  {
    if |s| > 0 {
      KeptBelow(s[..|s| - 1], a, b);
    }
  }

  /** Elements after every listed position are all kept. */
  lemma {:induction false} KeptAppend<T>(p: seq<T>, q: seq<T>, idx: set<int>)
    requires forall x :: x in idx ==> x < |p|
    ensures Kept(p + q, idx) == Kept(p, idx) + q
    decreases |q|
  {
    if |q| > 0 {
      var q0 := q[..|q| - 1];
      var s := p + q;
      assert s[..|s| - 1] == p + q0;
      assert s[|s| - 1] == q[|q| - 1];
      assert |s| - 1 !in idx;
      assert Kept(s, idx) == Kept(p + q0, idx) + [q[|q| - 1]];
      KeptAppend(p, q0, idx);
      assert q0 + [q[|q| - 1]] == q;
    } else {
      assert p + q == p;
    }
  }

  /** The length of `Kept` depends only on the length of the list. */
  lemma {:induction false} KeptLength<T, U>(s: seq<T>, t: seq<U>, idx: set<int>)
    requires |s| == |t|
    ensures |Kept(s, idx)| == |Kept(t, idx)|
    decreases |s|
  {
    if |s| > 0 {
      KeptLength(s[..|s| - 1], t[..|t| - 1], idx);
    }
  }

  /** Removing the largest listed position first leaves the rest to keep. */
  lemma KeptRemoveLargest<T>(s: seq<T>, idx: set<int>, m: int)
    requires m in idx && forall x :: x in idx ==> x <= m
    ensures Kept(s, idx) == Kept(RemoveAt(s, m), idx - {m})
  {
    if 0 <= m < |s| {
      var p := s[..m];
      var q := s[m + 1..];
      assert s == s[..m + 1] + q;
      KeptAppend(s[..m + 1], q, idx);
      assert s[..m + 1][..m] == p;
      assert Kept(s[..m + 1], idx) == Kept(p, idx);
      KeptAppend(p, q, idx - {m});
      KeptBelow(p, idx, idx - {m});
    } else {
      KeptBelow(s, idx, idx - {m});
    }
  }

  /** Removing positions in descending order removes exactly those
      positions: from the fields and from every feature's values. */
  lemma {:induction false} RemoveFieldsKeeps(st: Store, order: seq<int>, idx: set<int>)
    requires forall x :: x in idx <==> x in order
    requires forall a, b :: 0 <= a < b < |order| ==> order[a] > order[b]
    requires forall x :: x in idx ==> Removable(st, x)
    ensures var r := RemoveFields(st, order);
            && r.Some?
            && r.value.fields == Kept(st.fields, idx)
            && |r.value.features| == |st.features|
            && forall k :: 0 <= k < |st.features| ==>
                 r.value.features[k] == OrderedMap.Entry(st.features[k].key,
                   st.features[k].value.(attributes := Kept(st.features[k].value.attributes, idx)))
    decreases |order|
  {
    if |order| == 0 {
      assert forall x :: x !in idx;
      assert idx == {};
      KeptNone(st.fields);
      forall k | 0 <= k < |st.features| {
        KeptNone(st.features[k].value.attributes);
      }
    } else {
      var m := order[0];
      DescendingHead(order, idx);
      var st1 := st.(fields := RemoveAt(st.fields, m),
                     features := OrderedMap.MapValues(st.features,
                                   (e: OrderedMap.Entry<Feature>) => e.value.(attributes := RemoveAt(e.value.attributes, m))));
      var rest := idx - {m};
      assert forall x :: x in rest ==> Removable(st1, x) by {
        forall x | x in rest
          ensures Removable(st1, x)
        {
          assert x < m;
        }
      }
      RemoveFieldsKeeps(st1, order[1..], rest);
      KeptRemoveLargest(st.fields, idx, m);
      forall k | 0 <= k < |st.features| {
        KeptRemoveLargest(st.features[k].value.attributes, idx, m);
      }
    }
  }

  /** The first of indices in descending order is the largest, and the
      others are the rest of the set. */
  lemma DescendingHead(order: seq<int>, idx: set<int>)
    requires |order| > 0
    requires forall x :: x in idx <==> x in order
    requires forall a, b :: 0 <= a < b < |order| ==> order[a] > order[b]
    ensures order[0] in idx && forall x :: x in idx ==> x <= order[0]
    ensures forall x :: x in idx - {order[0]} <==> x in order[1..]
  {
    forall x | x in idx
      ensures x <= order[0]
    {
      var j :| 0 <= j < |order| && order[j] == x;
    }
    forall x
      ensures x in idx - {order[0]} <==> x in order[1..]
    {
      if x in order[1..] {
        var j :| 0 <= j < |order[1..]| && order[1..][j] == x;
        assert order[j + 1] == x && order[0] > order[j + 1];
      }
    }
  }

  lemma {:induction false} KeptNone<T>(s: seq<T>)
    ensures Kept(s, {}) == s
    decreases |s|
  {
    if |s| > 0 {
      KeptNone(s[..|s| - 1]);
    }
  }

  /** `deleteAttributes` with indices of existing fields, on a store whose
      features carry one value per field, removes exactly those fields and
      the values at those positions, and keeps one value per field. */
  lemma DeleteAttributesKeeps(st: Store, idx: set<int>)
    requires AttributesMatchFields(st)
    requires forall x :: x in idx ==> 0 <= x < |st.fields|
    ensures var r := DeleteAttributes(st, idx);
            && r.Some?
            && r.value.fields == Kept(st.fields, idx)
            && |r.value.features| == |st.features|
            && (forall k :: 0 <= k < |st.features| ==>
                 r.value.features[k] == OrderedMap.Entry(st.features[k].key,
                   st.features[k].value.(attributes := Kept(st.features[k].value.attributes, idx))))
            && AttributesMatchFields(r.value)
  {
    RemoveFieldsKeeps(st, Descending(idx), idx);
    forall k | 0 <= k < |st.features| {
      KeptLength(st.features[k].value.attributes, st.fields, idx);
    }
  }

  /** `deleteAttributes` succeeds exactly when every feature has a value at
      every given position.  It then removes those positions from every
      feature's values and, of the fields, those at the positions that are
      fields; the features keep their ids and their order. */
  lemma DeleteAttributesRemoves(st: Store, idx: set<int>)
    ensures DeleteAttributes(st, idx).Some? <==> forall x :: x in idx ==> Removable(st, x)
    ensures var r := DeleteAttributes(st, idx);
            r.Some? ==>
              && r.value.fields == Kept(st.fields, idx)
              && |r.value.features| == |st.features|
              && forall k :: 0 <= k < |st.features| ==>
                   r.value.features[k] == OrderedMap.Entry(st.features[k].key,
                     st.features[k].value.(attributes := Kept(st.features[k].value.attributes, idx)))
  {
    if forall x :: x in idx ==> Removable(st, x) {
      RemoveFieldsKeeps(st, Descending(idx), idx);
    } else {
      var bad :| bad in idx && !Removable(st, bad);
      var k :| 0 <= k < |st.features| && !HasPosition(st.features[k].value, bad);
      DeleteAttributesOutOfRange(st, idx, bad, k);
    }
  }

  /** A position that a feature lacks makes `deleteAttributes` fail. */
  lemma DeleteAttributesOutOfRange(st: Store, idx: set<int>, bad: int, k: int)
    requires bad in idx && 0 <= k < |st.features|
    requires !HasPosition(st.features[k].value, bad)
    ensures DeleteAttributes(st, idx).None?
  {
    var order := Descending(idx);
    var j :| 0 <= j < |order| && order[j] == bad;
    RemoveFieldsFails(st, order, j, k);
  }


  /** The removal loop fails at a position feature `k` lacks: removing a
      larger position first only shortens that feature's values, so the
      position is still lacking when the loop gets there. */
  lemma {:induction false} RemoveFieldsFails(st: Store, order: seq<int>, j: int, k: int)
    requires 0 <= j < |order| && 0 <= k < |st.features|
    requires !HasPosition(st.features[k].value, order[j])
    requires forall a, b :: 0 <= a < b < |order| ==> order[a] > order[b]
    ensures RemoveFields(st, order).None?
    decreases |order|
  {
    if j > 0 && Removable(st, order[0]) {
      var m := order[0];
      var st1 := st.(fields := RemoveAt(st.fields, m),
                     features := OrderedMap.MapValues(st.features,
                                   (e: OrderedMap.Entry<Feature>) => e.value.(attributes := RemoveAt(e.value.attributes, m))));
      assert st1.features[k].value.attributes == RemoveAt(st.features[k].value.attributes, m);
      assert order[1..][j - 1] == order[j];
      RemoveFieldsFails(st1, order[1..], j - 1, k);
    }
  }

}

=== FILE: feature.dfy ===
/** Features and the attribute values they carry. */
module Features {
  import opened Geometry

  /** The `QVariant::Type` values the provider distinguishes; `Other` stands
      for every type it does not name. */
  datatype VariantType =
    | Invalid | Bool | Int | UInt | LongLong | ULongLong | Double | Char
    | String | StringList | List | ByteArray | Date | Time | DateTime | Other

  /** An attribute value: a null `QVariant` of some type, or a value known by
      its text (every value the reader stores is a string). */
  datatype Value = Null(ty: VariantType) | Text(s: string)

  /** `QVariant::toString` as the writer uses it.  A null value of a numeric
      type holds zero and prints as `0`, a null `Bool` prints as `false`, and
      a null `Char` holds the character U+0000.  Every other null value (an
      invalid `QVariant()`, a null string, an invalid date or time, an empty
      list or byte array) prints as the empty string. */
  function ValueText(v: Value): string {
    match v
    case Null(ty) =>
      if ty in {Int, UInt, LongLong, ULongLong, Double} then "0"
      else if ty == Bool then "false"
      else if ty == Char then "\0"
      else ""
    case Text(s) => s
  }

  /** `FID_NULL`: the id of a default-constructed `QgsFeature`, the smallest
      64-bit integer. */
  const FidNull: int := -0x8000_0000_0000_0000

  /** A `QgsFeature`: its own id, its geometry and its attribute list. */
  datatype Feature = Feature(id: int, geometry: Geometry, attributes: seq<Value>)

  /** `QgsFeature()`: no geometry, no attributes, the null id. */
  const DefaultFeature: Feature := Feature(FidNull, Absent, [])
}

=== FILE: geometry.dfy ===
/** The geometry values a feature can carry.  A coordinate is kept as the
    two textual tokens of an `x,y` line: the model never converts them to
    floating point, so a geometry is exactly the tokens that were read or
    are to be written. */
module Geometry {

  /** A `QgsPointXY`, as the tokens of its `x,y` text. */
  datatype Point = Point(x: string, y: string)

  /** A `QgsPolylineXY`: an ordered list of points (a line part, or one ring). */
  type PolylineXY = seq<Point>

  /** A `QgsPolygonXY`: an ordered list of rings. */
  type PolygonXY = seq<PolylineXY>

  /** A `QgsGeometry`: null (`Absent`), or one of the single- and multi-part
      shapes the layer types use. */
  datatype Geometry =
    | Absent
    | SinglePoint(at: Point)
    | MultiPoint(points: seq<Point>)
    | LineString(vertices: PolylineXY)
    | MultiLineString(lines: seq<PolylineXY>)
    | Polygon(rings: PolygonXY)
    | MultiPolygon(polygons: seq<PolygonXY>)

  /** `QgsWkbTypes::GeometryType`. */
  datatype GeometryType = PointGeometry | LineGeometry | PolygonGeometry | UnknownGeometry | NullGeometry

  /** `QgsFeature::hasGeometry`: the geometry is not null. */
  predicate HasGeometry(g: Geometry) {
    !g.Absent?
  }

  /** `QgsWkbTypes::geometryType(g.wkbType())`. */
  function TypeOf(g: Geometry): GeometryType {
    match g
    case Absent => NullGeometry
    case SinglePoint(_) => PointGeometry
    case MultiPoint(_) => PointGeometry
    case LineString(_) => LineGeometry
    case MultiLineString(_) => LineGeometry
    case Polygon(_) => PolygonGeometry
    case MultiPolygon(_) => PolygonGeometry
  }

  /** `QgsGeometry::asMultiPoint`: the points of a multi-point, empty for
      every other shape. */
  function AsMultiPoint(g: Geometry): seq<Point> {
    if g.MultiPoint? then g.points else []
  }

  /** `QgsGeometry::asMultiPolyline`: the parts of a multi-line, empty for
      every other shape. */
  function AsMultiPolyline(g: Geometry): seq<PolylineXY> {
    if g.MultiLineString? then g.lines else []
  }

  /** `QgsGeometry::asPolyline`: the vertices of a single line, empty for
      every other shape. */
  function AsPolyline(g: Geometry): PolylineXY {
    if g.LineString? then g.vertices else []
  }

  /** `QgsGeometry::asMultiPolygon`: the polygons of a multi-polygon, empty
      for every other shape. */
  function AsMultiPolygon(g: Geometry): seq<PolygonXY> {
    if g.MultiPolygon? then g.polygons else []
  }

  /** `QgsGeometry::asPolygon`: the rings of a single polygon, empty for
      every other shape. */
  function AsPolygon(g: Geometry): PolygonXY {
    if g.Polygon? then g.rings else []
  }

  /** `QgsPointXY::toString()`: the two coordinates joined by a comma. */
  function PointText(p: Point): string {
    p.x + "," + p.y
  }

  /** A point whose tokens survive being written as `x,y` and split again. */
  predicate WellFormedPoint(p: Point) {
    ',' !in p.x && ',' !in p.y
  }

  predicate WellFormedPoints(pts: seq<Point>) {
    forall k :: 0 <= k < |pts| ==> WellFormedPoint(pts[k])
  }
}

=== FILE: geomreader.dfy ===
/** The three geometry-section decoders.  A record starts with an id line
    (already read by the section loop), two classification lines the
    decoders ignore and a feature-type line; what follows depends on the
    section.  Every record ends in a flag: only a record whose flag says it
    is complete makes the section loop skip the blank separator line and read
    the next id; otherwise the loop reads another record under the same id. */
module GeometryReader {
  import opened Wrappers
  import opened Text
  import opened Lines
  import opened Geometry
  import opened Features
  import opened Store
  import OrderedMap

  function Max0(n: int): nat {
    if n < 0 then 0 else n
  }

  /** The point of a line holding a comma: its first two comma-separated
      items. */
  function PointOf(line: string): Point
    requires ',' in line
  {
    var parts := Split(line, ',');
    Point(parts[0], parts[1])
  }

  /** An `x,y` line; without a comma the second item is missing. */
  function ReadCoordinate(line: string): (r: Res<Point>)
    ensures r.Ok? <==> ',' in line
  {
    if ',' in line then Ok(PointOf(line)) else Fail(MissingItem(line))
  }

  /** `count` coordinate lines (none when `count` is not positive). */
  function ReadPoints(rest: seq<string>, count: int): (r: Res<Read<seq<Point>>>)
    ensures r.Ok? ==> |r.value.value| == Max0(count) && |r.value.rest| == |rest| - Max0(count)
    decreases Max0(count)
  {
    if count <= 0 then Ok(Read([], rest))
    else
      var line :- Next(rest);
      var p :- ReadCoordinate(line.value);
      var more :- ReadPoints(line.rest, count - 1);
      Ok(Read([p] + more.value, more.rest))
  }

  /** A decoded record: the geometry and whether the record completed (the
      flag that lets the section loop move to the next id). */
  datatype Record = Record(geometry: Geometry, closed: bool)

  // ---------------------------------------------------------------------------
  // Point records

  /** The coordinates of a point record: a feature type of 4 is a point
      cluster (a count line, then that many coordinate lines); any other
      feature type is one coordinate line. */
  function ReadPointCoordinates(rest: seq<string>, featureType: int): (r: Res<Read<seq<Point>>>)
    ensures r.Ok? ==> |r.value.rest| < |rest|
  {
    if featureType != 4 then
      var line :- Next(rest);
      var p :- ReadCoordinate(line.value);
      Ok(Read([p], line.rest))
    else
      var n :- Next(rest);
      ReadPoints(n.rest, ToInt(n.value))
  }

  /** The body of a `readPoint` record; the record is complete when its flag
      line is exactly `0`. */
  function ReadPointRecord(rest: seq<string>): (r: Res<Read<Record>>)
    ensures r.Ok? ==> |r.value.rest| < |rest|
  {
    var code :- Next(rest);
    var graphic :- Next(code.rest);
    var ft :- Next(graphic.rest);
    var pts :- ReadPointCoordinates(ft.rest, ToInt(ft.value));
    var flag :- Next(pts.rest);
    Ok(Read(Record(MultiPoint(pts.value), flag.value == "0"), flag.rest))
  }

  // ---------------------------------------------------------------------------
  // Line records

  /** `count` parts of a direct-coordinate line: each starts with a line-type
      line, and only line type 11 (polyline) carries a point count and that
      many coordinate lines, which become one part of the result. */
  function ReadLineParts(rest: seq<string>, count: int): (r: Res<Read<seq<PolylineXY>>>)
    ensures r.Ok? ==> |r.value.rest| <= |rest| && |r.value.value| <= Max0(count)
    decreases Max0(count)
  {
    if count <= 0 then Ok(Read([], rest))
    else
      var lt :- Next(rest);
      if ToInt(lt.value) == 11 then
        var n :- Next(lt.rest);
        var pts :- ReadPoints(n.rest, ToInt(n.value));
        var more :- ReadLineParts(pts.rest, count - 1);
        Ok(Read([pts.value] + more.value, more.rest))
      else
        ReadLineParts(lt.rest, count - 1)
  }

  /** The body of a `readLine` record: feature type 1 (direct coordinates)
      has a part count and the parts; any other feature type has no
      geometry lines, and the feature is kept with an empty multi-line. */
  function ReadLineRecord(rest: seq<string>): (r: Res<Read<Record>>)
    ensures r.Ok? ==> |r.value.rest| < |rest|
  {
    var code :- Next(rest);
    var graphic :- Next(code.rest);
    var ft :- Next(graphic.rest);
    var parts :- if ToInt(ft.value) == 1 then
                   (var n :- Next(ft.rest); ReadLineParts(n.rest, ToInt(n.value)))
                 else Ok(Read([], ft.rest));
    var flag :- Next(parts.rest);
    Ok(Read(Record(MultiLineString(parts.value), flag.value == "0"), flag.rest))
  }

  // ---------------------------------------------------------------------------
  // Polygon records

  /** The polygon being assembled (`polygon`) with the geometry-shape token
      of the main ring that opened it (`originalShape`).  No open polygon
      stands for the null `polygon` pointer and an `originalShape` of -1. */
  datatype OpenPolygon = OpenPolygon(shape: int, rings: PolygonXY)

  /** The state of the `readPolygon` border loop. */
  datatype Scan = Scan(i: int, borderCount: int, done: seq<PolygonXY>, open: Option<OpenPolygon>)

  /** Where the border loop stopped: the finished polygons, and whether it
      stopped at a `0` token (`endFlag == 0`) rather than at its bound. */
  datatype ScanEnd = ScanEnd(polygons: seq<PolygonXY>, ended: bool)

  /** `g.append(*polygon)` when a polygon is open. */
  function Flush(done: seq<PolygonXY>, open: Option<OpenPolygon>): seq<PolygonXY> {
    if open.Some? then done + [open.value.rings] else done
  }

  /** Where one round of the border loop leads: another round from a new
      state, or the end of the loop. */
  datatype Round = Again(rest: seq<string>, next: Scan) | Stop(rest: seq<string>, end: ScanEnd)

  /** One round of the border loop of `readPolygon`.  It reads a
      geometry-shape token:
      - `0` appends the open polygon, if any, and ends the record;
      - otherwise the next line decides.  Without a comma it is a main ring:
        the open polygon is appended, a new one is opened, and when the token
        is 11 the line is a point count and that ring is read.  With a comma,
        after a main ring of shape 11, the token is the point count of a
        subordinate ring whose first point is this line; the ring is added to
        the open polygon and the bound grows by one. */
  function ScanRound(rest: seq<string>, s: Scan): (r: Res<Round>)
    ensures r.Ok? ==> |r.value.rest| < |rest|
  {
    var shape :- Next(rest);
    var geometryShape := ToInt(shape.value);
    if geometryShape == 0 then Ok(Stop(shape.rest, ScanEnd(Flush(s.done, s.open), true)))
    else
      var str :- Next(shape.rest);
      if ',' !in str.value then MainRing(str.rest, s, geometryShape, str.value)
      else SubordinateRing(str.rest, s, geometryShape, str.value)
  }

  /** A main ring, `count` being the line after its shape token: the open
      polygon is appended and a new one opened, holding the ring read when
      the shape is 11. */
  function MainRing(rest: seq<string>, s: Scan, geometryShape: int, count: string): (r: Res<Round>)
    ensures r.Ok? ==> |r.value.rest| <= |rest|
  {
    var done := Flush(s.done, s.open);
    if geometryShape == 11 then
      var ring :- ReadPoints(rest, ToInt(count));
      Ok(Again(ring.rest, Scan(s.i + 1, s.borderCount, done, Some(OpenPolygon(geometryShape, [ring.value])))))
    else
      Ok(Again(rest, Scan(s.i + 1, s.borderCount, done, Some(OpenPolygon(geometryShape, [])))))
  }

  /** A subordinate ring, `first` being its first point: after a main ring
      of shape 11 the token is its point count, the ring joins the open
      polygon and the bound grows by one; otherwise the line is passed
      over. */
  function SubordinateRing(rest: seq<string>, s: Scan, geometryShape: int, first: string): (r: Res<Round>)
    requires ',' in first
    ensures r.Ok? ==> |r.value.rest| <= |rest|
  {
    if s.open.Some? && s.open.value.shape == 11 then
      var more :- ReadPoints(rest, geometryShape - 1);
      var rings := s.open.value.rings + [[PointOf(first)] + more.value];
      Ok(Again(more.rest, Scan(s.i + 1, s.borderCount + 1, s.done, Some(OpenPolygon(11, rings)))))
    else
      Ok(Again(rest, s.(i := s.i + 1)))
  }

  /** The border loop, run while `i < borderCount + 1`. */
  function ScanPolygon(rest: seq<string>, s: Scan): (r: Res<Read<ScanEnd>>)
    ensures r.Ok? ==> |r.value.rest| <= |rest|
    decreases |rest|
  {
    if !(s.i < s.borderCount + 1) then Ok(Read(ScanEnd(s.done, false), rest))
    else
      var round :- ScanRound(rest, s);
      match round
      case Stop(after, end) => Ok(Read(end, after))
      case Again(after, next) => ScanPolygon(after, next)
  }

  /** The body of a `readPolygon` record: feature type, the mark point
      (read, then dropped), and for feature type 1 a border count and the
      border loop.  The record is complete only when the loop reached a `0`
      token. */
  function ReadPolygonRecord(rest: seq<string>): (r: Res<Read<Record>>)
    ensures r.Ok? ==> |r.value.rest| < |rest|
  {
    var code :- Next(rest);
    var graphic :- Next(code.rest);
    var ft :- Next(graphic.rest);
    var mark :- Next(ft.rest);
    var _ :- ReadCoordinate(mark.value);
    if ToInt(ft.value) == 1 then
      var bc :- Next(mark.rest);
      var scan :- ScanPolygon(bc.rest, Scan(0, ToInt(bc.value), [], None));
      Ok(Read(Record(MultiPolygon(scan.value.polygons), scan.value.ended), scan.rest))
    else
      Ok(Read(Record(MultiPolygon([]), false), mark.rest))
  }

  // ---------------------------------------------------------------------------
  // Section loop

  datatype SectionKind = PointSection | LineSection | PolygonSection

  /** The loop condition of each decoder: the point and line loops stop at a
      line containing their end marker, the polygon loop only at a line
      equal to `PolygonEnd`. */
  predicate AtSectionEnd(kind: SectionKind, extra: string) {
    match kind
    case PointSection => Contains(extra, "PointEnd")
    case LineSection => Contains(extra, "LineEnd")
    case PolygonSection => extra == "PolygonEnd"
  }

  function ReadRecord(kind: SectionKind, rest: seq<string>): (r: Res<Read<Record>>)
    ensures r.Ok? ==> |r.value.rest| < |rest|
  {
    match kind
    case PointSection => ReadPointRecord(rest)
    case LineSection => ReadLineRecord(rest)
    case PolygonSection => ReadPolygonRecord(rest)
  }

  /** The record loop: `extra` is the current id line.  Each record is stored
      under `toInt(extra)` (replacing any feature already there) with no
      attributes; a complete record is followed by a blank line and the next
      id line. */
  function ReadRecords(kind: SectionKind, extra: string, rest: seq<string>, fs: FeatureMap): (r: Res<Read<FeatureMap>>)
    ensures r.Ok? ==> |r.value.rest| <= |rest|
    decreases |rest|
  {
    if AtSectionEnd(kind, extra) then Ok(Read(fs, rest))
    else
      var id := ToInt(extra);
      var rec :- ReadRecord(kind, rest);
      var fs1 := OrderedMap.Insert(fs, id, Feature(id, rec.value.geometry, []));
      if rec.value.closed then
        var blank :- Next(rec.rest);
        var next :- Next(blank.rest);
        ReadRecords(kind, next.value, next.rest, fs1)
      else
        ReadRecords(kind, extra, rec.rest, fs1)
  }

  /** `readPoint`, `readLine` and `readPolygon`, entered after the section's
      begin marker. */
  function ReadGeometrySection(kind: SectionKind, rest: seq<string>, fs: FeatureMap): (r: Res<Read<FeatureMap>>)
    ensures r.Ok? ==> |r.value.rest| < |rest|
  {
    var first :- Next(rest);
    ReadRecords(kind, first.value, first.rest, fs)
  }
}

=== FILE: headreader.dfy ===
/** The readers of the descriptive sections: Comment, Head, FeatureCode,
    TableStructure, and the sections the codec reads past without keeping
    anything (Solid, Aggregation, Annotation, Topology, Style).  Each is
    entered with the lines after its `...Begin` marker. */
module HeaderReader {
  import opened Wrappers
  import opened Text
  import opened Lines
  import opened Features
  import opened Store

  // ---------------------------------------------------------------------------
  // Comment

  /** `readComment`: the lines up to the first one containing `CommentEnd`,
      run together without separators, added to `acc`. */
  function ReadComment(rest: seq<string>, acc: string): (r: Res<Read<string>>)
    ensures r.Ok? ==> |r.value.rest| < |rest|
    decreases |rest|
  {
    var line :- Next(rest);
    if Contains(line.value, "CommentEnd") then Ok(Read(acc, line.rest))
    else ReadComment(line.rest, acc + line.value)
  }

  // ---------------------------------------------------------------------------
  // Head

  /** The spheroid names the reader recognises. */
  const Cgcs2000Spheroid: string := "中国2000国家大地"
  const KrassowskySpheroid: string := "克拉索夫斯基(1940)"

  /** The CRS a `Spheroid` header value selects: its first comma-separated
      item is searched for the two known spheroid names; any other value
      keeps the CRS the layer had. */
  function SpheroidCrs(value: string, crs: Option<string>): Option<string> {
    var first := Split(value, ',')[0];
    if Contains(first, Cgcs2000Spheroid) then Some("EPSG:4526")
    else if Contains(first, KrassowskySpheroid) then Some("EPSG:4024")
    else crs
  }

  /** One `Key:Value` header line: kept verbatim in `head`; a key containing
      `Spheroid` sets the CRS, one containing `ExtentMin` or `ExtentMax`
      sets two bounds of the extent from the value's first two
      comma-separated items. */
  function ReadHeadLine(st: Store, line: string): (r: Res<Store>)
    ensures r.Ok? ==> r.value.head == st.head + [line]
    ensures r.Ok? ==> r.value == st.(head := r.value.head, crs := r.value.crs, extent := r.value.extent)
  {
    var list := Split(line, ':');
    if |list| < 2 then Fail(MissingItem(line))
    else
      var key := list[0];
      var value := list[1];
      var st1 := st.(head := st.head + [line]);
      if Contains(key, "Spheroid") then
        Ok(st1.(crs := SpheroidCrs(value, st.crs)))
      else if Contains(key, "ExtentMin") then
        var values := Split(value, ',');
        if |values| < 2 then Fail(MissingItem(line))
        else Ok(st1.(extent := st.extent.(xMin := values[0], yMin := values[1])))
      else if Contains(key, "ExtentMax") then
        var values := Split(value, ',');
        if |values| < 2 then Fail(MissingItem(line))
        else Ok(st1.(extent := st.extent.(xMax := values[0], yMax := values[1])))
      else
        Ok(st1)
  }

  /** `readHead`: header lines up to the first one containing `HeadEnd`. */
  function ReadHead(rest: seq<string>, st: Store): (r: Res<Read<Store>>)
    ensures r.Ok? ==> |r.value.rest| < |rest|
    ensures r.Ok? ==> r.value.value.features == st.features && r.value.value.fields == st.fields
    decreases |rest|
  {
    var line :- Next(rest);
    if Contains(line.value, "HeadEnd") then Ok(Read(st, line.rest))
    else
      var st1 :- ReadHeadLine(st, line.value);
      ReadHead(line.rest, st1)
  }

  // ---------------------------------------------------------------------------
  // FeatureCode

  /** The layer type a feature-code kind token selects, checked for `Point`,
      then `Line`, then `Polygon`, by substring. */
  function KindOf(token: string): WkbType {
    if Contains(token, "Point") then WkbMultiPoint
    else if Contains(token, "Line") then WkbMultiLineString
    else if Contains(token, "Polygon") then WkbMultiPolygon
    else WkbUnknown
  }

  /** The user items after the `code,name,kind,table` line, kept verbatim up
      to the first line containing `FeatureCodeEnd`. */
  function ReadCustomItems(rest: seq<string>, items: seq<string>): (r: Res<Read<seq<string>>>)
    ensures r.Ok? ==> |r.value.rest| < |rest|
    decreases |rest|
  {
    var line :- Next(rest);
    if Contains(line.value, "FeatureCodeEnd") then Ok(Read(items, line.rest))
    else ReadCustomItems(line.rest, items + [line.value])
  }

  /** `readFeatureCode`. */
  function ReadFeatureCode(rest: seq<string>, st: Store): (r: Res<Read<Store>>)
    ensures r.Ok? ==> |r.value.rest| < |rest|
    ensures r.Ok? ==> r.value.value.features == st.features && r.value.value.fields == st.fields
  {
    var first :- Next(rest);
    var values := Split(first.value, ',');
    if |values| < 4 then Fail(MissingItem(first.value))
    else
      var items :- ReadCustomItems(first.rest, st.customItems);
      Ok(Read(st.(featureTypeCode := values[0], featureTypeName := values[1],
                  wkbType := KindOf(values[2]), attributeTableName := values[3],
                  customItems := items.value), items.rest))
  }

  // ---------------------------------------------------------------------------
  // TableStructure

  /** One `name,type[,length[,precision]]` line.  A type name containing
      `Int` becomes `Int`; the length is read when there are at least three
      items and the precision only when there are exactly four; the storage
      type is Double for `Double`, Int for `Int` and String otherwise. */
  function ReadField(line: string): Res<Field> {
    var extra := Split(line, ',');
    if |extra| < 2 then Fail(MissingItem(line))
    else
      var typeName := if Contains(extra[1], "Int") then "Int" else extra[1];
      var length := if |extra| >= 3 then ToInt(extra[2]) else 0;
      var precision := if |extra| == 4 then ToInt(extra[3]) else 0;
      var ty := if typeName == "Double" then Double else if typeName == "Int" then Int else String;
      Ok(Field(extra[0], ty, typeName, length, precision))
  }

  /** `count` field lines, each appended to `fields` unless a field already
      has its name: `QgsFields::append` refuses a second field of the same
      name.  Exactly `count` lines are read, none for a negative count. */
  function ReadFields(rest: seq<string>, count: int, fields: seq<Field>): (r: Res<Read<seq<Field>>>)
    ensures r.Ok? ==> |r.value.rest| == |rest| - (if count < 0 then 0 else count)
    ensures r.Ok? ==> |fields| <= |r.value.value| <= |fields| + (if count < 0 then 0 else count)
    ensures r.Ok? ==> r.value.value[..|fields|] == fields
    ensures r.Ok? && DistinctNames(fields) ==> DistinctNames(r.value.value)
    decreases if count < 0 then 0 else count
  {
    if count <= 0 then Ok(Read(fields, rest))
    else
      var line :- Next(rest);
      var f :- ReadField(line.value);
      if f.name in FieldNames(fields) then ReadFields(line.rest, count - 1, fields)
      else
        var fields1 := fields + [f];
        assert fields1[..|fields|] == fields;
        assert DistinctNames(fields) ==> DistinctNames(fields1) by {
          if DistinctNames(fields) {
            forall a, b | 0 <= a < b < |fields1|
              ensures fields1[a].name != fields1[b].name
            {
              if b == |fields| {
                assert fields1[a].name == FieldNames(fields)[a];
              }
            }
          }
        }
        var r := ReadFields(line.rest, count - 1, fields1);
        assert r.Ok? ==> r.value.value[..|fields|] == r.value.value[..|fields1|][..|fields|];
        r
  }

  /** `readTableStructure`: a `table,count` line, then exactly `count` field
      lines.  The lines after them, up to `TableStructureEnd`, are left to the
      section scanner. */
  function ReadTableStructure(rest: seq<string>, st: Store): (r: Res<Read<Store>>)
    ensures r.Ok? ==> |r.value.rest| < |rest|
    ensures r.Ok? ==> r.value.value.features == st.features
    ensures r.Ok? && DistinctNames(st.fields) ==> DistinctNames(r.value.value.fields)
  {
    var first :- Next(rest);
    var list := Split(first.value, ',');
    if |list| < 2 then Fail(MissingItem(first.value))
    else
      var fields :- ReadFields(first.rest, ToInt(list[1]), st.fields);
      Ok(Read(st.(fields := fields.value), fields.rest))
  }

  // ---------------------------------------------------------------------------
  // Skipped sections

  /** `readSolid`, `readAggregation`, `readAnnotation`, `readTopology` and
      `readStyle`: lines are read and dropped up to the first one containing
      the section's end marker. */
  function SkipSection(rest: seq<string>, endMarker: string): (r: Res<seq<string>>)
    ensures r.Ok? ==> |r.value| < |rest|
    decreases |rest|
  {
    var line :- Next(rest);
    if Contains(line.value, endMarker) then Ok(line.rest) else SkipSection(line.rest, endMarker)
  }
}

=== FILE: lines.dfy ===
/** Reading a document line by line.  A reader consumes a suffix of the
    document's lines (the part of the stream not yet read) and hands back
    what is left.  Reading past the last line is a failure: in the source
    every handler that does so ends in an out-of-range index or a loop that
    never ends.  So is taking an item a split line does not have. */
module Lines {
  import opened Wrappers
  import opened Text

  datatype Failure =
    | EndOfInput                // a read past the last line
    | MissingItem(line: string) // a split of `line` has too few items

  type Res<T> = Result<T, Failure>

  /** A decoded value and the lines still unread after it. */
  datatype Read<T> = Read(value: T, rest: seq<string>)

  /** `QTextStream::readLine`. */
  function Next(rest: seq<string>): (r: Res<Read<string>>)
    ensures r.Ok? <==> |rest| > 0
    ensures r.Ok? ==> r.value == Read(rest[0], rest[1..])
  {
    if |rest| == 0 then Fail(EndOfInput) else Ok(Read(rest[0], rest[1..]))
  }

  /** The line that ends a block: the first of `rest`, at index `n`, that
      contains `marker`. */
  predicate EndsAt(rest: seq<string>, marker: string, n: int)
    requires 0 <= n < |rest|
  {
    Contains(rest[n], marker) && forall k :: 0 <= k < n ==> !Contains(rest[k], marker)
  }
}

=== FILE: orderedmap.dfy ===
/** A `QMap<qint64, V>`: an association list kept in strictly ascending key
    order, so that there is one entry per key and iteration visits the keys
    in ascending order. */
module OrderedMap {
  import opened Wrappers
  import opened Seqs

  datatype Entry<V> = Entry(key: int, value: V)

  predicate Ascending<V>(m: seq<Entry<V>>) {
    forall i, j :: 0 <= i < j < |m| ==> m[i].key < m[j].key
  }

  type Map<V> = m: seq<Entry<V>> | Ascending(m) witness []

  function Keys<V>(m: seq<Entry<V>>): set<int>
    decreases |m|
  {
    if |m| == 0 then {} else {m[0].key} + Keys(m[1..])
  }

  /** The keys are exactly the keys found at the positions of `m`. */
  lemma {:induction false} KeysAt<V>(m: seq<Entry<V>>, k: int)
    ensures k in Keys(m) <==> exists i :: 0 <= i < |m| && m[i].key == k
    decreases |m|
  {
    if |m| > 0 {
      KeysAt(m[1..], k);
      if exists i :: 0 <= i < |m[1..]| && m[1..][i].key == k {
        var i :| 0 <= i < |m[1..]| && m[1..][i].key == k;
        assert m[i + 1].key == k;
      }
      if exists i :: 0 < i < |m| && m[i].key == k {
        var i :| 0 < i < |m| && m[i].key == k;
        assert m[1..][i - 1].key == k;
      }
    }
  }

  lemma KeysCons<V>(e: Entry<V>, m: seq<Entry<V>>)
    ensures Keys([e] + m) == {e.key} + Keys(m)
  {
    assert ([e] + m)[1..] == m;
  }

  /** Every key of `m` is below `k`. */
  predicate Below<V>(m: seq<Entry<V>>, k: int) {
    forall i :: 0 <= i < |m| ==> m[i].key < k
  }

  /** `QMap::value` / `find`: the value stored under `k`, if any. */
  function Get<V>(m: Map<V>, k: int): (r: Option<V>)
    ensures r.Some? <==> k in Keys(m)
    ensures r.Some? ==> exists i :: 0 <= i < |m| && m[i] == Entry(k, r.value)
    decreases |m|
  {
    if |m| == 0 then None
    else if m[0].key == k then Some(m[0].value)
    else
      var r := Get(m[1..], k);
      assert r.Some? ==> exists i :: 0 <= i < |m| && m[i] == Entry(k, r.value) by {
        if r.Some? {
          var i :| 0 <= i < |m[1..]| && m[1..][i] == Entry(k, r.value);
          assert m[i + 1] == Entry(k, r.value);
        }
      }
      r
  }

  /** The value stored at position `i` is the one `Get` finds under its key. */
  lemma GetAt<V>(m: Map<V>, i: int)
    requires 0 <= i < |m|
    ensures Get(m, m[i].key) == Some(m[i].value)
  {
    var r := Get(m, m[i].key);
    KeysAt(m, m[i].key);
    var j :| 0 <= j < |m| && m[j] == Entry(m[i].key, r.value);
    assert i == j;
  }

  /** `QMap::insert`: stores `v` under `k`, replacing any value already there. */
  function Insert<V>(m: Map<V>, k: int, v: V): (r: Map<V>)
    ensures Keys(r) == Keys(m) + {k}
    ensures Get(r, k) == Some(v)
    ensures forall j :: j != k ==> Get(r, j) == Get(m, j)
    ensures |r| == if k in Keys(m) then |m| else |m| + 1
    decreases |m|
  {
    if |m| == 0 then [Entry(k, v)]
    else if k < m[0].key then
      InsertFront(m, k, v);
      [Entry(k, v)] + m
    else if k == m[0].key then
      InsertFirst(m, v);
      [Entry(k, v)] + m[1..]
    else
      var tail := Insert(m[1..], k, v);
      HeadThen(m, tail, Keys(m[1..]) + {k});
      [m[0]] + tail
  }

  /** A second `insert` under the same key leaves the map as if only the
      second had happened. */
  lemma {:induction false} InsertTwice<V>(m: Map<V>, k: int, v: V, w: V)
    ensures Insert(Insert(m, k, v), k, w) == Insert(m, k, w)
    decreases |m|
  {
    if |m| > 0 && k > m[0].key {
      var t: Map<V> := m[1..];
      InsertTwice(t, k, v, w);
      var once := Insert(m, k, v);
      assert once == [m[0]] + Insert(t, k, v);
      assert once[1..] == Insert(t, k, v);
    } else if |m| > 0 && k < m[0].key {
      InsertFront(m, k, v);
    }
  }

  /** A key below every key of `m` goes in front. */
  lemma InsertFront<V>(m: Map<V>, k: int, v: V)
    requires |m| > 0 && k < m[0].key
    ensures Ascending([Entry(k, v)] + m) && ([Entry(k, v)] + m)[1..] == m
    ensures k !in Keys(m) && Keys([Entry(k, v)] + m) == Keys(m) + {k}
  {
    KeysCons(Entry(k, v), m);
    KeysAt(m, k);
  }

  /** The first key of `m` keeps its place. */
  lemma InsertFirst<V>(m: Map<V>, v: V)
    requires |m| > 0
    ensures Ascending([Entry(m[0].key, v)] + m[1..]) && ([Entry(m[0].key, v)] + m[1..])[1..] == m[1..]
    ensures Keys([Entry(m[0].key, v)] + m[1..]) == Keys(m)
  {
    KeysCons(Entry(m[0].key, v), m[1..]);
  }

  /** The first entry of `m` in front of a map whose keys are those of the
      rest of `m`, give or take keys above the first. */
  lemma HeadThen<V>(m: Map<V>, tail: Map<V>, ks: set<int>)
    requires |m| > 0 && Keys(tail) == ks
    requires forall x :: x in ks ==> x in Keys(m[1..]) || m[0].key < x
    ensures Ascending([m[0]] + tail) && ([m[0]] + tail)[1..] == tail
    ensures Keys([m[0]] + tail) == {m[0].key} + ks && m[0].key !in Keys(m[1..])
  {
    AboveHead(m, tail);
    KeysCons(m[0], tail);
    KeysAt(m[1..], m[0].key);
  }

  /** A list whose keys all belong to the tail of a non-empty map lies above
      the map's first key. */
  lemma AboveHead<V>(m: Map<V>, t: seq<Entry<V>>)
    requires |m| > 0
    requires forall x :: x in Keys(t) ==> x in Keys(m[1..]) || m[0].key < x
    ensures forall i :: 0 <= i < |t| ==> m[0].key < t[i].key
  {
    forall i | 0 <= i < |t|
      ensures m[0].key < t[i].key
    {
      KeysAt(t, t[i].key);
      KeysAt(m[1..], t[i].key);
    }
  }

  /** Inserting a key above every present key appends it: how a map filled
      in ascending key order grows. */
  lemma {:induction false} InsertAbove<V>(m: Map<V>, k: int, v: V)
    requires Below(m, k)
    ensures Insert(m, k, v) == m + [Entry(k, v)]
    decreases |m|
  {
    if |m| > 0 {
      InsertAbove(m[1..], k, v);
      InsertPast(m, k, v);
      FirstThen(m, [Entry(k, v)]);
    }
  }

  /** `QMap::insert` under a key already present replaces that entry where
      it stands: the other entries and their order are untouched. */
  lemma {:induction false} InsertReplaces<V>(m: Map<V>, i: int, v: V)
    requires 0 <= i < |m|
    ensures Insert(m, m[i].key, v) == m[..i] + [Entry(m[i].key, v)] + m[i + 1..]
    decreases i
  {
    if i == 0 {
      InsertHere(m, v);
    } else {
      var t: Map<V> := m[1..];
      InsertReplaces(t, i - 1, v);
      ReplacesBehind(m, i, v);
    }
  }

  lemma ReplacesBehind<V>(m: Map<V>, i: int, v: V)
    requires 0 < i < |m|
    requires Insert(m[1..], m[i].key, v) == m[1..][..i - 1] + [Entry(m[i].key, v)] + m[1..][i..]
    ensures Insert(m, m[i].key, v) == m[..i] + [Entry(m[i].key, v)] + m[i + 1..]
  {
    InsertPast(m, m[i].key, v);
    Reassemble(m, i, Entry(m[i].key, v));
  }

  /** Replacing position `i` of `m` is replacing position `i - 1` of its
      tail behind its head. */
  lemma Reassemble<T>(m: seq<T>, i: int, e: T)
    requires 0 < i < |m|
    ensures [m[0]] + (m[1..][..i - 1] + [e] + m[1..][i..]) == m[..i] + [e] + m[i + 1..]
  {
    assert m[1..][..i - 1] == m[1..i] && m[1..][i..] == m[i + 1..];
    assert [m[0]] + m[1..i] == m[..i];
  }

  lemma InsertHere<V>(m: Map<V>, v: V)
    requires |m| > 0
    ensures Insert(m, m[0].key, v) == [Entry(m[0].key, v)] + m[1..]
  {
  }

  lemma InsertPast<V>(m: Map<V>, k: int, v: V)
    requires |m| > 0 && m[0].key < k
    ensures Insert(m, k, v) == [m[0]] + Insert(m[1..], k, v)
  {
  }

  /** Every key of `a` is below every key of `b`. */
  predicate Precedes<V>(a: seq<Entry<V>>, b: seq<Entry<V>>) {
    forall i, j :: 0 <= i < |a| && 0 <= j < |b| ==> a[i].key < b[j].key
  }

  /** Two ascending lists, the first wholly below the second, make an
      ascending list. */
  lemma AppendAscending<V>(a: seq<Entry<V>>, b: seq<Entry<V>>)
    requires Ascending(a) && Ascending(b) && Precedes(a, b)
    ensures Ascending(a + b)
  {
    forall i, j | 0 <= i < j < |a + b|
      ensures (a + b)[i].key < (a + b)[j].key
    {
      if j < |a| {
      } else if i < |a| {
        assert (a + b)[j] == b[j - |a|];
      } else {
        assert (a + b)[j] == b[j - |a|] && (a + b)[i] == b[i - |a|];
      }
    }
  }

  /** `QMap::erase` of every key in `ks` that is present. */
  function RemoveKeys<V>(m: Map<V>, ks: set<int>): (r: Map<V>)
    ensures Keys(r) == Keys(m) - ks
    ensures forall j :: Get(r, j) == if j in ks then None else Get(m, j)
    decreases |m|
  {
    if |m| == 0 then []
    else
      var tail := RemoveKeys(m[1..], ks);
      HeadThen(m, tail, Keys(m[1..]) - ks);
      if m[0].key in ks then tail else [m[0]] + tail
  }

  /** Replaces every value by `f` of its entry, keeping every key in place. */
  function MapValues<V>(m: Map<V>, f: Entry<V> -> V): (r: Map<V>)
    ensures |r| == |m|
    ensures forall i :: 0 <= i < |m| ==> r[i] == Entry(m[i].key, f(m[i]))
  {
    seq(|m|, i requires 0 <= i < |m| => Entry(m[i].key, f(m[i])))
  }

  /** What `RemoveKeys` keeps are entries of the map. */
  lemma {:induction false} RemoveKeysKeeps<V>(m: Map<V>, ks: set<int>)
    ensures forall i :: 0 <= i < |RemoveKeys(m, ks)| ==> RemoveKeys(m, ks)[i] in m
    decreases |m|
  {
    if |m| > 0 {
      RemoveKeysKeeps(m[1..], ks);
      var tail := RemoveKeys(m[1..], ks);
      assert forall i :: 0 <= i < |tail| ==> tail[i] in m;
    }
  }

  /** The value a change list leaves under a key: `f` of the value and the
      change when both are there, the value otherwise. */
  function Updated<V, U>(e: Entry<V>, cs: Map<U>, f: (V, U) -> V): V {
    match Get(cs, e.key)
    case Some(u) => f(e.value, u)
    case None => e.value
  }

  /** The edit loops that look every changed key up and, when it is
      present, store `f` of its value and the change under it; absent keys
      are passed over.  Every entry stays where it is. */
  function UpdatePresent<V, U>(m: Map<V>, cs: Map<U>, f: (V, U) -> V): (r: Map<V>)
    ensures |r| == |m|
    ensures forall i :: 0 <= i < |m| ==> r[i] == Entry(m[i].key, Updated(m[i], cs, f))
    decreases |cs|
  {
    if |cs| == 0 then m
    else
      var k := cs[0].key;
      var m1 := match Get(m, k)
                case None => m
                case Some(v) => Insert(m, k, f(v, cs[0].value));
      var r := UpdatePresent(m1, cs[1..], f);
      UpdateStep(m, cs, f, m1, r);
      r
  }

  lemma UpdateStep<V, U>(m: Map<V>, cs: Map<U>, f: (V, U) -> V, m1: Map<V>, r: Map<V>)
    requires |cs| > 0
    requires m1 == match Get(m, cs[0].key)
                   case None => m
                   case Some(v) => Insert(m, cs[0].key, f(v, cs[0].value))
    requires |r| == |m1| && forall i :: 0 <= i < |m1| ==> r[i] == Entry(m1[i].key, Updated(m1[i], cs[1..], f))
    ensures |r| == |m|
    ensures forall i :: 0 <= i < |m| ==> r[i] == Entry(m[i].key, Updated(m[i], cs, f))
  {
    FirstKeyOnce(cs);
    if Get(m, cs[0].key).None? {
      UpdateAbsent(m, cs, f, r);
    } else {
      UpdatePresentStep(m, cs, f, r);
    }
  }

  /** The first key of a change list does not come again. */
  lemma FirstKeyOnce<U>(cs: Map<U>)
    requires |cs| > 0
    ensures Get(cs[1..], cs[0].key) == None
  {
    KeysAt(cs[1..], cs[0].key);
  }

  /** A change whose key is present replaces that entry's value. */
  lemma UpdatePresentStep<V, U>(m: Map<V>, cs: Map<U>, f: (V, U) -> V, r: Map<V>)
    requires |cs| > 0 && Get(m, cs[0].key).Some? && Get(cs[1..], cs[0].key) == None
    requires var m1 := Insert(m, cs[0].key, f(Get(m, cs[0].key).value, cs[0].value));
             |r| == |m1| && forall i :: 0 <= i < |m1| ==> r[i] == Entry(m1[i].key, Updated(m1[i], cs[1..], f))
    ensures |r| == |m|
    ensures forall i :: 0 <= i < |m| ==> r[i] == Entry(m[i].key, Updated(m[i], cs, f))
  {
    var k := cs[0].key;
    var v := Get(m, k).value;
    var p :| 0 <= p < |m| && m[p] == Entry(k, v);
    InsertReplaces(m, p, f(v, cs[0].value));
    UpdateAt(m, cs, f, p, r);
  }

  /** A change whose key is absent leaves every entry alone. */
  lemma UpdateAbsent<V, U>(m: Map<V>, cs: Map<U>, f: (V, U) -> V, r: Map<V>)
    requires |cs| > 0 && Get(m, cs[0].key).None?
    requires |r| == |m| && forall i :: 0 <= i < |m| ==> r[i] == Entry(m[i].key, Updated(m[i], cs[1..], f))
    ensures forall i :: 0 <= i < |m| ==> r[i] == Entry(m[i].key, Updated(m[i], cs, f))
  {
    forall i | 0 <= i < |m|
      ensures Updated(m[i], cs[1..], f) == Updated(m[i], cs, f)
    {
      KeysAt(m, cs[0].key);
      assert m[i].key != cs[0].key;
    }
  }

  /** A change whose key is at position `p` replaces that entry's value. */
  lemma UpdateAt<V, U>(m: Map<V>, cs: Map<U>, f: (V, U) -> V, p: int, r: Map<V>)
    requires |cs| > 0 && 0 <= p < |m| && m[p].key == cs[0].key && Get(cs[1..], cs[0].key) == None
    requires var m1 := m[..p] + [Entry(m[p].key, f(m[p].value, cs[0].value))] + m[p + 1..];
             |r| == |m1| && forall i :: 0 <= i < |m1| ==> r[i] == Entry(m1[i].key, Updated(m1[i], cs[1..], f))
    ensures forall i :: 0 <= i < |m| ==> r[i] == Entry(m[i].key, Updated(m[i], cs, f))
  {
    var m1 := m[..p] + [Entry(m[p].key, f(m[p].value, cs[0].value))] + m[p + 1..];
    forall i | 0 <= i < |m|
      ensures r[i] == Entry(m[i].key, Updated(m[i], cs, f))
    {
      if i == p {
        assert m1[i] == Entry(m[p].key, f(m[p].value, cs[0].value));
      } else {
        assert m1[i] == m[i];
        assert m[i].key != m[p].key;
      }
    }
  }
}

=== FILE: persist.dfy ===
/** The edits and the document: every edit ends by writing the whole
    document again, and the provider is read back from it the next time
    the layer is opened. */
module Persistence {
  import opened Wrappers
  import opened Text
  import opened Store
  import opened Reader
  import opened Writer
  import opened SectionRoundTrip
  import opened DocumentRoundTrip
  import opened Edits
  import OrderedMap

  /** A store that can be written and read back is valid, and so is the
      store read back. */
  lemma ReloadKeepsValidity(st: Store)
    requires Reloadable(st)
    ensures IsValid(st)
    ensures ReadData(WriteData(st)).Ok? && IsValid(ReadData(WriteData(st)).value)
  {
    WriteThenRead(st);
    ReloadedValid(st);
  }

  lemma ReloadedValid(st: Store)
    requires Reloadable(st)
    ensures IsValid(st) && IsValid(Reloaded(st))
  {
  }

  /** Deleting features keeps a store writable: the document written after
      `deleteFeatures` reads back as the store without the deleted
      features. */
  lemma DeleteFeaturesReloads(st: Store, ids: set<int>)
    requires Reloadable(st)
    ensures Reloadable(DeleteFeatures(st, ids))
    ensures ReadData(WriteData(DeleteFeatures(st, ids))) == Ok(Reloaded(DeleteFeatures(st, ids)))
  {
    DeletedReloadable(st, ids);
    WriteThenRead(DeleteFeatures(st, ids));
  }

  lemma DeletedReloadable(st: Store, ids: set<int>)
    requires Reloadable(st)
    ensures Reloadable(DeleteFeatures(st, ids))
  {
    var fs := OrderedMap.RemoveKeys(st.features, ids);
    OrderedMap.RemoveKeysKeeps(st.features, ids);
    FewerFeaturesReloadable(st, fs, MinimalExtent);
    assert DeleteFeatures(st, ids) == st.(features := fs, extent := MinimalExtent);
  }

  /** Keeping some of a writable store's features, whatever the extent,
      keeps it writable. */
  lemma FewerFeaturesReloadable(st: Store, fs: FeatureMap, e: Extent)
    requires Reloadable(st)
    requires forall i :: 0 <= i < |fs| ==> fs[i] in st.features
    ensures Reloadable(st.(features := fs, extent := e))
  {
    var r := st.(features := fs, extent := e);
    forall i | 0 <= i < |r.features|
      ensures IsInt32(r.features[i].key) && Writable(LayerGeometryType(r.wkbType), r.features[i].value.geometry)
      ensures RowWritable(r.features[i])
      ensures |r.features[i].value.attributes| == |r.fields|
    {
      var j :| 0 <= j < |st.features| && st.features[j] == r.features[i];
    }
  }
}

=== FILE: reader.dfy ===
/** `readData`: the section scanner, and the provider's constructor built on
    it.  Lines outside any section are read and ignored; a line containing
    one of the `...Begin` markers (checked in a fixed order, by substring)
    hands the following lines to that section's reader. */
module Reader {
  import opened Wrappers
  import opened Text
  import opened Lines
  import opened Store
  import opened HeaderReader
  import opened GeometryReader
  import opened AttributeReader

  datatype Marker =
    | CommentBegin | HeadBegin | FeatureCodeBegin | TableStructureBegin
    | PointBegin | LineBegin | PolygonBegin | SolidBegin | AggregationBegin
    | AnnotationBegin | TopologyBegin | AttributeBegin | StyleBegin

  /** The first marker, in the scanner's order, that `line` contains. */
  function MarkerOf(line: string): Option<Marker> {
    if Contains(line, "CommentBegin") then Some(CommentBegin)
    else if Contains(line, "HeadBegin") then Some(HeadBegin)
    else if Contains(line, "FeatureCodeBegin") then Some(FeatureCodeBegin)
    else if Contains(line, "TableStructureBegin") then Some(TableStructureBegin)
    else if Contains(line, "PointBegin") then Some(PointBegin)
    else if Contains(line, "LineBegin") then Some(LineBegin)
    else if Contains(line, "PolygonBegin") then Some(PolygonBegin)
    else if Contains(line, "SolidBegin") then Some(SolidBegin)
    else if Contains(line, "AggregationBegin") then Some(AggregationBegin)
    else if Contains(line, "AnnotationBegin") then Some(AnnotationBegin)
    else if Contains(line, "TopologyBegin") then Some(TopologyBegin)
    else if Contains(line, "AttributeBegin") then Some(AttributeBegin)
    else if Contains(line, "StyleBegin") then Some(StyleBegin)
    else None
  }

  /** The section reader for a marker. */
  function Dispatch(m: Marker, rest: seq<string>, st: Store): (r: Res<Read<Store>>)
    ensures r.Ok? ==> |r.value.rest| < |rest|
  {
    match m
    case CommentBegin =>
      var c :- ReadComment(rest, "");
      Ok(Read(st.(comments := st.comments + [c.value]), c.rest))
    case HeadBegin => ReadHead(rest, st)
    case FeatureCodeBegin => ReadFeatureCode(rest, st)
    case TableStructureBegin => ReadTableStructure(rest, st)
    case PointBegin =>
      var fs :- ReadGeometrySection(PointSection, rest, st.features);
      Ok(Read(st.(features := fs.value), fs.rest))
    case LineBegin =>
      var fs :- ReadGeometrySection(LineSection, rest, st.features);
      Ok(Read(st.(features := fs.value), fs.rest))
    case PolygonBegin =>
      var fs :- ReadGeometrySection(PolygonSection, rest, st.features);
      Ok(Read(st.(features := fs.value), fs.rest))
    case SolidBegin =>
      var after :- SkipSection(rest, "SolidEnd");
      Ok(Read(st, after))
    case AggregationBegin =>
      var after :- SkipSection(rest, "AggregationEnd");
      Ok(Read(st, after))
    case AnnotationBegin =>
      var after :- SkipSection(rest, "AnnotationEnd");
      Ok(Read(st, after))
    case TopologyBegin =>
      var after :- SkipSection(rest, "TopologyEnd");
      Ok(Read(st, after))
    case AttributeBegin =>
      var fs :- ReadAttribute(rest, st.features);
      Ok(Read(st.(features := fs.value), fs.rest))
    case StyleBegin =>
      var after :- SkipSection(rest, "StyleEnd");
      Ok(Read(st, after))
  }

  /** The scanner loop: `extra` is the line just read and `rest` the lines
      after it.  The loop stops as soon as nothing is left to read, so the
      last line of the document is never dispatched. */
  function ReadSections(extra: string, rest: seq<string>, st: Store): (r: Res<Store>)
    decreases |rest|
  {
    if |rest| == 0 then Ok(st)
    else
      var after :- match MarkerOf(extra)
                   case None => Ok(Read(st, rest))
                   case Some(m) => Dispatch(m, rest, st);
      if |after.rest| == 0 then Ok(after.value)
      else ReadSections(after.rest[0], after.rest[1..], after.value)
  }

  /** `readData` on a provider in its initial state. */
  function ReadData(lines: seq<string>): Res<Store> {
    if |lines| == 0 then Ok(Empty) else ReadSections(lines[0], lines[1..], Empty)
  }

  /** The provider's constructor: `readData`, then the id counter set to one
      more than the number of features read. */
  function Load(lines: seq<string>): (r: Res<Store>)
    ensures r.Ok? ==> r.value.nextId == |r.value.features| + 1
  {
    var st :- ReadData(lines);
    Ok(st.(nextId := |st.features| + 1))
  }
}

=== FILE: recordtrip.dfy ===
/** What the geometry decoders make of the records the writer emits: the
    records of a line or polygon layer, and those of a point layer whose
    features hold one point, decode to the geometry written; a multi-point
    record does not.  Each lemma starts after the id line, which the section
    loop reads. */
module RecordRoundTrip {
  import opened Wrappers
  import opened Seqs
  import opened Text
  import opened Lines
  import opened Geometry
  import opened GeometryReader
  import opened Writer

  /** The numerals the writer emits as literals. */
  lemma ToIntZero()
    ensures ToInt("0") == 0
  {
    IntRoundTrip(0);
  }

  lemma ToIntOne()
    ensures ToInt("1") == 1
  {
    IntRoundTrip(1);
  }

  lemma ToIntFour()
    ensures ToInt("4") == 4
  {
    IntRoundTrip(4);
  }

  lemma ToIntEleven()
    ensures ToInt("11") == 11
  {
    IntRoundTrip(11);
    assert IntToString(11) == "11";
  }

  /** Reading one line off the front. */
  lemma NextCons(line: string, rest: seq<string>)
    ensures Next([line] + rest) == Ok(Read(line, rest))
  {
    assert ([line] + rest)[1..] == rest;
  }

  /** A count the writer can emit: a value of the source's `int`. */
  predicate Countable(n: nat) {
    n <= IntMax
  }

  /** A count written by the writer reads back as itself. */
  lemma CountRoundTrip(n: nat)
    requires Countable(n)
    ensures ToInt(IntToString(n)) == n && ',' !in IntToString(n)
  {
    IntRoundTrip(n);
  }

  /** An `x,y` line reads back as the point it was written from. */
  lemma PointTextRoundTrip(p: Point)
    requires WellFormedPoint(p)
    ensures ',' in PointText(p)
    ensures ReadCoordinate(PointText(p)) == Ok(p)
  {
    assert PointText(p) == p.x + [','] + p.y;
    assert PointText(p)[|p.x|] == ',';
    SplitCons(p.x, ',', p.y);
    SplitSingle(p.y, ',');
  }

  /** `count` coordinate lines read back as the points written. */
  lemma {:induction false} ReadPointsRoundTrip(pts: seq<Point>, tail: seq<string>)
    requires WellFormedPoints(pts)
    ensures ReadPoints(PointLines(pts, tail), |pts|) == Ok(Read(pts, tail))
    decreases |pts|
  {
    if |pts| > 0 {
      PointTextRoundTrip(pts[0]);
      ReadPointsRoundTrip(pts[1..], tail);
      NextCons(PointText(pts[0]), PointLines(pts[1..], tail));
      HeadTail(pts);
    }
  }

  // ---------------------------------------------------------------------------
  // One step of each decoder, over lines given one by one

  lemma PointRecordSteps(a: string, b: string, c: string, rest: seq<string>, pts: seq<Point>,
                         flag: string, after: seq<string>)
    requires ReadPointCoordinates(rest, ToInt(c)) == Ok(Read(pts, [flag] + after))
    ensures ReadPointRecord([a] + ([b] + ([c] + rest))) == Ok(Read(Record(MultiPoint(pts), flag == "0"), after))
  {
    NextCons(a, [b] + ([c] + rest));
    NextCons(b, [c] + rest);
    NextCons(c, rest);
    NextCons(flag, after);
  }

  lemma LineRecordSteps(a: string, b: string, n: nat, rest: seq<string>,
                        parts: seq<PolylineXY>, flag: string, after: seq<string>)
    requires Countable(n)
    requires ReadLineParts(rest, n) == Ok(Read(parts, [flag] + after))
    ensures ReadLineRecord([a] + ([b] + (["1"] + ([IntToString(n)] + rest))))
         == Ok(Read(Record(MultiLineString(parts), flag == "0"), after))
  {
    ToIntOne();
    CountRoundTrip(n);
    NextCons(a, [b] + (["1"] + ([IntToString(n)] + rest)));
    NextCons(b, ["1"] + ([IntToString(n)] + rest));
    NextCons("1", [IntToString(n)] + rest);
    NextCons(IntToString(n), rest);
    NextCons(flag, after);
  }

  lemma LinePartStep(n: nat, rest: seq<string>, count: int,
                     pts: PolylineXY, after: seq<string>, more: seq<PolylineXY>, last: seq<string>)
    requires count > 0 && Countable(n)
    requires ReadPoints(rest, n) == Ok(Read(pts, after))
    requires ReadLineParts(after, count - 1) == Ok(Read(more, last))
    ensures ReadLineParts(["11"] + ([IntToString(n)] + rest), count) == Ok(Read([pts] + more, last))
  {
    ToIntEleven();
    CountRoundTrip(n);
    NextCons("11", [IntToString(n)] + rest);
    NextCons(IntToString(n), rest);
  }

  lemma PolygonRecordSteps(a: string, b: string, n: nat, rest: seq<string>, e: ScanEnd, after: seq<string>)
    requires Countable(n)
    requires ScanPolygon(rest, Scan(0, n, [], None)) == Ok(Read(e, after))
    ensures ReadPolygonRecord([a] + ([b] + (["1"] + ([MarkPoint] + ([IntToString(n)] + rest)))))
         == Ok(Read(Record(MultiPolygon(e.polygons), e.ended), after))
  {
    ToIntOne();
    CountRoundTrip(n);
    MarkPointReads();
    NextCons(a, [b] + (["1"] + ([MarkPoint] + ([IntToString(n)] + rest))));
    NextCons(b, ["1"] + ([MarkPoint] + ([IntToString(n)] + rest)));
    NextCons("1", [MarkPoint] + ([IntToString(n)] + rest));
    NextCons(MarkPoint, [IntToString(n)] + rest);
    NextCons(IntToString(n), rest);
  }

  /** The mark point line holds a coordinate pair. */
  lemma MarkPointReads()
    ensures ReadCoordinate(MarkPoint).Ok?
  {
    assert MarkPoint[3] == ',';
  }

  /** A non-zero shape token followed by a line without a comma starts a
      main ring. */
  lemma MainRingDispatch(shape: string, count: string, rest: seq<string>, s: Scan)
    requires ToInt(shape) != 0 && ',' !in count
    ensures ScanRound([shape] + ([count] + rest), s) == MainRing(rest, s, ToInt(shape), count)
  {
    NextCons(shape, [count] + rest);
    NextCons(count, rest);
  }

  /** A non-zero shape token followed by a line with a comma is a
      subordinate ring. */
  lemma SubordinateRingDispatch(shape: string, first: string, rest: seq<string>, s: Scan)
    requires ToInt(shape) != 0 && ',' in first
    ensures ScanRound([shape] + ([first] + rest), s) == SubordinateRing(rest, s, ToInt(shape), first)
  {
    NextCons(shape, [first] + rest);
    NextCons(first, rest);
  }

  /** A polygon's first ring: a shape token 11 and a point count. */
  lemma MainRingStep(n: nat, rest: seq<string>, s: Scan, ring: PolylineXY, after: seq<string>)
    requires Countable(n)
    requires ReadPoints(rest, n) == Ok(Read(ring, after))
    ensures ScanRound(["11"] + ([IntToString(n)] + rest), s)
         == Ok(Again(after, Scan(s.i + 1, s.borderCount, Flush(s.done, s.open), Some(OpenPolygon(11, [ring])))))
  {
    ToIntEleven();
    CountRoundTrip(n);
    MainRingDispatch("11", IntToString(n), rest, s);
    MainRingOpens(rest, s, IntToString(n), ring, after);
  }

  /** A main ring of shape 11 reads its points and opens a polygon with
      them, after appending the polygon that was open. */
  lemma MainRingOpens(rest: seq<string>, s: Scan, count: string, ring: PolylineXY, after: seq<string>)
    requires ReadPoints(rest, ToInt(count)) == Ok(Read(ring, after))
    ensures MainRing(rest, s, 11, count)
         == Ok(Again(after, Scan(s.i + 1, s.borderCount, Flush(s.done, s.open), Some(OpenPolygon(11, [ring])))))
  {
  }

  /** A subordinate ring: a non-zero point count and the ring's first point. */
  lemma SubordinateRingStep(n: nat, p: Point, rest: seq<string>, s: Scan, acc: PolygonXY,
                            more: PolylineXY, after: seq<string>)
    requires Countable(n) && n > 0 && WellFormedPoint(p)
    requires s.open == Some(OpenPolygon(11, acc))
    requires ReadPoints(rest, n - 1) == Ok(Read(more, after))
    ensures ScanRound([IntToString(n)] + ([PointText(p)] + rest), s)
         == Ok(Again(after, Scan(s.i + 1, s.borderCount + 1, s.done, Some(OpenPolygon(11, acc + [[p] + more])))))
  {
    CountRoundTrip(n);
    PointTextRoundTrip(p);
    SubordinateRingDispatch(IntToString(n), PointText(p), rest, s);
  }

  /** The end token. */
  lemma EndStep(rest: seq<string>, s: Scan)
    ensures ScanRound(["0"] + rest, s) == Ok(Stop(rest, ScanEnd(Flush(s.done, s.open), true)))
  {
    ToIntZero();
    NextCons("0", rest);
  }

  /** A round that leads to another continues the loop from there. */
  lemma ScanAgain(rest: seq<string>, s: Scan, after: seq<string>, next: Scan)
    requires s.i < s.borderCount + 1
    requires ScanRound(rest, s) == Ok(Again(after, next))
    ensures ScanPolygon(rest, s) == ScanPolygon(after, next)
  {
  }

  // ---------------------------------------------------------------------------
  // Point records

  /** A point geometry the point reader reads back: exactly one point. */
  predicate WritablePoint(g: Geometry) {
    |AsMultiPoint(g)| == 1 && WellFormedPoint(AsMultiPoint(g)[0])
  }

  /** A one-point record comes back as the same point, complete. */
  lemma PointRecordRoundTrip(code: string, g: Geometry, tail: seq<string>)
    requires WritablePoint(g)
    ensures ReadPointRecord([code] + ([code] + PointBody(g, tail)))
         == Ok(Read(Record(MultiPoint(AsMultiPoint(g)), true), [""] + tail))
  {
    var p := AsMultiPoint(g)[0];
    assert [p] == AsMultiPoint(g);
    ToIntOne();
    PointTextRoundTrip(p);
    NextCons(PointText(p), RecordEnd(tail));
    assert PointLines([p], RecordEnd(tail)) == [PointText(p)] + RecordEnd(tail);
    PointRecordSteps(code, code, "1", [PointText(p)] + RecordEnd(tail), [p], "0", [""] + tail);
  }

  /** A point-layer feature whose geometry is not a multi-point (a single
      point, or no geometry) or is an empty one is written with feature type
      1 and no coordinate line, so the reader takes the flag line `0` for the
      coordinate; it has no comma, and the read fails. */
  lemma NoPointsUnreadable(code: string, g: Geometry, tail: seq<string>)
    requires |AsMultiPoint(g)| == 0
    ensures ReadPointRecord([code] + ([code] + PointBody(g, tail))).Fail?
  {
    ToIntOne();
    assert PointBody(g, tail) == ["1"] + (["0"] + ([""] + tail));
    NextCons(code, [code] + PointBody(g, tail));
    NextCons(code, PointBody(g, tail));
    NextCons("1", ["0"] + ([""] + tail));
    NextCons("0", [""] + tail);
    assert ReadCoordinate("0").Fail?;
  }

  /** A record of two or more points does not come back: its first point line
      is taken as the point count (0, for the comma), its second as the flag,
      so the record decodes to an empty multi-point that is not complete and
      leaves the remaining point lines unread. */
  lemma MultiPointLost(code: string, pts: seq<Point>, tail: seq<string>)
    requires |pts| >= 2 && WellFormedPoints(pts)
    ensures ReadPointRecord([code] + ([code] + PointBody(MultiPoint(pts), tail)))
         == Ok(Read(Record(MultiPoint([]), false), PointLines(pts[2..], RecordEnd(tail))))
  {
    var after := PointLines(pts[2..], RecordEnd(tail));
    var t0, t1 := PointText(pts[0]), PointText(pts[1]);
    assert pts[1..][1..] == pts[2..];
    assert PointLines(pts, RecordEnd(tail)) == [t0] + ([t1] + after);
    PointTextRoundTrip(pts[0]);
    PointTextRoundTrip(pts[1]);
    assert ToInt(t0) == 0;
    ToIntFour();
    NextCons(t0, [t1] + after);
    assert ReadPointCoordinates([t0] + ([t1] + after), 4) == Ok(Read([], [t1] + after));
    PointRecordSteps(code, code, "4", [t0] + ([t1] + after), [], t1, after);
    assert t1 != "0" by {
      assert ',' in t1;
    }
  }

  // ---------------------------------------------------------------------------
  // Line records

  /** The parts a line record is written with: the multi-line's parts, or
      the single line as the one part. */
  function LinePartsOf(g: Geometry): (r: seq<PolylineXY>)
    ensures |r| > 0
    ensures g.MultiLineString? && |g.lines| > 0 ==> r == g.lines
    ensures g.LineString? ==> r == [g.vertices]
  {
    if |AsMultiPolyline(g)| > 0 then AsMultiPolyline(g) else [AsPolyline(g)]
  }

  predicate WritablePart(part: PolylineXY) {
    Countable(|part|) && WellFormedPoints(part)
  }

  predicate WritableLine(g: Geometry) {
    var parts := LinePartsOf(g);
    Countable(|parts|) && forall k :: 0 <= k < |parts| ==> WritablePart(parts[k])
  }

  /** One part, then the parts after it. */
  lemma LinePartsStep(parts: seq<PolylineXY>, tail: seq<string>)
    requires |parts| > 0 && WritablePart(parts[0])
    requires ReadLineParts(LineParts(parts[1..], tail), |parts| - 1) == Ok(Read(parts[1..], tail))
    ensures ReadLineParts(LineParts(parts, tail), |parts|) == Ok(Read(parts, tail))
  {
    var part := parts[0];
    var more := LineParts(parts[1..], tail);
    ReadPointsRoundTrip(part, more);
    LinePartStep(|part|, PointLines(part, more), |parts|, part, more, parts[1..], tail);
    HeadTail(parts);
  }

  /** The parts of a direct-coordinate line read back as written. */
  lemma {:induction false} ReadLinePartsRoundTrip(parts: seq<PolylineXY>, tail: seq<string>)
    requires forall k :: 0 <= k < |parts| ==> WritablePart(parts[k])
    ensures ReadLineParts(LineParts(parts, tail), |parts|) == Ok(Read(parts, tail))
    decreases |parts|
  {
    if |parts| > 0 {
      assert |parts[1..]| == |parts| - 1;
      ReadLinePartsRoundTrip(parts[1..], tail);
      LinePartsStep(parts, tail);
    }
  }

  /** A line record comes back as the parts written, complete. */
  lemma LineRecordRoundTrip(code: string, g: Geometry, tail: seq<string>)
    requires WritableLine(g)
    ensures ReadLineRecord([code] + ([code] + LineBody(g, tail)))
         == Ok(Read(Record(MultiLineString(LinePartsOf(g)), true), [""] + tail))
  {
    var parts := LinePartsOf(g);
    var rest := LineParts(parts, RecordEnd(tail));
    assert [code] + ([code] + LineBody(g, tail)) == [code] + ([code] + (["1"] + ([IntToString(|parts|)] + rest))) by {
      LineBodyShape(g, tail);
    }
    assert ReadLineParts(rest, |parts|) == Ok(Read(parts, ["0"] + ([""] + tail))) by {
      ReadLinePartsRoundTrip(parts, RecordEnd(tail));
    }
    LineRecordSteps(code, code, |parts|, rest, parts, "0", [""] + tail);
  }

  /** Both ways of writing a line record give the feature type, the part
      count and the parts. */
  lemma LineBodyShape(g: Geometry, tail: seq<string>)
    ensures LineBody(g, tail)
         == ["1"] + ([IntToString(|LinePartsOf(g)|)] + LineParts(LinePartsOf(g), RecordEnd(tail)))
  {
    if |AsMultiPolyline(g)| == 0 {
      assert IntToString(1) == "1";
      assert LineParts(LinePartsOf(g), RecordEnd(tail)) == LinePart(AsPolyline(g), RecordEnd(tail));
    }
  }

  /** A record of a multi-line with no parts is written through the
      single-line path, as one part of no points. */
  lemma EmptyLineGainsPart(code: string, tail: seq<string>)
    ensures ReadLineRecord([code] + ([code] + LineBody(MultiLineString([]), tail)))
         == Ok(Read(Record(MultiLineString([[]]), true), [""] + tail))
  {
    LineRecordRoundTrip(code, MultiLineString([]), tail);
  }

  // ---------------------------------------------------------------------------
  // Polygon records

  /** The polygons a polygon record is written with: the multi-polygon's
      polygons, or the single polygon as the one polygon. */
  function PolygonsOf(g: Geometry): (r: seq<PolygonXY>)
    ensures |r| > 0
    ensures g.MultiPolygon? && |g.polygons| > 0 ==> r == g.polygons
    ensures g.Polygon? ==> r == [g.rings]
  {
    if |AsMultiPolygon(g)| > 0 then AsMultiPolygon(g) else [AsPolygon(g)]
  }

  /** A polygon the border loop reads back: at least one ring, since a
      polygon opens with the point count of its first ring, and no empty ring
      after the first, since the point count 0 of such a ring would be taken
      for the end of the record. */
  predicate WritablePolygon(rings: PolygonXY) {
    && |rings| >= 1
    && forall k :: 0 <= k < |rings| ==> WritablePart(rings[k]) && (k > 0 ==> |rings[k]| > 0)
  }

  predicate WritablePolygons(g: Geometry) {
    var polygons := PolygonsOf(g);
    Countable(|polygons|) && forall k :: 0 <= k < |polygons| ==> WritablePolygon(polygons[k])
  }

  /** The loop state after subordinate rings join the open polygon. */
  function Joined(s: Scan, acc: PolygonXY, rings: PolygonXY): Scan {
    Scan(s.i + |rings|, s.borderCount + |rings|, s.done, Some(OpenPolygon(11, acc + rings)))
  }

  /** A ring with at least one point, then the lines that follow it. */
  lemma RingsCons(rings: PolygonXY, rest: seq<string>)
    requires |rings| > 0 && |rings[0]| > 0
    ensures Rings(rings, rest)
         == [IntToString(|rings[0]|)] + ([PointText(rings[0][0])] + PointLines(rings[0][1..], Rings(rings[1..], rest)))
  {
  }

  /** A subordinate ring is one round of the border loop. */
  lemma SubordinateRingRound(rings: PolygonXY, rest: seq<string>, s: Scan, acc: PolygonXY)
    requires |rings| > 0 && WritablePart(rings[0]) && |rings[0]| > 0
    requires s.open == Some(OpenPolygon(11, acc))
    ensures ScanRound(Rings(rings, rest), s) == Ok(Again(Rings(rings[1..], rest), Joined(s, acc, [rings[0]])))
  {
    var r := rings[0];
    var more := Rings(rings[1..], rest);
    var lines := [IntToString(|r|)] + ([PointText(r[0])] + PointLines(r[1..], more));
    assert Rings(rings, rest) == lines by { RingsCons(rings, rest); }
    assert ScanRound(lines, s)
        == Ok(Again(more, Scan(s.i + 1, s.borderCount + 1, s.done, Some(OpenPolygon(11, acc + [[r[0]] + r[1..]]))))) by {
      ReadPointsRoundTrip(r[1..], more);
      SubordinateRingStep(|r|, r[0], PointLines(r[1..], more), s, acc, r[1..], more);
    }
    HeadTail(r);
  }

  /** Joining one ring and then the others is joining them all. */
  lemma JoinedTwice(rings: PolygonXY, s: Scan, acc: PolygonXY)
    requires |rings| > 0
    ensures Joined(Joined(s, acc, [rings[0]]), acc + [rings[0]], rings[1..]) == Joined(s, acc, rings)
  {
    assert acc + [rings[0]] + rings[1..] == acc + rings;
  }

  /** One subordinate ring, then the rings after it. */
  lemma SubordinateRingsStep(rings: PolygonXY, rest: seq<string>, s: Scan, acc: PolygonXY)
    requires |rings| > 0 && WritablePart(rings[0]) && |rings[0]| > 0
    requires s.open == Some(OpenPolygon(11, acc))
    requires s.i <= s.borderCount
    requires ScanPolygon(Rings(rings[1..], rest), Joined(s, acc, [rings[0]]))
          == ScanPolygon(rest, Joined(Joined(s, acc, [rings[0]]), acc + [rings[0]], rings[1..]))
    ensures ScanPolygon(Rings(rings, rest), s) == ScanPolygon(rest, Joined(s, acc, rings))
  {
    assert ScanPolygon(Rings(rings, rest), s) == ScanPolygon(Rings(rings[1..], rest), Joined(s, acc, [rings[0]])) by {
      SubordinateRingRound(rings, rest, s, acc);
      ScanAgain(Rings(rings, rest), s, Rings(rings[1..], rest), Joined(s, acc, [rings[0]]));
    }
    JoinedTwice(rings, s, acc);
  }

  /** The rings after the first of a polygon are read as subordinate rings:
      each is added to the open polygon and raises the loop bound by one. */
  lemma {:induction false} SubordinateRings(rings: PolygonXY, rest: seq<string>, s: Scan, acc: PolygonXY)
    requires forall k :: 0 <= k < |rings| ==> WritablePart(rings[k]) && |rings[k]| > 0
    requires s.open == Some(OpenPolygon(11, acc))
    requires s.i <= s.borderCount
    ensures ScanPolygon(Rings(rings, rest), s) == ScanPolygon(rest, Joined(s, acc, rings))
    decreases |rings|
  {
    if |rings| == 0 {
      assert acc + rings == acc;
    } else {
      SubordinateRings(rings[1..], rest, Joined(s, acc, [rings[0]]), acc + [rings[0]]);
      SubordinateRingsStep(rings, rest, s, acc);
    }
  }

  /** A polygon, then the lines that follow it. */
  lemma PolygonsCons(polygons: seq<PolygonXY>, tail: seq<string>)
    requires |polygons| > 0 && |polygons[0]| > 0
    ensures Polygons(polygons, tail)
         == ["11"] + ([IntToString(|polygons[0][0]|)]
              + PointLines(polygons[0][0], Rings(polygons[0][1..], Polygons(polygons[1..], tail))))
  {
  }

  /** The loop state once a polygon's first ring has opened it. */
  function Opened(s: Scan, ring: PolylineXY): Scan {
    Scan(s.i + 1, s.borderCount, Flush(s.done, s.open), Some(OpenPolygon(11, [ring])))
  }

  /** The first ring of a polygon is one round of the border loop: it
      appends the open polygon and opens a new one. */
  lemma MainRingRound(polygons: seq<PolygonXY>, tail: seq<string>, s: Scan)
    requires |polygons| > 0 && WritablePolygon(polygons[0])
    ensures ScanRound(Polygons(polygons, tail), s)
         == Ok(Again(Rings(polygons[0][1..], Polygons(polygons[1..], tail)), Opened(s, polygons[0][0])))
  {
    var r0 := polygons[0][0];
    var more := Rings(polygons[0][1..], Polygons(polygons[1..], tail));
    var lines := ["11"] + ([IntToString(|r0|)] + PointLines(r0, more));
    assert Polygons(polygons, tail) == lines by { PolygonsCons(polygons, tail); }
    assert ScanRound(lines, s) == Ok(Again(more, Opened(s, r0))) by {
      ReadPointsRoundTrip(r0, more);
      MainRingStep(|r0|, PointLines(r0, more), s, r0, more);
    }
  }

  /** The rings of a polygon after its first. */
  lemma LaterRings(p: PolygonXY)
    requires WritablePolygon(p)
    ensures forall k :: 0 <= k < |p[1..]| ==> WritablePart(p[1..][k]) && |p[1..][k]| > 0
  {
    forall k | 0 <= k < |p[1..]|
      ensures WritablePart(p[1..][k]) && |p[1..][k]| > 0
    {
      assert p[1..][k] == p[k + 1];
    }
  }

  /** A polygon's rings, from its first, are read into a new open polygon. */
  lemma PolygonRounds(polygons: seq<PolygonXY>, tail: seq<string>, s: Scan)
    requires |polygons| > 0 && WritablePolygon(polygons[0])
    requires s.i < s.borderCount
    ensures ScanPolygon(Polygons(polygons, tail), s)
         == ScanPolygon(Polygons(polygons[1..], tail), Joined(Opened(s, polygons[0][0]), [polygons[0][0]], polygons[0][1..]))
  {
    var p := polygons[0];
    var after := Polygons(polygons[1..], tail);
    var s1 := Opened(s, p[0]);
    assert ScanPolygon(Polygons(polygons, tail), s) == ScanPolygon(Rings(p[1..], after), s1) by {
      MainRingRound(polygons, tail, s);
      ScanAgain(Polygons(polygons, tail), s, Rings(p[1..], after), s1);
    }
    LaterRings(p);
    SubordinateRings(p[1..], after, s1, [p[0]]);
  }

  /** One polygon, then the polygons after it. */
  lemma PolygonsStep(polygons: seq<PolygonXY>, tail: seq<string>, s: Scan)
    requires |polygons| > 0 && WritablePolygon(polygons[0])
    requires s.borderCount - s.i == |polygons|
    requires ScanPolygon(Polygons(polygons[1..], ["0"] + tail), Joined(Opened(s, polygons[0][0]), [polygons[0][0]], polygons[0][1..]))
          == Ok(Read(ScanEnd(Flush(s.done, s.open) + [polygons[0]] + polygons[1..], true), tail))
    ensures ScanPolygon(Polygons(polygons, ["0"] + tail), s)
         == Ok(Read(ScanEnd(Flush(s.done, s.open) + polygons, true), tail))
  {
    PolygonRounds(polygons, ["0"] + tail, s);
    AppendFirst(Flush(s.done, s.open), polygons);
  }

  /** The polygons of a record, followed by the `0` end token, are read back
      as written, after whatever polygon was open, provided the loop bound
      leaves one round per polygon. */
  lemma {:induction false} PolygonsScan(polygons: seq<PolygonXY>, tail: seq<string>, s: Scan)
    requires forall k :: 0 <= k < |polygons| ==> WritablePolygon(polygons[k])
    requires s.borderCount - s.i == |polygons|
    ensures ScanPolygon(Polygons(polygons, ["0"] + tail), s)
         == Ok(Read(ScanEnd(Flush(s.done, s.open) + polygons, true), tail))
    decreases |polygons|
  {
    if |polygons| == 0 {
      EndStep(tail, s);
      assert Flush(s.done, s.open) + polygons == Flush(s.done, s.open);
    } else {
      var p := polygons[0];
      var s2 := Joined(Opened(s, p[0]), [p[0]], p[1..]);
      HeadTail(p);
      PolygonsScan(polygons[1..], tail, s2);
      assert Flush(s2.done, s2.open) == Flush(s.done, s.open) + [p];
      PolygonsStep(polygons, tail, s);
    }
  }

  /** A polygon record comes back as the polygons written, complete; the
      mark point is read and dropped. */
  lemma PolygonRecordRoundTrip(code: string, g: Geometry, tail: seq<string>)
    requires WritablePolygons(g)
    ensures ReadPolygonRecord([code] + ([code] + PolygonBody(g, tail)))
         == Ok(Read(Record(MultiPolygon(PolygonsOf(g)), true), [""] + tail))
  {
    var polygons := PolygonsOf(g);
    if |AsMultiPolygon(g)| == 0 {
      assert IntToString(1) == "1";
      assert Polygons(polygons, RecordEnd(tail)) == PolygonLines(AsPolygon(g), RecordEnd(tail));
    }
    PolygonsScan(polygons, [""] + tail, Scan(0, |polygons|, [], None));
    assert Flush([], None) + polygons == polygons;
    PolygonRecordSteps(code, code, |polygons|, Polygons(polygons, RecordEnd(tail)),
                       ScanEnd(polygons, true), [""] + tail);
  }
}

=== FILE: sectiontrip.dfy ===
/** What the section readers make of the blocks the writer emits.  A
    geometry block brings back, in key order, one feature per record of the
    layer's type, stored under its key and carrying the geometry its record
    decodes to; the attribute block then puts every feature's values back
    onto the feature of the same id. */
module SectionRoundTrip {
  import opened Wrappers
  import opened Seqs
  import opened Text
  import opened Lines
  import opened Geometry
  import opened Features
  import opened Store
  import opened GeometryReader
  import opened AttributeReader
  import opened Writer
  import opened RecordRoundTrip
  import OrderedMap

  type Entries = seq<OrderedMap.Entry<Feature>>

  /** The three layer types that have a geometry block of their own. */
  predicate HasBlock(t: GeometryType) {
    t.PointGeometry? || t.LineGeometry? || t.PolygonGeometry?
  }

  /** The decoder that reads the block of a layer type. */
  function SectionOf(t: GeometryType): SectionKind
    requires HasBlock(t)
  {
    match t
    case PointGeometry => PointSection
    case LineGeometry => LineSection
    case _ => PolygonSection
  }

  /** The geometry a record of the layer type decodes to. */
  function Reread(t: GeometryType, g: Geometry): Geometry
    requires HasBlock(t)
  {
    match t
    case PointGeometry => MultiPoint(AsMultiPoint(g))
    case LineGeometry => MultiLineString(LinePartsOf(g))
    case _ => MultiPolygon(PolygonsOf(g))
  }

  /** A geometry whose record the layer type's decoder reads back whole. */
  predicate Writable(t: GeometryType, g: Geometry)
    requires HasBlock(t)
  {
    match t
    case PointGeometry => WritablePoint(g)
    case LineGeometry => WritableLine(g)
    case _ => WritablePolygons(g)
  }

  /** A record of a writable geometry comes back complete, as the geometry
      `Reread` names, with the blank separator line next. */
  lemma RecordReadBack(t: GeometryType, code: string, g: Geometry, after: seq<string>)
    requires HasBlock(t) && Writable(t, g)
    ensures ReadRecord(SectionOf(t), [code] + ([code] + RecordBody(t, g, after)))
         == Ok(Read(Record(Reread(t, g), true), [""] + after))
  {
    match t
    case PointGeometry => PointRecordRoundTrip(code, g, after);
    case LineGeometry => LineRecordRoundTrip(code, g, after);
    case PolygonGeometry => PolygonRecordRoundTrip(code, g, after);
  }

  /** A written id is never taken for a section's end marker. */
  lemma NumeralNotEnd(kind: SectionKind, n: int)
    ensures !AtSectionEnd(kind, IntToString(n))
  {
    var s := IntToString(n);
    match kind
    case PointSection => LacksChar(s, "PointEnd", 'E');
    case LineSection => LacksChar(s, "LineEnd", 'E');
    case PolygonSection =>
      assert s[0] != 'P';
  }

  /** Each block's end marker ends its own section. */
  lemma EndMarkers()
    ensures AtSectionEnd(PointSection, "PointEnd")
    ensures AtSectionEnd(LineSection, "LineEnd")
    ensures AtSectionEnd(PolygonSection, "PolygonEnd")
  {
    ContainsSelf("PointEnd");
    ContainsSelf("LineEnd");
  }

  // ---------------------------------------------------------------------------
  // Geometry blocks

  /** The feature a record decodes to: under the record's key, carrying that
      key as its id, the decoded geometry and no attributes. */
  function DecodedEntry(t: GeometryType, e: OrderedMap.Entry<Feature>): OrderedMap.Entry<Feature>
    requires HasBlock(t)
  {
    OrderedMap.Entry(e.key, Feature(e.key, Reread(t, e.value.geometry), []))
  }

  /** The features a geometry block's records decode to. */
  function Decoded(t: GeometryType, es: Entries): (r: Entries)
    requires HasBlock(t)
    ensures |r| == |es|
    ensures forall i :: 0 <= i < |es| ==> r[i].key == es[i].key
  {
    seq(|es|, i requires 0 <= i < |es| => DecodedEntry(t, es[i]))
  }

  lemma DecodedCons(t: GeometryType, es: Entries, fs: Entries)
    requires HasBlock(t) && |es| > 0
    ensures fs + Decoded(t, es) == (fs + [DecodedEntry(t, es[0])]) + Decoded(t, es[1..])
  {
    var d, d1 := Decoded(t, es), Decoded(t, es[1..]);
    assert d[1..] == d1 by {
      forall i | 0 <= i < |d1|
        ensures d[1..][i] == d1[i]
      {
        assert es[1..][i] == es[i + 1];
      }
    }
    AppendFirst(fs, d);
  }

  /** One complete record: the feature is stored under the id read, and the
      loop goes on after the blank separator line. */
  lemma RecordStep(kind: SectionKind, k: int, body: seq<string>, after: seq<string>, fs: FeatureMap, g: Geometry)
    requires IsInt32(k)
    requires ReadRecord(kind, body) == Ok(Read(Record(g, true), [""] + after))
    ensures ReadGeometrySection(kind, [IntToString(k)] + body, fs)
         == ReadGeometrySection(kind, after, OrderedMap.Insert(fs, k, Feature(k, g, [])))
  {
    NextCons(IntToString(k), body);
    NumeralNotEnd(kind, k);
    IntRoundTrip(k);
    NextCons("", after);
  }

  /** The end marker stops the section and leaves the map as it is. */
  lemma SectionEnd(kind: SectionKind, end: string, tail: seq<string>, fs: FeatureMap)
    requires AtSectionEnd(kind, end)
    ensures ReadGeometrySection(kind, [end] + tail, fs) == Ok(Read(fs, tail))
  {
    NextCons(end, tail);
  }

  /** The features still to come lie above the map built so far, and the
      first of them lies above every key already present. */
  lemma Growing(fs: FeatureMap, es: Entries, e: OrderedMap.Entry<Feature>)
    requires OrderedMap.Ascending(es) && OrderedMap.Precedes(fs, es)
    requires |es| > 0 && e.key == es[0].key
    ensures OrderedMap.Below(fs, e.key)
    ensures OrderedMap.Ascending(fs + [e])
    ensures OrderedMap.Precedes(fs + [e], es[1..])
  {
    assert forall j :: 0 <= j < |es[1..]| ==> es[1..][j].key > es[0].key by {
      forall j | 0 <= j < |es[1..]|
        ensures es[1..][j].key > es[0].key
      {
        assert es[1..][j] == es[j + 1];
      }
    }
  }

  /** The first record of a block read into the map, the loop going on at
      the next record. */
  lemma FirstRecord(t: GeometryType, es: Entries, code: string, tail: seq<string>, fs: FeatureMap)
    requires HasBlock(t) && |es| > 0
    requires IsInt32(es[0].key) && Writable(t, es[0].value.geometry)
    requires OrderedMap.Below(fs, es[0].key) && OrderedMap.Ascending(fs + [DecodedEntry(t, es[0])])
    ensures ReadGeometrySection(SectionOf(t), Records(t, es, code, tail), fs)
         == ReadGeometrySection(SectionOf(t), Records(t, es[1..], code, tail), fs + [DecodedEntry(t, es[0])])
  {
    var g := es[0].value.geometry;
    var after := Records(t, es[1..], code, tail);
    var e := DecodedEntry(t, es[0]);
    RecordReadBack(t, code, g, after);
    RecordStep(SectionOf(t), es[0].key, [code] + ([code] + RecordBody(t, g, after)), after, fs, Reread(t, g));
    OrderedMap.InsertAbove(fs, e.key, e.value);
  }

  /** A geometry block of writable records, read by its decoder, adds the
      decoded features after those already in the map, in the order written,
      and stops after its end marker. */
  lemma {:induction false} GeometrySectionRoundTrip(t: GeometryType, es: Entries, code: string,
                                                    end: string, tail: seq<string>, fs: FeatureMap)
    requires HasBlock(t) && AtSectionEnd(SectionOf(t), end)
    requires OrderedMap.Ascending(es) && OrderedMap.Precedes(fs, es)
    requires forall i :: 0 <= i < |es| ==> IsInt32(es[i].key) && Writable(t, es[i].value.geometry)
    ensures OrderedMap.Ascending(fs + Decoded(t, es))
    ensures var r := ReadGeometrySection(SectionOf(t), Records(t, es, code, [end] + tail), fs);
            r.Ok? && r.value.value == fs + Decoded(t, es) && r.value.rest == tail
    decreases |es|
  {
    if |es| == 0 {
      SectionEnd(SectionOf(t), end, tail, fs);
      assert fs + Decoded(t, es) == fs;
    } else {
      var e := DecodedEntry(t, es[0]);
      Growing(fs, es, e);
      FirstRecord(t, es, code, [end] + tail, fs);
      GeometrySectionRoundTrip(t, es[1..], code, end, tail, fs + [e]);
      DecodedCons(t, es, fs);
    }
  }

  // ---------------------------------------------------------------------------
  // The attribute block

  /** The rows of a table read from their first line on: the row loop of
      `readAttribute` entered with the next line as its current one. */
  function RowsFrom(lines: seq<string>, fs: FeatureMap): Res<Read<FeatureMap>> {
    var first :- Next(lines);
    ReadRows(first.value, first.rest, fs)
  }

  /** A feature whose attribute row reads back: stored under its own id, a
      value of the source's `int`, and with no value that holds a comma or
      the table's end marker. */
  predicate RowWritable(e: OrderedMap.Entry<Feature>) {
    var vs := e.value.attributes;
    && IsInt32(e.key) && e.value.id == e.key
    && forall k :: 0 <= k < |vs| ==> ',' !in ValueText(vs[k]) && !Contains(ValueText(vs[k]), "TableEnd")
  }

  /** The feature a decoded record becomes once its row is merged: its values
      come back as text, a null value as the empty string. */
  function RestoredEntry(t: GeometryType, e: OrderedMap.Entry<Feature>): OrderedMap.Entry<Feature>
    requires HasBlock(t)
  {
    OrderedMap.Entry(e.key, Feature(e.key, Reread(t, e.value.geometry), Texts(ValueTexts(e.value.attributes))))
  }

  function Restored(t: GeometryType, es: Entries): (r: Entries)
    requires HasBlock(t)
    ensures |r| == |es|
    ensures forall i :: 0 <= i < |es| ==> r[i].key == es[i].key
  {
    seq(|es|, i requires 0 <= i < |es| => RestoredEntry(t, es[i]))
  }

  lemma RestoredCons(t: GeometryType, es: Entries, fs: Entries)
    requires HasBlock(t) && |es| > 0
    ensures fs + Restored(t, es) == (fs + [RestoredEntry(t, es[0])]) + Restored(t, es[1..])
  {
    var d, d1 := Restored(t, es), Restored(t, es[1..]);
    assert d[1..] == d1 by {
      forall i | 0 <= i < |d1|
        ensures d[1..][i] == d1[i]
      {
        assert es[1..][i] == es[i + 1];
      }
    }
    AppendFirst(fs, d);
  }

  /** The row of a feature with values is its id and its values, joined by
      commas; it splits back into them, and holds no end marker. */
  lemma RowSplits(f: Feature)
    requires |f.attributes| > 0
    requires forall k :: 0 <= k < |f.attributes| ==> ',' !in ValueText(f.attributes[k]) && !Contains(ValueText(f.attributes[k]), "TableEnd")
    ensures var line := "" + IntToString(f.id) + "," + Join(ValueTexts(f.attributes), ',');
            Split(line, ',') == [IntToString(f.id)] + ValueTexts(f.attributes) && !Contains(line, "TableEnd")
  {
    var num := IntToString(f.id);
    var vs := ValueTexts(f.attributes);
    var parts := [num] + vs;
    assert parts[1..] == vs;
    assert Join(parts, ',') == "" + num + "," + Join(vs, ',');
    NumeralHasNoComma(f.id);
    SplitJoin(parts, ',');
    LacksChar(num, "TableEnd", 'T');
    JoinAvoids(parts, ',', "TableEnd");
  }

  /** A row merged into the map replaces, in place, the attributes of the
      feature stored under the row's id. */
  lemma MergeAt(m: FeatureMap, i: int, line: string, vs: seq<string>)
    requires 0 <= i < |m| && IsInt32(m[i].key)
    requires Split(line, ',') == [IntToString(m[i].key)] + vs
    ensures MergeRow(m, line) == m[..i] + [OrderedMap.Entry(m[i].key, m[i].value.(attributes := Texts(vs)))] + m[i + 1..]
  {
    IntRoundTrip(m[i].key);
    assert Split(line, ',')[1..] == vs;
    OrderedMap.GetAt(m, i);
    OrderedMap.InsertReplaces(m, i, m[i].value.(attributes := Texts(vs)));
  }

  /** A row without the end marker is merged, and the loop goes on. */
  lemma RowStep(line: string, rest: seq<string>, fs: FeatureMap)
    requires !Contains(line, "TableEnd")
    ensures RowsFrom([line] + rest, fs) == RowsFrom(rest, MergeRow(fs, line))
  {
    NextCons(line, rest);
  }

  /** Merging the first row of the rows still to come. */
  lemma FirstRow(t: GeometryType, es: Entries, p: FeatureMap, m: FeatureMap)
    requires HasBlock(t) && |es| > 0 && RowWritable(es[0]) && |es[0].value.attributes| > 0
    requires m == p + Decoded(t, es)
    ensures var line := "" + IntToString(es[0].value.id) + "," + Join(ValueTexts(es[0].value.attributes), ',');
            !Contains(line, "TableEnd") && MergeRow(m, line) == (p + [RestoredEntry(t, es[0])]) + Decoded(t, es[1..])
  {
    var f := es[0].value;
    RowSplits(f);
    DecodedCons(t, es, p);
    var i := |p|;
    assert m[i] == DecodedEntry(t, es[0]);
    assert m[..i] == p;
    assert m[i + 1..] == Decoded(t, es[1..]);
    MergeAt(m, i, "" + IntToString(f.id) + "," + Join(ValueTexts(f.attributes), ','), ValueTexts(f.attributes));
  }

  /** The end of a table: the row loop stops at the `TableEnd` line and
      leaves the map as it is. */
  lemma RowsEnd(pending: string, tail: seq<string>, fs: FeatureMap)
    ensures RowsFrom([pending + "TableEnd"] + tail, fs) == Ok(Read(fs, tail))
  {
    NextCons(pending + "TableEnd", tail);
    ContainsSuffix(pending, "TableEnd");
  }

  /** The rows of features that all carry values, read over the decoded
      features, give every feature back its values, in place. */
  lemma {:induction false} AttributeRowsRoundTrip(t: GeometryType, es: Entries, p: FeatureMap, tail: seq<string>)
    requires HasBlock(t) && OrderedMap.Ascending(p + Decoded(t, es))
    requires forall i :: 0 <= i < |es| ==> RowWritable(es[i]) && |es[i].value.attributes| > 0
    ensures var r := RowsFrom(AttributeRows(es, "", tail), p + Decoded(t, es));
            r.Ok? && r.value.value == p + Restored(t, es) && r.value.rest == tail
    decreases |es|
  {
    if |es| == 0 {
      RowsEnd("", tail, p);
      assert p + Decoded(t, es) == p;
      assert p + Restored(t, es) == p;
    } else {
      RowsHeadStep(t, es, p, tail);
      LaterRowsWritable(es);
      var q: FeatureMap := p + [RestoredEntry(t, es[0])];
      AttributeRowsRoundTrip(t, es[1..], q, tail);
      RestoredCons(t, es, p);
    }
  }

  /** The first row read: the rows of the others remain, over the features
      with the first one's values restored. */
  lemma RowsHeadStep(t: GeometryType, es: Entries, p: FeatureMap, tail: seq<string>)
    requires HasBlock(t) && |es| > 0 && OrderedMap.Ascending(p + Decoded(t, es))
    requires RowWritable(es[0]) && |es[0].value.attributes| > 0
    ensures OrderedMap.Ascending(p + [RestoredEntry(t, es[0])])
    ensures OrderedMap.Ascending((p + [RestoredEntry(t, es[0])]) + Decoded(t, es[1..]))
    ensures RowsFrom(AttributeRows(es, "", tail), p + Decoded(t, es))
         == RowsFrom(AttributeRows(es[1..], "", tail), (p + [RestoredEntry(t, es[0])]) + Decoded(t, es[1..]))
  {
    var f := es[0].value;
    var line := "" + IntToString(f.id) + "," + Join(ValueTexts(f.attributes), ',');
    FirstRow(t, es, p, p + Decoded(t, es));
    var m := MergeRow(p + Decoded(t, es), line);
    var q := p + [RestoredEntry(t, es[0])];
    assert OrderedMap.Ascending(q) by {
      assert q == m[..|q|];
    }
    RowStep(line, AttributeRows(es[1..], "", tail), p + Decoded(t, es));
  }

  lemma LaterRowsWritable(es: Entries)
    requires |es| > 0 && forall i :: 0 <= i < |es| ==> RowWritable(es[i]) && |es[i].value.attributes| > 0
    ensures forall i :: 0 <= i < |es[1..]| ==> RowWritable(es[1..][i]) && |es[1..][i].value.attributes| > 0
  {
    forall i | 0 <= i < |es[1..]|
      ensures RowWritable(es[1..][i]) && |es[1..][i].value.attributes| > 0
    {
      assert es[1..][i] == es[i + 1];
    }
  }

  /** When no feature carries values, every row is `id,` with no line break:
      all of them run into the one line that ends in `TableEnd`. */
  lemma {:induction false} GluedRows(es: Entries, pending: string, tail: seq<string>)
    requires forall i :: 0 <= i < |es| ==> |es[i].value.attributes| == 0
    ensures var rows := AttributeRows(es, pending, tail);
            |rows| > 0 && rows[1..] == tail && Contains(rows[0], "TableEnd")
    decreases |es|
  {
    if |es| == 0 {
      ContainsSuffix(pending, "TableEnd");
    } else {
      GluedRows(es[1..], pending + IntToString(es[0].value.id) + ",", tail);
    }
  }

  /** Values that are all empty come back as they were: there are none. */
  lemma NothingToRestore(t: GeometryType, es: Entries)
    requires HasBlock(t)
    requires forall i :: 0 <= i < |es| ==> |es[i].value.attributes| == 0
    ensures Restored(t, es) == Decoded(t, es)
  {
    assert forall i :: 0 <= i < |es| ==> Texts(ValueTexts(es[i].value.attributes)) == [];
  }

  /** The row loop and the table loop of `readAttribute` around one table. */
  lemma TableStep(table: string, rows: seq<string>, fs: FeatureMap, result: FeatureMap, tail: seq<string>)
    requires !Contains(table, "AttributeEnd")
    requires RowsFrom(rows, fs) == Ok(Read(result, ["AttributeEnd"] + tail))
    ensures ReadAttribute([table] + rows, fs) == Ok(Read(result, tail))
  {
    NextCons(table, rows);
    NextCons("AttributeEnd", tail);
    ContainsSelf("AttributeEnd");
    assert |rows| > 0;
    assert ReadRows(rows[0], rows[1..], fs) == Ok(Read(result, ["AttributeEnd"] + tail));
    assert ReadTables("AttributeEnd", tail, result) == Ok(Read(result, tail));
  }

  /** The attribute block read over the features its geometry block
      decoded to: every feature gets its values back as text, in place, when
      either every feature carries values or none does (as when each carries
      one per field). */
  lemma AttributeSectionRoundTrip(t: GeometryType, es: Entries, table: string, tail: seq<string>)
    requires HasBlock(t) && OrderedMap.Ascending(es) && !Contains(table, "AttributeEnd")
    requires forall i :: 0 <= i < |es| ==> RowWritable(es[i])
    requires (forall i :: 0 <= i < |es| ==> |es[i].value.attributes| > 0)
          || (forall i :: 0 <= i < |es| ==> |es[i].value.attributes| == 0)
    ensures OrderedMap.Ascending(Decoded(t, es))
    ensures var r := ReadAttribute([table] + AttributeRows(es, "", ["AttributeEnd"] + tail), Decoded(t, es));
            r.Ok? && r.value.value == Restored(t, es) && r.value.rest == tail
  {
    DecodedAscending(t, es);
    if forall i :: 0 <= i < |es| ==> |es[i].value.attributes| > 0 {
      ValuedTable(t, es, table, tail);
    } else {
      BareTable(t, es, table, tail);
    }
  }

  lemma DecodedAscending(t: GeometryType, es: Entries)
    requires HasBlock(t) && OrderedMap.Ascending(es)
    ensures OrderedMap.Ascending(Decoded(t, es))
  {
    var d := Decoded(t, es);
    assert forall i :: 0 <= i < |d| ==> d[i].key == es[i].key;
  }

  /** The table of features that all carry values. */
  lemma ValuedTable(t: GeometryType, es: Entries, table: string, tail: seq<string>)
    requires HasBlock(t) && OrderedMap.Ascending(Decoded(t, es)) && !Contains(table, "AttributeEnd")
    requires forall i :: 0 <= i < |es| ==> RowWritable(es[i]) && |es[i].value.attributes| > 0
    ensures var r := ReadAttribute([table] + AttributeRows(es, "", ["AttributeEnd"] + tail), Decoded(t, es));
            r.Ok? && r.value.value == Restored(t, es) && r.value.rest == tail
  {
    var d: FeatureMap := Decoded(t, es);
    var rows := AttributeRows(es, "", ["AttributeEnd"] + tail);
    assert [] + d == d;
    AttributeRowsRoundTrip(t, es, [], ["AttributeEnd"] + tail);
    assert [] + Restored(t, es) == Restored(t, es);
    TableStep(table, rows, d, Restored(t, es), tail);
  }

  /** The table of features none of which carries values. */
  lemma BareTable(t: GeometryType, es: Entries, table: string, tail: seq<string>)
    requires HasBlock(t) && OrderedMap.Ascending(Decoded(t, es)) && !Contains(table, "AttributeEnd")
    requires forall i :: 0 <= i < |es| ==> |es[i].value.attributes| == 0
    ensures var r := ReadAttribute([table] + AttributeRows(es, "", ["AttributeEnd"] + tail), Decoded(t, es));
            r.Ok? && r.value.value == Restored(t, es) && r.value.rest == tail
  {
    var d: FeatureMap := Decoded(t, es);
    var rows := AttributeRows(es, "", ["AttributeEnd"] + tail);
    GluedRows(es, "", ["AttributeEnd"] + tail);
    assert rows == [rows[0]] + (["AttributeEnd"] + tail);
    RowsStop(rows[0], ["AttributeEnd"] + tail, d);
    NothingToRestore(t, es);
    TableStep(table, rows, d, d, tail);
  }

  /** A line holding `TableEnd` ends the row loop. */
  lemma RowsStop(line: string, tail: seq<string>, fs: FeatureMap)
    requires Contains(line, "TableEnd")
    ensures RowsFrom([line] + tail, fs) == Ok(Read(fs, tail))
  {
    NextCons(line, tail);
  }
}

=== FILE: seqs.dfy ===
/** Facts about taking sequences apart at their first element, shared by
    the proofs that walk a list of lines, entries or parts one at a time. */
module Seqs {

  /** A non-empty sequence is its first element and the rest. */
  lemma HeadTail<T>(xs: seq<T>)
    requires |xs| > 0
    ensures [xs[0]] + xs[1..] == xs
  {
  }

  /** An element put in front of a sequence is its first element, and the
      sequence is the rest. */
  lemma Cons<T>(x: T, xs: seq<T>)
    ensures |[x] + xs| > 0 && ([x] + xs)[0] == x && ([x] + xs)[1..] == xs
  {
  }

  /** A non-empty sequence, then more: its first element, then the rest of
      it and the more. */
  lemma FirstThen<T>(xs: seq<T>, ys: seq<T>)
    requires |xs| > 0
    ensures xs + ys == [xs[0]] + (xs[1..] + ys)
  {
  }

  /** An empty sequence, then more: just the more. */
  lemma NothingThen<T>(xs: seq<T>, ys: seq<T>)
    requires |xs| == 0
    ensures xs + ys == ys
  {
  }

  /** A prefix, then a non-empty sequence: the prefix with the first element
      added, then the rest. */
  lemma AppendFirst<T>(done: seq<T>, xs: seq<T>)
    requires |xs| > 0
    ensures done + [xs[0]] + xs[1..] == done + xs
    ensures done + xs == (done + [xs[0]]) + xs[1..]
  {
    HeadTail(xs);
  }
}

=== FILE: store.dfy ===
/** The state of a VCT layer held in memory (the private members of
    `QgsVctProvider`): document metadata, the field catalog and the features
    keyed by id. */
module Store {
  import opened Wrappers
  import opened Geometry
  import opened Features
  import OrderedMap

  /** A `QgsField`: name, storage type, type name as written in the file,
      length and precision. */
  datatype Field = Field(name: string, ty: VariantType, typeName: string, length: int, precision: int)

  /** The layer's `QgsWkbTypes::Type`; `WkbNoGeometry` until a feature-code
      record says otherwise. */
  datatype WkbType = WkbNoGeometry | WkbMultiPoint | WkbMultiLineString | WkbMultiPolygon | WkbUnknown

  /** `mGeometryType`, which always moves together with `mWkbType`; its
      default, paired with `WkbNoGeometry`, is `UnknownGeometry`. */
  function LayerGeometryType(w: WkbType): GeometryType {
    match w
    case WkbMultiPoint => PointGeometry
    case WkbMultiLineString => LineGeometry
    case WkbMultiPolygon => PolygonGeometry
    case _ => UnknownGeometry
  }

  /** `QgsWkbTypes::geometryType(mWkbType)`. */
  function WkbGeometryType(w: WkbType): GeometryType {
    if w.WkbNoGeometry? then NullGeometry else LayerGeometryType(w)
  }

  /** The layer extent, by the tokens of its four bounds. */
  datatype Extent = Rect(xMin: string, yMin: string, xMax: string, yMax: string)

  /** `QgsRectangle()`: every bound at zero. */
  const DefaultExtent: Extent := Rect("0", "0", "0", "0")

  /** `DBL_MAX`, as text. */
  const DoubleMax: string := "1.7976931348623157e+308"

  /** `QgsRectangle::setMinimal()`: minima at the largest double, maxima at
      its negation, so that the rectangle is empty. */
  const MinimalExtent: Extent := Rect(DoubleMax, DoubleMax, "-" + DoubleMax, "-" + DoubleMax)

  type FeatureMap = OrderedMap.Map<Feature>

  datatype Store = Store(
    comments: seq<string>,        // mComments
    head: seq<string>,            // mHead, the verbatim header lines
    crs: Option<string>,          // mCrs, by its EPSG identifier
    extent: Extent,               // mExtent
    featureTypeCode: string,      // mFeatureTypeCode
    featureTypeName: string,      // mFeatureTypeName
    attributeTableName: string,   // mAttributeTableName
    wkbType: WkbType,             // mWkbType (and with it mGeometryType)
    customItems: seq<string>,     // mCustomItems
    fields: seq<Field>,           // mFields
    features: FeatureMap,         // mFeatures
    nextId: int                   // mNextFeatureId
  )

  /** A provider before anything is read: every member at its declared
      default. */
  const Empty: Store := Store([], [], None, DefaultExtent, "", "", "", WkbNoGeometry, [], [], [], 0)

  /** `isValid`: the feature-code record did not leave the kind unknown. */
  predicate IsValid(st: Store) {
    st.wkbType != WkbUnknown
  }

  /** Every feature carries exactly one value per field. */
  predicate AttributesMatchFields(st: Store) {
    forall i :: 0 <= i < |st.features| ==> |st.features[i].value.attributes| == |st.fields|
  }

  /** The id counter is above every id in use, so the next id handed out is
      fresh. */
  predicate FreshCounter(st: Store) {
    OrderedMap.Below(st.features, st.nextId)
  }

  /** Every feature's own id is the key it is stored under. */
  predicate IdsMatchKeys(st: Store) {
    forall i :: 0 <= i < |st.features| ==> st.features[i].value.id == st.features[i].key
  }

  function FieldNames(fields: seq<Field>): seq<string> {
    seq(|fields|, i requires 0 <= i < |fields| => fields[i].name)
  }

  /** No two fields share a name. */
  predicate DistinctNames(fields: seq<Field>) {
    forall i, j :: 0 <= i < j < |fields| ==> fields[i].name != fields[j].name
  }
}

=== FILE: text.dfy ===
/** The string operations the codec relies on, written out over `seq<char>`:
    substring search (`QString::contains`), splitting on one separator
    character (`QString::split` keeping empty parts), joining, and the
    decimal conversions `QString::toInt` and integer output on a
    `QTextStream`. */
module Text {
  import opened Seqs

  const IntMin: int := -0x8000_0000
  const IntMax: int := 0x7FFF_FFFF

  /** A value of the source's 32-bit `int`. */
  predicate IsInt32(n: int) {
    IntMin <= n <= IntMax
  }

  // ---------------------------------------------------------------------------
  // Substring search

  /** `s.contains(sub)`: `sub` occurs in `s` at some offset. */
  predicate Contains(s: string, sub: string)
    decreases |s|
  {
    sub <= s || (|s| > 0 && Contains(s[1..], sub))
  }

  /** An occurrence of `sub` in `s` starts at offset `i`. */
  predicate OccursAt(s: string, sub: string, i: int) {
    0 <= i <= |s| && sub <= s[i..]
  }

  /** `Contains` agrees with the definition by an explicit offset. */
  lemma {:induction false} ContainsIffOccurs(s: string, sub: string)
    ensures Contains(s, sub) <==> exists i :: OccursAt(s, sub, i)
    decreases |s|
  {
    if sub <= s {
      assert OccursAt(s, sub, 0);
    } else if |s| == 0 {
      assert forall i :: OccursAt(s, sub, i) ==> i == 0;
    } else {
      ContainsIffOccurs(s[1..], sub);
      if exists i :: OccursAt(s[1..], sub, i) {
        var i :| OccursAt(s[1..], sub, i);
        assert s[1..][i..] == s[i + 1..];
        assert OccursAt(s, sub, i + 1);
      }
      if exists i :: OccursAt(s, sub, i) {
        var i :| OccursAt(s, sub, i);
        assert i != 0;
        assert s[1..][i - 1..] == s[i..];
        assert OccursAt(s[1..], sub, i - 1);
      }
    }
  }

  /** Every string contains itself. */
  lemma ContainsSelf(s: string)
    ensures Contains(s, s)
  {
  }

  /** A string contains every suffix of itself. */
  lemma {:induction false} ContainsSuffix(a: string, b: string)
    ensures Contains(a + b, b)
    decreases |a|
  {
    if |a| > 0 {
      assert (a + b)[1..] == a[1..] + b;
      ContainsSuffix(a[1..], b);
    }
  }

  /** A string that contains `sub` contains every character of `sub`. */
  lemma {:induction false} ContainsNeedsChar(s: string, sub: string, c: char)
    requires c in sub
    requires Contains(s, sub)
    ensures c in s
    decreases |s|
  {
    if sub <= s {
      var k :| 0 <= k < |sub| && sub[k] == c;
      assert s[k] == c;
    } else {
      ContainsNeedsChar(s[1..], sub, c);
    }
  }

  /** The contrapositive used to rule markers out: a string lacking one of
      the marker's characters does not contain the marker. */
  lemma LacksChar(s: string, sub: string, c: char)
    requires c in sub && c !in s
    ensures !Contains(s, sub)
  {
    if Contains(s, sub) {
      ContainsNeedsChar(s, sub, c);
    }
  }

  /** A string shorter than `sub` does not contain it. */
  lemma {:induction false} TooShort(s: string, sub: string)
    requires |s| < |sub|
    ensures !Contains(s, sub)
    decreases |s|
  {
    if |s| > 0 {
      TooShort(s[1..], sub);
    }
  }

  /** An occurrence of `sub` cannot straddle a character `sub` lacks, so a
      string glued around such a character contains `sub` only if one of
      its sides does. */
  lemma {:induction false} ContainsAcross(a: string, c: char, b: string, sub: string)
    requires c !in sub
    requires !Contains(a, sub) && !Contains(b, sub)
    ensures !Contains(a + [c] + b, sub)
    decreases |a|
  {
    var s := a + [c] + b;
    assert |sub| > 0 && sub[0] != c;
    if |a| == 0 {
      assert s[1..] == b;
      assert s[0] == c;
    } else {
      assert s[1..] == a[1..] + [c] + b;
      ContainsAcross(a[1..], c, b, sub);
      if |sub| <= |a| {
        assert s[..|sub|] == a[..|sub|];
      } else {
        assert s[|a|] == c && sub[|a|] != c;
      }
    }
  }

  // ---------------------------------------------------------------------------
  // Splitting and joining

  /** `s.split(sep)` with empty parts kept: one part more than there are
      separators in `s`. */
  function Split(s: string, sep: char): (parts: seq<string>)
    ensures |parts| >= 1
    ensures |parts| == 1 <==> sep !in s
    ensures forall k :: 0 <= k < |parts| ==> sep !in parts[k]
    decreases |s|
  {
    if |s| == 0 then [""]
    else if s[0] == sep then [""] + Split(s[1..], sep)
    else
      var t := Split(s[1..], sep);
      assert sep in s <==> sep in s[1..] by {
        assert s == [s[0]] + s[1..];
      }
      [[s[0]] + t[0]] + t[1..]
  }

  /** The parts of `parts` written one after another with `sep` between
      neighbours. */
  function Join(parts: seq<string>, sep: char): string
    decreases |parts|
  {
    if |parts| == 0 then ""
    else if |parts| == 1 then parts[0]
    else parts[0] + [sep] + Join(parts[1..], sep)
  }

  /** Splitting after a separator-free first part peels that part off. */
  lemma {:induction false} SplitCons(a: string, sep: char, b: string)
    requires sep !in a
    ensures Split(a + [sep] + b, sep) == [a] + Split(b, sep)
    decreases |a|
  {
    var s := a + [sep] + b;
    if |a| == 0 {
      assert s[1..] == b;
    } else {
      assert s[1..] == a[1..] + [sep] + b;
      SplitCons(a[1..], sep, b);
      HeadTail(a);
    }
  }

  /** A string without the separator splits into itself. */
  lemma {:induction false} SplitSingle(s: string, sep: char)
    requires sep !in s
    ensures Split(s, sep) == [s]
    decreases |s|
  {
    if |s| > 0 {
      assert s == [s[0]] + s[1..];
      SplitSingle(s[1..], sep);
    }
  }

  /** Split undoes Join when no part holds the separator. */
  lemma {:induction false} SplitJoin(parts: seq<string>, sep: char)
    requires |parts| >= 1
    requires forall k :: 0 <= k < |parts| ==> sep !in parts[k]
    ensures Split(Join(parts, sep), sep) == parts
    decreases |parts|
  {
    if |parts| == 1 {
      SplitSingle(parts[0], sep);
    } else {
      SplitJoin(parts[1..], sep);
      SplitCons(parts[0], sep, Join(parts[1..], sep));
      HeadTail(parts);
    }
  }

  /** A search for a separator-free string finds it in a join only inside
      one of the parts. */
  lemma {:induction false} JoinAvoids(parts: seq<string>, sep: char, sub: string)
    requires sep !in sub
    requires forall k :: 0 <= k < |parts| ==> !Contains(parts[k], sub)
    requires |sub| > 0
    ensures !Contains(Join(parts, sep), sub)
    decreases |parts|
  {
    if |parts| == 0 {
      TooShort("", sub);
    } else if |parts| > 1 {
      JoinAvoids(parts[1..], sep, sub);
      ContainsAcross(parts[0], sep, Join(parts[1..], sep), sub);
    }
  }

  /** Join undoes Split: splitting loses nothing. */
  lemma {:induction false} JoinSplit(s: string, sep: char)
    ensures Join(Split(s, sep), sep) == s
    decreases |s|
  {
    if |s| == 0 {
    } else if s[0] == sep {
      JoinSplit(s[1..], sep);
      HeadTail(s);
    } else {
      JoinSplit(s[1..], sep);
      var t := Split(s[1..], sep);
      HeadTail(s);
      if |t| > 1 {
        assert ([[s[0]] + t[0]] + t[1..])[1..] == t[1..];
      }
    }
  }

  // ---------------------------------------------------------------------------
  // Decimal integers

  /** `QChar::isSpace`: the characters `QString::toInt` ignores at either
      end of its argument. */
  predicate IsSpace(c: char) {
    || c == ' ' || '\t' <= c <= '\r'
    || c == '\U{85}' || c == '\U{A0}' || c == '\U{1680}'
    || '\U{2000}' <= c <= '\U{200A}'
    || c == '\U{2028}' || c == '\U{2029}' || c == '\U{202F}'
    || c == '\U{205F}' || c == '\U{3000}'
  }

  function TrimStart(s: string): string
    decreases |s|
  {
    if |s| > 0 && IsSpace(s[0]) then TrimStart(s[1..]) else s
  }

  function TrimEnd(s: string): string
    decreases |s|
  {
    if |s| > 0 && IsSpace(s[|s| - 1]) then TrimEnd(s[..|s| - 1]) else s
  }

  /** `s` without leading and trailing white space. */
  function Trim(s: string): string {
    TrimEnd(TrimStart(s))
  }

  /** Trimming keeps every character that is not white space. */
  lemma {:induction false} TrimKeeps(s: string, c: char)
    requires c in s && !IsSpace(c)
    ensures c in Trim(s)
  {
    TrimStartKeeps(s, c);
    TrimEndKeeps(TrimStart(s), c);
  }

  lemma {:induction false} TrimStartKeeps(s: string, c: char)
    requires c in s && !IsSpace(c)
    ensures c in TrimStart(s)
    decreases |s|
  {
    if |s| > 0 && IsSpace(s[0]) {
      assert s == [s[0]] + s[1..];
      TrimStartKeeps(s[1..], c);
    }
  }

  lemma {:induction false} TrimEndKeeps(s: string, c: char)
    requires c in s && !IsSpace(c)
    ensures c in TrimEnd(s)
    decreases |s|
  {
    if |s| > 0 && IsSpace(s[|s| - 1]) {
      assert s == s[..|s| - 1] + [s[|s| - 1]];
      TrimEndKeeps(s[..|s| - 1], c);
    }
  }

  predicate IsDigit(c: char) {
    '0' <= c <= '9'
  }

  predicate AllDigits(s: string) {
    forall k :: 0 <= k < |s| ==> IsDigit(s[k])
  }

  /** The number a non-empty run of decimal digits denotes. */
  function DigitsValue(s: string): nat
    requires AllDigits(s)
    decreases |s|
  {
    if |s| == 0 then 0
    else DigitsValue(s[..|s| - 1]) * 10 + (s[|s| - 1] as int - '0' as int)
  }

  /** `QString::toInt()` in base 10: surrounding white space is ignored, an
      optional sign is followed by one or more ASCII digits, and the value
      must fit a 32-bit `int`; any other text converts to 0. */
  function ToInt(s: string): (r: int)
    ensures IsInt32(r)
    ensures ',' in s ==> r == 0
  {
    var t := Trim(s);
    assert ',' in s ==> ',' in t by {
      if ',' in s {
        TrimKeeps(s, ',');
      }
    }
    if |t| == 0 then 0
    else
      var digits := if t[0] == '-' || t[0] == '+' then t[1..] else t;
      assert ',' in t ==> ',' in digits by {
        if ',' in t {
          var k :| 0 <= k < |t| && t[k] == ',';
          assert k != 0 || !(t[0] == '-' || t[0] == '+');
        }
      }
      if |digits| == 0 || !AllDigits(digits) then 0
      else
        var v: int := if t[0] == '-' then -(DigitsValue(digits) as int) else DigitsValue(digits);
        if IsInt32(v) then v else 0
  }

  function DigitChar(d: nat): (c: char)
    requires d < 10
    ensures IsDigit(c) && c as int - '0' as int == d
  {
    ('0' as int + d) as char
  }

  /** The shortest decimal representation of `n`. */
  function NatToString(n: nat): (s: string)
    ensures |s| >= 1 && AllDigits(s)
    decreases n
  {
    if n < 10 then [DigitChar(n)] else NatToString(n / 10) + [DigitChar(n % 10)]
  }

  /** How a `QTextStream` writes an integer: a minus sign for negative values,
      then the decimal digits. */
  function IntToString(n: int): (s: string)
    ensures |s| >= 1
    ensures forall k :: 0 <= k < |s| ==> IsDigit(s[k]) || s[k] == '-'
  {
    if n < 0 then "-" + NatToString(-n) else NatToString(n)
  }

  lemma {:induction false} DigitsOfNat(n: nat)
    ensures DigitsValue(NatToString(n)) == n
    decreases n
  {
    var s := NatToString(n);
    if n >= 10 {
      DigitsOfNat(n / 10);
      assert s[..|s| - 1] == NatToString(n / 10);
    }
  }

  /** Digits and signs are not white space, so trimming leaves them alone. */
  lemma TrimNumeral(s: string)
    requires |s| >= 1
    requires forall k :: 0 <= k < |s| ==> IsDigit(s[k]) || s[k] == '-'
    ensures Trim(s) == s
  {
  }

  /** Reading back a written integer gives the integer, for every value of
      the source's 32-bit `int`. */
  lemma IntRoundTrip(n: int)
    requires IsInt32(n)
    ensures ToInt(IntToString(n)) == n
  {
    var s := IntToString(n);
    TrimNumeral(s);
    if n < 0 {
      DigitsOfNat(-n);
      assert s[1..] == NatToString(-n);
    } else {
      DigitsOfNat(n);
    }
  }

  /** No written integer carries a comma. */
  lemma NumeralHasNoComma(n: int)
    ensures ',' !in IntToString(n)
  {
  }
}

=== FILE: validity.dfy ===
/** `isValid`: a provider is valid unless its FeatureCode section named a
    kind the reader does not know.  Only the FeatureCode reader sets the
    kind; every other section leaves it as it was. */
module Validity {
  import opened Wrappers
  import opened Text
  import opened Lines
  import opened Geometry
  import opened Store
  import opened HeaderReader
  import opened Reader
  import opened Writer

  /** The kind tokens the FeatureCode reader recognises. */
  predicate KnownKind(token: string) {
    Contains(token, "Point") || Contains(token, "Line") || Contains(token, "Polygon")
  }

  /** The header reader never changes the kind. */
  lemma {:induction false} ReadHeadKeepsKind(rest: seq<string>, st: Store)
    ensures ReadHead(rest, st).Ok? ==> ReadHead(rest, st).value.value.wkbType == st.wkbType
    decreases |rest|
  {
    if |rest| > 0 && !Contains(rest[0], "HeadEnd") {
      var st1 := ReadHeadLine(st, rest[0]);
      if st1.Ok? {
        ReadHeadKeepsKind(rest[1..], st1.value);
      }
    }
  }

  /** Every section reader except FeatureCode's leaves the kind alone. */
  lemma DispatchKeepsKind(m: Marker, rest: seq<string>, st: Store)
    requires m != FeatureCodeBegin
    ensures Dispatch(m, rest, st).Ok? ==> Dispatch(m, rest, st).value.value.wkbType == st.wkbType
  {
    if m == HeadBegin {
      ReadHeadKeepsKind(rest, st);
    }
  }

  /** After a FeatureCode section the provider is valid exactly when the
      kind item of its first line is a known kind. */
  lemma FeatureCodeValidity(rest: seq<string>, st: Store)
    requires ReadFeatureCode(rest, st).Ok?
    ensures |rest| > 0 && |Split(rest[0], ',')| >= 4
    ensures IsValid(ReadFeatureCode(rest, st).value.value) <==> KnownKind(Split(rest[0], ',')[2])
  {
    var values := Split(rest[0], ',');
    assert |values| >= 4;
    var items := ReadCustomItems(rest[1..], st.customItems);
    assert items.Ok?;
    assert ReadFeatureCode(rest, st).value.value.wkbType == KindOf(values[2]);
  }

  /** Lines outside every section are passed over: a document in which no
      line opens a section reads as the initial, valid, provider. */
  lemma NoSectionsRead(lines: seq<string>)
    requires forall i :: 0 <= i < |lines| ==> MarkerOf(lines[i]) == None
    ensures ReadData(lines) == Ok(Empty)
    ensures IsValid(Empty)
  {
    if |lines| > 0 {
      NoSectionsScan(lines[0], lines[1..], Empty);
    }
  }

  lemma {:induction false} NoSectionsScan(extra: string, rest: seq<string>, st: Store)
    requires MarkerOf(extra) == None
    requires forall i :: 0 <= i < |rest| ==> MarkerOf(rest[i]) == None
    ensures ReadSections(extra, rest, st) == Ok(st)
    decreases |rest|
  {
    if |rest| > 0 {
      assert MarkerOf(rest[0]) == None;
      NoSectionsScan(rest[0], rest[1..], st);
    }
  }

  /** A layer of none of the three kinds (the initial no-geometry layer, or
      an unknown kind) is written with no `code,name,kind,table` line and
      with every geometry block empty. */
  lemma NoKindWritesNoRecords(st: Store, t: GeometryType, begin: string, end: string, tail: seq<string>)
    requires !(LayerGeometryType(st.wkbType) in {PointGeometry, LineGeometry, PolygonGeometry})
    requires t in {PointGeometry, LineGeometry, PolygonGeometry}
    ensures FeatureCodeLine(st) == []
    ensures GeometryBlock(t, st, begin, end, tail) == [begin, end] + tail
  {
    assert KindName(LayerGeometryType(st.wkbType)) == "";
  }
}

=== FILE: wrappers.dfy ===
/** Failure-compatible wrappers shared by the whole model. */
module Wrappers {

  /** An optional value. */
  datatype Option<+T> = None | Some(value: T)

  /** Either a value or the reason the computation could not produce one;
      usable with `:-`. */
  datatype Result<+T, +E> = Ok(value: T) | Fail(error: E) {

    predicate IsFailure() {
      Fail?
    }

    function PropagateFailure<U>(): Result<U, E>
      requires Fail?
    {
      Fail(error)
    }

    function Extract(): T
      requires Ok?
    {
      value
    }
  }
}

=== FILE: writer.dfy ===
/** `writeData`: the whole document re-emitted from the store, as the lines
    of the file.  Sections come out in a fixed order (Head, FeatureCode,
    TableStructure, Point, Line, Polygon, an empty Annotation, Attribute);
    no Comment section is written, and only the geometry block matching the
    layer type holds records.

    Every writer takes the lines that follow what it writes (`tail`) and
    puts its own lines in front of them, as the output stream receives
    them. */
module Writer {
  import opened Text
  import opened Geometry
  import opened Features
  import opened Store
  import OrderedMap

  /** One `x,y` line per point. */
  function PointLines(pts: seq<Point>, tail: seq<string>): (r: seq<string>)
    ensures |r| == |pts| + |tail|
    decreases |pts|
  {
    if |pts| == 0 then tail else [PointText(pts[0])] + PointLines(pts[1..], tail)
  }

  /** The first lines of every record: the id, then the layer's feature-type
      code twice (as the feature code and as the graphic code). */
  function RecordStart(id: int, code: string, body: seq<string>): seq<string> {
    [IntToString(id)] + ([code] + ([code] + body))
  }

  /** The complete-record flag and the blank separator line. */
  function RecordEnd(tail: seq<string>): seq<string> {
    ["0"] + ([""] + tail)
  }

  // ---------------------------------------------------------------------------
  // Point records

  /** A point record after its two code lines: feature type 4 when the
      multi-point has more than one point, 1 otherwise, and then the points,
      with no count line in either case. */
  function PointBody(g: Geometry, tail: seq<string>): seq<string> {
    var pts := AsMultiPoint(g);
    [if |pts| > 1 then "4" else "1"] + PointLines(pts, RecordEnd(tail))
  }

  // ---------------------------------------------------------------------------
  // Line records

  /** A polyline part: line type 11, the point count, the points. */
  function LinePart(part: PolylineXY, tail: seq<string>): seq<string> {
    ["11"] + ([IntToString(|part|)] + PointLines(part, tail))
  }

  function LineParts(parts: seq<PolylineXY>, tail: seq<string>): seq<string>
    decreases |parts|
  {
    if |parts| == 0 then tail else LinePart(parts[0], LineParts(parts[1..], tail))
  }

  /** A line record after its two code lines: feature type 1 and the parts
      of the multi-line; a geometry with no multi-line parts is written as
      one part holding its single-line vertices. */
  function LineBody(g: Geometry, tail: seq<string>): seq<string> {
    var lines := AsMultiPolyline(g);
    ["1"] + (if |lines| > 0 then [IntToString(|lines|)] + LineParts(lines, RecordEnd(tail))
             else ["1"] + LinePart(AsPolyline(g), RecordEnd(tail)))
  }

  // ---------------------------------------------------------------------------
  // Polygon records

  /** The mark point, always written as the origin. */
  const MarkPoint: string := "0.0,0.0"

  /** A ring: its point count, then its points. */
  function RingLines(ring: PolylineXY, tail: seq<string>): seq<string> {
    [IntToString(|ring|)] + PointLines(ring, tail)
  }

  function Rings(rings: PolygonXY, tail: seq<string>): seq<string>
    decreases |rings|
  {
    if |rings| == 0 then tail else RingLines(rings[0], Rings(rings[1..], tail))
  }

  /** A polygon: geometry shape 11, then its rings. */
  function PolygonLines(rings: PolygonXY, tail: seq<string>): seq<string> {
    ["11"] + Rings(rings, tail)
  }

  function Polygons(polygons: seq<PolygonXY>, tail: seq<string>): seq<string>
    decreases |polygons|
  {
    if |polygons| == 0 then tail else PolygonLines(polygons[0], Polygons(polygons[1..], tail))
  }

  /** A polygon record after its two code lines: feature type 1, the mark
      point, the number of polygons and the polygons; a geometry with no
      multi-polygon parts is written as one polygon holding its
      single-polygon rings.  The `0` line that closes every record is what
      the polygon reader takes for its end token. */
  function PolygonBody(g: Geometry, tail: seq<string>): seq<string> {
    var polygons := AsMultiPolygon(g);
    ["1"] + ([MarkPoint]
      + (if |polygons| > 0 then [IntToString(|polygons|)] + Polygons(polygons, RecordEnd(tail))
         else ["1"] + PolygonLines(AsPolygon(g), RecordEnd(tail))))
  }

  // ---------------------------------------------------------------------------
  // Sections

  /** A record's lines after its two code lines, as the layer type writes
      them. */
  function RecordBody(t: GeometryType, g: Geometry, tail: seq<string>): seq<string> {
    match t
    case PointGeometry => PointBody(g, tail)
    case LineGeometry => LineBody(g, tail)
    case PolygonGeometry => PolygonBody(g, tail)
    case _ => tail
  }

  /** The records of `es` in map order, each under its key. */
  function Records(t: GeometryType, es: seq<OrderedMap.Entry<Feature>>, code: string, tail: seq<string>): seq<string>
    decreases |es|
  {
    if |es| == 0 then tail
    else RecordStart(es[0].key, code, RecordBody(t, es[0].value.geometry, Records(t, es[1..], code, tail)))
  }

  /** A geometry block: its begin and end markers, and between them the
      records when the block's type is the layer's. */
  function GeometryBlock(t: GeometryType, st: Store, begin: string, end: string, tail: seq<string>): seq<string> {
    [begin]
      + (if LayerGeometryType(st.wkbType) == t then Records(t, st.features, st.featureTypeCode, [end] + tail)
         else [end] + tail)
  }

  /** The name the FeatureCode line gives each of the three layer types that
      have one. */
  function KindName(t: GeometryType): string {
    match t
    case PointGeometry => "Point"
    case LineGeometry => "Line"
    case PolygonGeometry => "Polygon"
    case _ => ""
  }

  /** The `code,name,kind,table` line, for the three layer types that have
      one. */
  function FeatureCodeLine(st: Store): seq<string> {
    var kind := KindName(LayerGeometryType(st.wkbType));
    if kind == "" then []
    else [st.featureTypeCode + "," + st.featureTypeName + "," + kind + "," + st.attributeTableName]
  }

  /** A field line: `name,type`, where a field whose type name is `Double`
      gets its length glued to the type name, then a comma and its
      precision. */
  function FieldLine(f: Field): string {
    f.name + "," + f.typeName
      + (if f.typeName == "Double" then IntToString(f.length) + "," + IntToString(f.precision) else "")
  }

  function FieldLines(fields: seq<Field>, tail: seq<string>): seq<string>
    decreases |fields|
  {
    if |fields| == 0 then tail else [FieldLine(fields[0])] + FieldLines(fields[1..], tail)
  }

  function ValueTexts(vs: seq<Value>): (r: seq<string>)
    ensures |r| == |vs|
    ensures forall k :: 0 <= k < |vs| ==> r[k] == ValueText(vs[k])
  {
    seq(|vs|, k requires 0 <= k < |vs| => ValueText(vs[k]))
  }

  /** The attribute rows `id,v1,...,vk` in map order, each under the
      feature's own id, followed by `TableEnd`.  A feature without
      attributes gets `id,` and no line break, so its text runs into the
      next line: `pending` is that unterminated text. */
  function AttributeRows(es: seq<OrderedMap.Entry<Feature>>, pending: string, tail: seq<string>): seq<string>
    decreases |es|
  {
    if |es| == 0 then [pending + "TableEnd"] + tail
    else
      var f := es[0].value;
      var row := pending + IntToString(f.id) + ",";
      if |f.attributes| == 0 then AttributeRows(es[1..], row, tail)
      else [row + Join(ValueTexts(f.attributes), ',')] + AttributeRows(es[1..], "", tail)
  }

  function HeadBlock(st: Store, tail: seq<string>): seq<string> {
    ["HeadBegin"] + (st.head + (["HeadEnd"] + tail))
  }

  function FeatureCodeBlock(st: Store, tail: seq<string>): seq<string> {
    ["FeatureCodeBegin"] + (FeatureCodeLine(st) + (st.customItems + (["FeatureCodeEnd"] + tail)))
  }

  /** The table line `table,count` and the field lines; the `0` line and the
      end marker follow. */
  function TableStructureBlock(st: Store, tail: seq<string>): seq<string> {
    ["TableStructureBegin"] + ([st.attributeTableName + "," + IntToString(|st.fields|)]
      + FieldLines(st.fields, ["0"] + (["TableStructureEnd"] + tail)))
  }

  /** The Annotation section, always written empty. */
  function AnnotationBlock(tail: seq<string>): seq<string> {
    ["AnnotationBegin"] + (["AnnotationEnd"] + tail)
  }

  function AttributeBlock(st: Store, tail: seq<string>): seq<string> {
    ["AttributeBegin"] + ([st.attributeTableName] + AttributeRows(st.features, "", ["AttributeEnd"] + tail))
  }

  /** `writeData`. */
  function WriteData(st: Store): seq<string> {
    HeadBlock(st, FeatureCodeBlock(st, TableStructureBlock(st,
      GeometryBlock(PointGeometry, st, "PointBegin", "PointEnd",
      GeometryBlock(LineGeometry, st, "LineBegin", "LineEnd",
      GeometryBlock(PolygonGeometry, st, "PolygonBegin", "PolygonEnd",
      AnnotationBlock(AttributeBlock(st, []))))))))
  }
}
